=== FILE: README.md ===
# HTTP Signatures for Spring: a Dafny model of the signing core

This project models the request-signing core of a Spring library implementing
draft-cavage-http-signatures-11. The library ships as two near-identical source trees,
`tz.co` and `tz.go`. The model covers six parts:

- **Signature-parameter codec** (section 2.1 of the draft), in `codec.dfy`:
  - the `HttpSignature` value;
  - the index-scanning `fromHeader` parser and the `toSignatureHeader` serializer;
  - `validate`;
  - the required-header gate at the top of `verify`.
- **Signing string** (section 2.3 of the draft), in `canonical.dfy`:
  - `getSignedString`, with the `(request-target)` and `digest` pseudo-headers;
  - its strict mode (no `newHeaders` map) and its injecting mode, which synthesizes `date` and `host`;
  - the fixed-order `createCannonicalRequestString` and `createCannonicalResponseString`.
- **Signed-header policy** `SignedHeadersConfig`, in `policy.dfy`:
  - a method-to-configuration map looked up without regard to case;
  - a non-cumulative default;
  - the `always` list followed by the present `ifPresent` entries.
- **Algorithm registry** `Algorithm`, in `algorithm.dfy`:
  - normalization that removes non-alphanumerics and lower-cases;
  - the alias table over both names of each constant;
  - lookup, with an error for unknown names.
- **Inbound decision logic**:
  - `DefaultHttpSignatureResolver`, in `resolver.dfy`, handles the `Authorization: Signature …` scheme of section 3 of the draft.
  - `HttpSignatureAuthenticationProvider.authenticate`, in `provider.dfy`, checks the enabled flag, then the required headers, then the verifier.
  - The go tree's `signRsaSha256` and `verifyRsaSha256`, in `signing.dfy`, determine which key each side needs and how each failure is reported.
- **Small serializers and records**:
  - the `WWW-Authenticate` challenge of `HttpSignatureAuthenticationEntryPoint`, in `entry_point.dfy`, in the style of section 3 of RFC 6750;
  - `Util.toHex` and `Util.sha256Digest`, in `hex.dfy` and `http.dfy`;
  - the `Util.headers` multimap and the `Util.values` lookup, in `http.dfy`;
  - `KeyConfig`, in `keys.dfy`.

The two trees are modelled once. They differ in the header that supplies the request date:

- `Co` reads `date`.
- `Go` reads `x-tesws-date`.

A `Flavor` value carries that difference (`Codec.Flavor`). Everything the core calls but does not implement is a field of an `Oracles` record passed as a parameter: UTF-8 encoding, SHA-256, Base64, URI parsing and the RSA signature engine. Nothing is assumed about what these fields compute. A Java `null` is `None`. String concatenation of a `null` prints `null` (`Strings.JavaString`). Exceptions are values of `Errors.Error` carried in a `Result`.

Behaviour the model keeps as the code has it:

- **`fromHeader` without an `algorithm` field.**
  - Every exit of `fromHeader` calls `Algorithm.get` on the algorithm read so far.
  - So a header without an `algorithm` field raises a `NullPointerException`; it does not yield a partial signature.
  - A header cut short after the algorithm does yield a partial signature (`Codec.TruncatedSignature`).
- **`fromHeader` and fields not preceded by a comma.**
  - The name of a field is taken from just past the nearest comma, or from the start of the header when no comma follows the scan position.
  - So a field set off by a space after the last comma is read under a name that runs from the start of the header, and is dropped (`Codec.SignatureAfterSpaceLost`, `Codec.AlgorithmWithoutCommaIgnored`).
- **What `sign` signs and what it advertises.**
  - `sign` computes the signed bytes from the header list of the signature it is called on.
  - The signature it returns advertises the list the target's policy selects.
  - The two lists can differ (`Signing.SignedListDiffersFromAdvertised`).
- **The go tree's `sign` algorithm.** It always signs with `RSA_SHA256_PSS`, whatever algorithm the target advertises.
- **The co tree's signer and verifier.**
  - The co tree's `sign` and `verify` call `signer` and `verifier` fields that the co tree never declares.
  - Both are parameters of the model.

## Model

| member | source | states |
|---|---|---|
| Codec.Step | src/main/java/tz/co/simeon/spring/httpsignature/HttpSignature.java:80-98 | a pass that reads a pair moves the scan index strictly forward and stays within the header, so the scanning loop terminates |
| Codec.FromHeader | src/main/java/tz/co/simeon/spring/httpsignature/HttpSignature.java:66-120 | with no `algorithm` field it fails with a null-pointer error; otherwise it succeeds exactly when `get` resolves the last `algorithm` value, fails with `get`'s own error when that does not resolve, and on success carries DEFAULT_HEADERS, no decoded bytes, the last `keyId` and `signature` values read and the resolved algorithm |
| Codec.IsLastUnique | src/main/java/tz/co/simeon/spring/httpsignature/HttpSignature.java:99-114 | the "last value wins" reference gives each name at most one value |
| Codec.AssignAllLastWins | src/main/java/tz/co/simeon/spring/httpsignature/HttpSignature.java:77-115 | for each of the three names the loop's variable ends as the value of that name's last occurrence, or null when it never occurs |
| Codec.UnknownFieldsIgnored | src/main/java/tz/co/simeon/spring/httpsignature/HttpSignature.java:99-114 | removing a field whose name is none of keyId, algorithm, signature, from any position, leaves the three variables as they were |
| Codec.LastAlgorithmWins | src/main/java/tz/co/simeon/spring/httpsignature/HttpSignature.java:77-118 | a header with two algorithm fields parses to the algorithm of the second |
| Codec.ScanRender | src/main/java/tz/co/simeon/spring/httpsignature/HttpSignature.java:78-118 | scanning comma-separated `name="value"` assignments reads every assignment back in order, then carries on over the remaining text |
| Codec.PairsOfRender | src/main/java/tz/co/simeon/spring/httpsignature/HttpSignature.java:78-118 | with plain names and quote-free values, the loop hands its switch exactly the written assignments, in order |
| Codec.ScanUnclosed | src/main/java/tz/co/simeon/spring/httpsignature/HttpSignature.java:92-95 | an assignment whose closing quote is missing ends the scan and contributes nothing |
| Codec.PairsOfUnclosed | src/main/java/tz/co/simeon/spring/httpsignature/HttpSignature.java:88-95 | complete assignments followed by an unclosed one read back as the complete assignments alone: the partial result is kept |
| Codec.TruncatedSignature | src/main/java/tz/co/simeon/spring/httpsignature/HttpSignature.java:92-95 | a header cut short inside the signature value still yields the key id and algorithm read so far and no signature, not an error |
| Codec.ScanWithoutComma | src/main/java/tz/co/simeon/spring/httpsignature/HttpSignature.java:80-87 | once no comma remains after the scan position, the comma search gives -1, which lies before the `=`, so the name is read from index 0 of the header, earlier fields and commas included |
| Codec.ScanSpaceAfterComma | src/main/java/tz/co/simeon/spring/httpsignature/HttpSignature.java:80-118 | after two comma-separated assignments, a third set off only by a space is read under a name running from the start of the header; the first two are read intact |
| Codec.PairsSpaceAfterComma | src/main/java/tz/co/simeon/spring/httpsignature/HttpSignature.java:80-97 | the same three pairs after `trim()`: the misread name keeps its ends and is not shortened |
| Codec.SignatureAfterSpaceLost | src/main/java/tz/co/simeon/spring/httpsignature/HttpSignature.java:80-117 | for `keyId="k",algorithm="a" signature="s"` parsing succeeds exactly when `a` resolves, keeps the key id and comes back with no signature |
| Codec.PairsWithoutComma | src/main/java/tz/co/simeon/spring/httpsignature/HttpSignature.java:80-97 | of two assignments separated only by a space, the second is read under a name that starts at the beginning of the header and so includes the whole first assignment |
| Codec.AlgorithmWithoutCommaIgnored | src/main/java/tz/co/simeon/spring/httpsignature/HttpSignature.java:80-117 | an algorithm field not preceded by a comma is read under an unrecognised name and dropped, so the header fails with a null-pointer error |
| Codec.SignatureHeaderRenders | src/main/java/tz/co/simeon/spring/httpsignature/HttpSignature.java:144-151 | `toSignatureHeader` writes exactly the keyId, algorithm (wire name) and signature assignments, in that order, separated by commas |
| Codec.RoundTrip | src/main/java/tz/co/simeon/spring/httpsignature/HttpSignature.java:66-151 | parsing what `toSignatureHeader` writes recovers the key id, the algorithm and the signature text when neither key id nor signature contains a quote |
| Codec.Problems | src/main/java/tz/co/simeon/spring/httpsignature/HttpSignature.java:158-175 | each missing field contributes its problem, an undecodable signature (null included) contributes the decoder's message last, and there is no problem exactly when all three fields are set and the signature decodes |
| Codec.Validate | src/main/java/tz/co/simeon/spring/httpsignature/HttpSignature.java:157-181 | no message exactly when key id, algorithm and signature are set and the signature decodes, and then the decoded bytes are stored; any message starts with the fixed prefix; nothing but the stored bytes changes |
| Codec.RequiredHeaderGate | src/main/java/tz/co/simeon/spring/httpsignature/HttpSignature.java:186-190 | no message exactly when every required header is signed; otherwise the message names the first required header that is not |
| Canonical.DigestLine | src/main/java/tz/co/simeon/spring/httpsignature/HttpSignature.java:219-228 | the digest line reads `null` exactly when the body's digest fails |
| Canonical.DigestLineCarriesDigest | src/main/java/tz/go/simeon/spring/httpsignature/HttpSignature.java:271-275 | a successful digest line starts `digest: SHA-256=` and the hex after it reads back as the SHA-256 digest of the body's UTF-8 bytes |
| Canonical.LineText | src/main/java/tz/go/simeon/spring/httpsignature/HttpSignature.java:266-313 | a header has no line exactly when it is neither pseudo-header, the request lacks it, and it is not a synthesizable `date` or `host` (with a parsable URI) in injecting mode. A missing header fails with the signature exception `Header … is required for signature, yet not defined in request`, except an unparsable URI for a synthesized `host`, which fails with an illegal-argument error. Otherwise the line is: for `(request-target)`, the lower-cased method and the URI; for `digest`, the digest line; for a header the request carries, its name, `: ` and every value enumerated under exactly that name joined by spaces; for a synthesized `date`, the flavour's date header value; for a synthesized `host`, the URI's host and port |
| Canonical.RequestTargetIgnoresMethodCase | src/main/java/tz/go/simeon/spring/httpsignature/HttpSignature.java:267-270 | the `(request-target)` line always exists and does not depend on the letter case of the method |
| Canonical.Lines | src/main/java/tz/go/simeon/spring/httpsignature/HttpSignature.java:266-314 | the stream succeeds exactly when every signed header has a line, and then gives one line per header, in order |
| Canonical.LinesFirstError | src/main/java/tz/go/simeon/spring/httpsignature/HttpSignature.java:266-314 | a failing stream fails with the exception of the first header that has no line |
| Canonical.StrictAgreesWithInjecting | src/main/java/tz/go/simeon/spring/httpsignature/HttpSignature.java:282-313 | when the strict mode succeeds, the injecting mode writes the same lines and adds nothing to the map |
| Canonical.InjectedHeaders | src/main/java/tz/go/simeon/spring/httpsignature/HttpSignature.java:289-305 | after a successful signing string the map holds what it held before plus `date` (a one-element list holding the flavour's date header, `null` when absent) and `host` (URI host and port) under lower-case keys, each only when some signed header had to be synthesized as it |
| Canonical.AbsentDateStoredAsNull | src/main/java/tz/go/simeon/spring/httpsignature/HttpSignature.java:289-295 | with the flavour's date header absent, a synthesized `date` is stored as a list holding one `null`, while its line prints `null` |
| Canonical.SignedStringLines | src/main/java/tz/go/simeon/spring/httpsignature/HttpSignature.java:266-314 | the signing string splits at line feeds into exactly one line per signed header, in order, each starting with the header's name and `: ` (except a failed digest line), when no line holds a line feed |
| Canonical.CanonicalRequestExtendsResponse | src/main/java/tz/go/simeon/spring/httpsignature/HttpSignature.java:317-343 | the canonical request string is the path and host lines followed by the canonical response string |
| Canonical.CanonicalRequestSplits | src/main/java/tz/go/simeon/spring/httpsignature/HttpSignature.java:317-330 | the canonical request string splits into exactly five lines in fixed order, the first naming the path and no method |
| Canonical.CanonicalResponseSplits | src/main/java/tz/go/simeon/spring/httpsignature/HttpSignature.java:332-343 | the canonical response string splits into exactly its three lines: date (per flavour), digest, content type |
| Policy.FilterPresent | src/main/java/tz/co/simeon/spring/httpsignature/SignedHeadersConfig.java:164 | only present names survive the filter |
| Policy.FilterPresentCount | src/main/java/tz/co/simeon/spring/httpsignature/SignedHeadersConfig.java:164 | every present name is kept as often as it occurs and every absent one dropped: no de-duplication, nothing invented |
| Policy.FilterPresentAppend | src/main/java/tz/co/simeon/spring/httpsignature/SignedHeadersConfig.java:164 | filtering keeps relative order |
| Policy.FilterPresentAll | src/main/java/tz/co/simeon/spring/httpsignature/SignedHeadersConfig.java:164 | when every candidate is present all are kept, in configured order |
| Policy.GetHeaders | src/main/java/tz/co/simeon/spring/httpsignature/SignedHeadersConfig.java:161-167 | the result opens with the `always` list; what follows are present `ifPresent` entries, every present one appears, and as a multiset it is `always` plus the filtered entries |
| Policy.RequiredHeaders | src/main/java/tz/co/simeon/spring/httpsignature/SignedHeadersConfig.java:59-65 | `headers(m)` is a prefix of `headers(m, map)` for every header map |
| Policy.HeadersExtendRequired | src/main/java/tz/co/simeon/spring/httpsignature/SignedHeadersConfig.java:59-65 | `headers(m, map)` is `headers(m)` followed by the present `ifPresent` entries of the selected configuration |
| Policy.SelectIgnoresCase | src/main/java/tz/co/simeon/spring/httpsignature/SignedHeadersConfig.java:43-47 | a method configured in one letter case is selected under every letter case |
| Policy.ConfigKeepsOthers | src/main/java/tz/co/simeon/spring/httpsignature/SignedHeadersConfig.java:110-113 | configuring a method leaves every other method's selection unchanged |
| Policy.ReRegisterReplaces | src/main/java/tz/co/simeon/spring/httpsignature/SignedHeadersConfig.java:110-113 | re-registering a method in any letter case replaces its earlier configuration |
| Policy.NonCumulative | src/main/java/tz/co/simeon/spring/httpsignature/SignedHeadersConfig.java:59-65 | a configured method gets exactly its own configuration's headers whatever the default |
| Policy.DefaultApplies | src/main/java/tz/co/simeon/spring/httpsignature/SignedHeadersConfig.java:59-65 | an unconfigured method gets the default configuration |
| Policy.FreshBuilderIsEmpty | src/main/java/tz/co/simeon/spring/httpsignature/SignedHeadersConfig.java:55-57 | `builder().build()` signs nothing for any method: the builder's `["date"]` field default never survives `builder()` |
| Algorithms.Get | src/main/java/tz/co/simeon/spring/httpsignature/Algorithm.java:35-42 | a name resolves exactly when its normalized form is an alias key of some constant, to that constant; otherwise the error names it |
| Algorithms.AliasKeysAreNormalizedNames | src/main/java/tz/co/simeon/spring/httpsignature/Algorithm.java:16-21 | each constant's alias keys are the normalized forms of its two names |
| Algorithms.AliasTableContents | src/main/java/tz/co/simeon/spring/httpsignature/Algorithm.java:14-21 | the static initializer's table holds exactly the four keys `rsasha256`, `sha256withrsa`, `rsasha256pss`, `sha256withrsapss` with their constants |
| Algorithms.AliasesUnambiguous | src/main/java/tz/co/simeon/spring/httpsignature/Algorithm.java:10-21 | no name resolves to both constants |
| Algorithms.GetByName | src/main/java/tz/co/simeon/spring/httpsignature/Algorithm.java:49-58 | `get` of a constant's `toString`, JVM name or portable name gives that constant back |
| Algorithms.GetOnlyKnownNames | src/main/java/tz/co/simeon/spring/httpsignature/Algorithm.java:35-46 | `get(n)` is `a` exactly when `normalize(n)` equals the normalized JVM or portable name of `a` |
| Algorithms.ToPortableName | src/main/java/tz/co/simeon/spring/httpsignature/Algorithm.java:27-29 | succeeds exactly when `get` does, with the portable name of the constant `get` finds, which resolves back to that constant; otherwise fails with `get`'s error |
| Algorithms.ToJvmName | src/main/java/tz/co/simeon/spring/httpsignature/Algorithm.java:31-33 | succeeds exactly when `get` does, with the JVM name of the constant `get` finds, which resolves back to that constant; otherwise fails with `get`'s error |
| Algorithms.StripIsAlnumOnly | src/main/java/tz/co/simeon/spring/httpsignature/Algorithm.java:44-46 | removing runs of non-alphanumerics is keeping exactly the ASCII letters and digits, in order |
| Algorithms.NonAlnumIndexSpec | src/main/java/tz/co/simeon/spring/httpsignature/Algorithm.java:44-46 | the search finds the first character outside `[A-Za-z0-9]`, and -1 exactly when there is none |
| Algorithms.NormalizeIsLowerAlnum | src/main/java/tz/co/simeon/spring/httpsignature/Algorithm.java:44-46 | a normalized name holds only lower-case letters and digits |
| Algorithms.NormalizeIdempotent | src/main/java/tz/co/simeon/spring/httpsignature/Algorithm.java:44-46 | normalizing twice is normalizing once |
| Algorithms.NormalizeIgnoresCase | src/main/java/tz/go/simeon/spring/httpsignature/Algorithm.java:48-50 | names that differ only in letter case normalize alike |
| Algorithms.NormalizeIgnoresPunctuation | src/main/java/tz/go/simeon/spring/httpsignature/Algorithm.java:48-50 | inserting a non-alphanumeric character does not change the normalized name |
| Algorithms.GetIgnoresCaseAndSeparators | src/main/java/tz/go/simeon/spring/httpsignature/Algorithm.java:39-50 | lookup gives the same answer for names that differ in letter case or by a separator character, such as `RSA-SHA256` and `rsa_sha256` |
| Resolver.FirstSignature | src/main/java/tz/co/simeon/spring/httpsignature/DefaultHttpSignatureResolver.java:30-36 | nothing exactly when no value starts with `signature ` in any case; otherwise the text after the prefix in the first value that does |
| Resolver.FirstQualifyingWins | src/main/java/tz/co/simeon/spring/httpsignature/DefaultHttpSignatureResolver.java:30-34 | values after the first qualifying one are never looked at |
| Resolver.SchemeIgnoresCase | src/main/java/tz/co/simeon/spring/httpsignature/DefaultHttpSignatureResolver.java:12-33 | the scheme matches in any letter case and the rest is passed on as it stands |
| Resolver.SignatureHeader | src/main/java/tz/co/simeon/spring/httpsignature/DefaultHttpSignatureResolver.java:39-56 | a parse failure propagates; a validation problem becomes an authentication failure with that message; otherwise the validated signature is returned |
| Resolver.Resolve | src/main/java/tz/co/simeon/spring/httpsignature/DefaultHttpSignatureResolver.java:18-37 | no signature (not an error) exactly when no authorization value qualifies; otherwise the outcome of parsing and validating the first qualifying value |
| Resolver.OnlyAuthorizationConsulted | src/main/java/tz/co/simeon/spring/httpsignature/DefaultHttpSignatureResolver.java:24-26 | adding any header other than `authorization`, such as a `Signature` header, does not change the result |
| Resolver.ResolvesWhatWasWritten | src/main/java/tz/co/simeon/spring/httpsignature/DefaultHttpSignatureResolver.java:18-56 | an authorization value of `Signature ` plus what `toSignatureHeader` wrote resolves to that key id, algorithm and signature, the default header list and the decoded bytes |
| Provider.Authenticate | src/main/java/tz/co/simeon/spring/httpsignature/HttpSignatureAuthenticationProvider.java:47-62 | a disabled client fails with `Key configuration is not enabled`; success exactly when the client is enabled, POST's required headers are all signed and the verifier accepts; success returns the same token; every failure is an authentication failure, carrying the gate's message when a required header is unsigned and otherwise the verifier's exact message |
| Provider.DefaultRequiredHeadersContents | src/main/java/tz/co/simeon/spring/httpsignature/HttpSignatureAuthenticationProvider.java:24-44 | GET/HEAD require request target, host, date with authorization if present; DELETE/PUT/POST add digest and content type; every other method requires date and request target |
| Provider.ParsedSignaturesPassGate | src/main/java/tz/co/simeon/spring/httpsignature/HttpSignatureAuthenticationProvider.java:41-56 | every signature `fromHeader` produces passes the required-header check, because its header list is POST's required list |
| Provider.AuthenticateParsed | src/main/java/tz/co/simeon/spring/httpsignature/HttpSignatureAuthenticationProvider.java:47-62 | for a parsed signature the decision comes down to the enabled flag and the verifier's message |
| Provider.GetSignatureMeetsPostList | src/main/java/tz/co/simeon/spring/httpsignature/HttpSignatureAuthenticationProvider.java:55-56 | the request's method plays no part: a signature listing GET's required headers is refused for lacking `digest` |
| Signing.SignRsaSha256 | src/main/java/tz/go/simeon/spring/httpsignature/HttpSignature.java:191-208 | an unavailable engine fails first, wrapped; then a missing key configuration or private key fails with its message; success exactly when the engine signs with the private key, returning its bytes; a signing fault is wrapped |
| Signing.VerifyRsaSha256 | src/main/java/tz/go/simeon/spring/httpsignature/HttpSignature.java:210-245 | acceptance exactly when the engine verifies with the public key; a rejected signature gives `Signature is not valid` as a message; a failure to obtain the engine and a fault of its verify step each give the message for that fault; a missing algorithm or signature escapes as a null-pointer error, a missing key configuration or public key as a signature exception with its own message |
| Signing.VerifyGo | src/main/java/tz/go/simeon/spring/httpsignature/HttpSignature.java:177-187 | a missing required header gives the gate's message; otherwise the outcome is `verifyRsaSha256` with the signature's algorithm and the client's keys |
| Signing.VerifyCo | src/main/java/tz/co/simeon/spring/httpsignature/HttpSignature.java:183-193 | the gate's message when a required header is unsigned; otherwise exactly the verifier's result; so no message exactly when every required header is signed and the verifier accepts |
| Signing.GateBeforeCrypto | src/main/java/tz/go/simeon/spring/httpsignature/HttpSignature.java:180-186 | with a required header missing, the result is the same message whatever the keys, engine and signed bytes |
| Signing.GoAcceptsExactly | src/main/java/tz/go/simeon/spring/httpsignature/HttpSignature.java:177-226 | the go tree accepts exactly when all required headers are signed, the engine is available, the client has a public key and the engine verifies the stored signature bytes |
| Signing.Sign | src/main/java/tz/go/simeon/spring/httpsignature/HttpSignature.java:115-131 | the returned signature has the target's key id and algorithm, the policy's header list, the signer's bytes and their Base64 text; the bytes signed are the signing string of the receiver's own list; a failure building that string or in the signer comes back unchanged |
| Signing.SignIgnoresPolicyForBytes | src/main/java/tz/co/simeon/spring/httpsignature/HttpSignature.java:122-137 | two targets differing only in policy sign the same bytes; only the advertised header list differs |
| Signing.SignedListDiffersFromAdvertised | src/main/java/tz/co/simeon/spring/httpsignature/HttpSignature.java:125-131 | a receiver listing `(request-target)`, signing for a target whose policy selects nothing, signs a non-empty string yet advertises no headers |
| Signing.GoSignsWithPss | src/main/java/tz/go/simeon/spring/httpsignature/HttpSignature.java:126-127 | the go tree's `sign` signs with `RSA_SHA256_PSS` whatever algorithm it advertises |
| Signing.GoSignNeedsPrivateKey | src/main/java/tz/go/simeon/spring/httpsignature/HttpSignature.java:197-200 | without a key configuration or private key, signing fails with the matching message |
| Signing.SignThenVerify | src/main/java/tz/go/simeon/spring/httpsignature/HttpSignature.java:115-245 | if the engine accepts its own PSS signature, a go-tree signature whose receiver lists the policy's headers passes `verify` on the bytes a verifier recomputes, for every required list it covers |
| Hex.ToHex | src/main/java/tz/go/simeon/spring/httpsignature/Util.java:55-58 | an n-byte array (n > 0) renders as the per-byte reference rendering, 2n digits; an empty array makes the format fail |
| Hex.FixedPerByte | src/main/java/tz/go/simeon/spring/httpsignature/Util.java:56-57 | the big-endian number printed with exactly 2n digits equals the per-byte rendering |
| Hex.PadHexIsFixed | src/main/java/tz/go/simeon/spring/httpsignature/Util.java:57 | `%0<k>X` of a value below 16^k is its exact k-digit form |
| Hex.ToHexPerByte | src/main/java/tz/go/simeon/spring/httpsignature/Util.java:55-58 | byte i of the array is rendered at digits 2i and 2i+1, high nibble first |
| Hex.ParsePerByteHex | src/main/java/tz/go/simeon/spring/httpsignature/Util.java:55-58 | reading the rendering back gives the bytes: it loses nothing |
| Http.Sha256Digest | src/main/java/tz/go/simeon/spring/httpsignature/Util.java:39-53 | succeeds exactly when a non-empty digest is computed, giving lower-case hex of twice its length that reads back as the digest; every failure is a signature exception |
| Http.Sha256DigestLength | src/main/java/tz/go/simeon/spring/httpsignature/Util.java:39-49 | a 32-byte digest renders as 64 characters |
| Http.ParseHexLower | src/main/java/tz/go/simeon/spring/httpsignature/Util.java:48 | lower-casing the hex does not change the bytes it reads as |
| Http.GetHeader | src/main/java/tz/go/simeon/spring/httpsignature/Util.java:21 | no value exactly when no enumerated name matches up to case; otherwise the value of the first matching header |
| Http.Collect | src/main/java/tz/go/simeon/spring/httpsignature/Util.java:15-25 | the map's keys are exactly the enumerated names |
| Http.CollectValues | src/main/java/tz/go/simeon/spring/httpsignature/Util.java:15-25 | under each name the map holds every value enumerated under exactly that name, in order, and never an empty collection |
| Http.CollectDistinct | src/main/java/tz/go/simeon/spring/httpsignature/Util.java:19-22 | with distinct names, each name records exactly one value, the one reported for it |
| Http.Values | src/main/java/tz/go/simeon/spring/httpsignature/Util.java:27-37 | a collection exactly when some enumerated name equals the lower-cased key; it is non-empty and holds, in order, every value enumerated under that name |
| Http.ValuesNeedLowerCaseNames | src/main/java/tz/go/simeon/spring/httpsignature/Util.java:35-36 | names reported in other than lower case are never found, whatever key is asked for |
| EntryPoint.Parameters | src/main/java/tz/go/simeon/spring/httpsignature/HttpSignatureAuthenticationEntryPoint.java:45-55 | the realm first when set; `error`, `error_description`, `error_uri` last exactly for a signature authentication failure |
| EntryPoint.WwwAuthenticate | src/main/java/tz/go/simeon/spring/httpsignature/HttpSignatureAuthenticationEntryPoint.java:72-81 | the bare `Signature` exactly when there are no parameters; otherwise `Signature ` followed by the parameters |
| EntryPoint.Commence | src/main/java/tz/go/simeon/spring/httpsignature/HttpSignatureAuthenticationEntryPoint.java:40-61 | the status is always 401, and the challenge is the bare scheme exactly when no realm is set and the failure is not a signature authentication failure |
| EntryPoint.ChallengeReadsBack | src/main/java/tz/go/simeon/spring/httpsignature/HttpSignatureAuthenticationEntryPoint.java:72-81 | with quote-free values, the signature-header scanner reads every `key="value"` parameter back from the challenge, in insertion order |
| EntryPoint.ChallengeNamesTheError | src/main/java/tz/go/simeon/spring/httpsignature/HttpSignatureAuthenticationEntryPoint.java:45-57 | the challenge reads back as its parameters, with the exception's message verbatim as `error_description` |
| Keys.NewKeyConfig | src/main/java/tz/co/simeon/spring/httpsignature/pki/KeyConfig.java:54-111 | each accessor returns what was supplied: a key or certificate exactly as given (empty when it was null), and the two lists with the same elements in the same order |
| Keys.PublicOnly | src/main/java/tz/co/simeon/spring/httpsignature/pki/KeyConfig.java:64-66 | the public-key constructor gives that key, no private key or certificate, and empty lists |
| Strings.IndexOfFirst | src/main/java/tz/co/simeon/spring/httpsignature/HttpSignature.java:80-92 | the `indexOf` the scanner uses gives -1 exactly when the character does not occur from the start index, and otherwise its first occurrence |
| Strings.SplitJoin | src/main/java/tz/go/simeon/spring/httpsignature/HttpSignature.java:314 | lines free of the separator, joined with it, split back into the same lines |

## Left out

- Cryptography, SHA-256, Base64, UTF-8 encoding and URI parsing are fields of the `Oracles` record. Nothing is assumed about them. This covers the `signer`, `verifier` and PEM code and the JCA and BouncyCastle calls.
- `PemReader`, `PkiUtil`, the request and response signage services, `SignatureService` and `ResettableStreamHttpServletRequest` are not part of this model: they do key-file I/O, clock reads, JSON serialization and stream buffering. The request body is given as its lines.
- Spring Security wiring is not modelled. This covers the authentication filter, the token, the resolver interface, the services and the exception classes. `loadByKeyId` is a parameter of `Provider.Authenticate`.
- The co tree's `signer` and `verifier` fields are never declared, so they are parameters.
- Logging and `printStackTrace` are not modelled.
- `Strings.Lower` lower-cases ASCII letters only. Java's `toLowerCase` is Unicode-aware. The same holds for the case-insensitive `TreeMap` of the policy and for `equalsIgnoreCase`.
- `Strings.IndexOf` is modelled for non-negative start indices only. The scanner never searches from a negative one.
- The co tree's `Util` is not part of this model. Both trees are modelled with the go tree's `Util`.
- `CollectionsHelper` is not part of this model. Its `listOf` is taken to build the list of its arguments, a `null` argument included.
- Canonical.HeaderBytesToSign: the `null` that `getHeaderBytesToSign` returns on a checked exception is not modelled. No checked exception can leave the mapping lambda, and reading the body is given as lines, so the path is unreachable in the model.
- Canonical.Lines: when a header has no line, any entries already put into `newHeaders` for earlier headers stay there in Java. The model reports only the exception.
- Canonical.CanonicalRequestString: the `body` argument of the canonical-string builders is never read. It is omitted.
- Codec.FromHeader: the message of the `NullPointerException` is not modelled. Only its kind is.
- Codec.Problems: the message `null` for a missing signature is what `getMessage()` returns on a JVM without helpful null-pointer messages. From JDK 15 on, that message describes the failed dereference instead, so the last problem's text depends on the runtime.
- Provider.Authenticate: `loadByKeyId` always returns a configuration here. In Java it may return `null`, and the provider then fails with a `NullPointerException` when it asks whether the configuration is enabled.
- Signing.VerifyRsaSha256: a `null` signature byte array passed to the engine is reported as a null-pointer error. In Java its effect depends on the provider.
- EntryPoint.WwwAuthenticate: parameter values are inserted verbatim with no quote escaping, as the code does. The read-back lemmas therefore require quote-free values.
- Signing.SignThenVerify: holds only under its stated assumption that the engine accepts its own PSS signature over the same bytes. This is a property of the cryptography, which is not modelled.
- Copies of caller-owned lists, in the `HeadersConfig` and `KeyConfig` constructors, are implicit. Sequences are values, so no later change by the caller can reach them.

=== FILE: algorithm.dfy ===
/**
 * The algorithm registry: the closed set of signature algorithms, the alias table
 * built from both of their names, and lookup by a normalized name.
 */
module Algorithms {
  import opened Wrappers
  import opened Strings
  import opened Errors

  /** The two enum constants. Their constructor arguments are (portableName, jmvName), so the
      field the source calls the portable name holds the JCA name and `toString` the wire name. */
  datatype Algorithm = RSA_SHA256 | RSA_SHA256_PSS {

    function PortableName(): string {
      match this
      case RSA_SHA256 => "SHA256withRSA"
      case RSA_SHA256_PSS => "SHA256withRSA/PSS"
    }

    function JvmName(): string {
      match this
      case RSA_SHA256 => "rsa-sha256"
      case RSA_SHA256_PSS => "rsa-sha256-pss"
    }

    /** `toString()` returns the second constructor argument. */
    function ToString(): string {
      JvmName()
    }
  }

  /** `Algorithm.values()`, in declaration order. */
  const Values: seq<Algorithm> := [RSA_SHA256, RSA_SHA256_PSS]

  predicate IsAsciiAlnum(c: char) {
    ('A' <= c <= 'Z') || ('a' <= c <= 'z') || ('0' <= c <= '9')
  }

  /** The first index at or after `from` whose character is outside `[A-Za-z0-9]`, or -1
      (see `NonAlnumIndexSpec`). */
  function NonAlnumIndex(s: string, from: nat): (r: int)
    requires from <= |s|
    ensures r == -1 || from <= r < |s|
    decreases |s| - from
  {
    if from == |s| then -1
    else if !IsAsciiAlnum(s[from]) then from
    else NonAlnumIndex(s, from + 1)
  }

  /** `replaceAll("[^A-Za-z0-9]+", "")`: every character outside `[A-Za-z0-9]` removed. */
  function Strip(s: string): (r: string)
    ensures |r| <= |s|
    decreases |s|
  {
    var i := NonAlnumIndex(s, 0);
    if i == -1 then s else s[..i] + Strip(s[i + 1..])
  }

  /** `replaceAll("[^A-Za-z0-9]+", "").toLowerCase()`. */
  function Normalize(s: string): string {
    Lower(Strip(s))
  }

  /** The alias table built by the static initializer: for each algorithm in order, its
      normalized JVM name and then its normalized portable name are put into the map. */
  function Aliases(algs: seq<Algorithm>): map<string, Algorithm>
    decreases |algs|
  {
    if |algs| == 0 then map[]
    else
      var a := algs[|algs| - 1];
      Aliases(algs[..|algs| - 1])[Normalize(a.JvmName()) := a][Normalize(a.PortableName()) := a]
  }

  const AliasTable: map<string, Algorithm> := Aliases(Values)

  /** The two keys under which the static initializer files `a`; `AliasKeysAreNormalizedNames`
      shows they are the normalized forms of its two names. */
  function AliasKeys(a: Algorithm): set<string> {
    match a
    case RSA_SHA256 => {"rsasha256", "sha256withrsa"}
    case RSA_SHA256_PSS => {"rsasha256pss", "sha256withrsapss"}
  }

  /** `name` resolves to `a`: its normalized form is one of `a`'s alias keys. */
  predicate Names(name: string, a: Algorithm) {
    Normalize(name) in AliasKeys(a)
  }

  /** `Algorithm.get(name)`. */
  function Get(name: string): (r: Result<Algorithm, Error>)
    ensures r.Ok? <==> (Names(name, RSA_SHA256) || Names(name, RSA_SHA256_PSS))
    ensures r.Ok? ==> Names(name, r.value)
    ensures r.Err? ==> r.error == UnsupportedAlgorithm(name + " algorithm is not supported.")
  {
    AliasTableContents();
    var n := Normalize(name);
    if n in AliasTable then Ok(AliasTable[n])
    else Err(UnsupportedAlgorithm(name + " algorithm is not supported."))
  }

  /** `Algorithm.toPortableName(name)`. */
  function ToPortableName(name: string): (r: Result<string, Error>)
    ensures r.Ok? <==> Get(name).Ok?
    ensures r.Ok? ==> Get(r.value) == Get(name)
    ensures r.Err? ==> r == Err(Get(name).error)
    ensures r.Ok? ==> r.value == Get(name).value.PortableName()
  {
    match Get(name)
    case Ok(a) => GetByName(a); Ok(a.PortableName())
    case Err(e) => Err(e)
  }

  /** `Algorithm.toJvmName(name)`. */
  function ToJvmName(name: string): (r: Result<string, Error>)
    ensures r.Ok? <==> Get(name).Ok?
    ensures r.Ok? ==> Get(r.value) == Get(name)
    ensures r.Err? ==> r == Err(Get(name).error)
    ensures r.Ok? ==> r.value == Get(name).value.JvmName()
  {
    match Get(name)
    case Ok(a) => GetByName(a); Ok(a.JvmName())
    case Err(e) => Err(e)
  }

  // ---------------------------------------------------------------------------
  // Properties

  /** The alias keys of each algorithm are the normalized forms of its JVM and portable names. */
  lemma AliasKeysAreNormalizedNames(a: Algorithm)
    ensures AliasKeys(a) == {Normalize(a.JvmName()), Normalize(a.PortableName())}
  {
    match a
    case RSA_SHA256 =>
      NormalizedRsaJvm();
      NormalizedRsaPortable();
    case RSA_SHA256_PSS =>
      NormalizedPssJvm();
      NormalizedPssPortable();
  }

  lemma NormalizedRsaJvm()
    ensures Normalize("rsa-sha256") == "rsasha256"
  {
    StripWords("rsa", '-', "sha256");
    assert "rsa" + ['-'] + "sha256" == "rsa-sha256";
    assert "rsa" + "sha256" == "rsasha256";
    LowerLiteral("rsasha256");
  }

  lemma NormalizedRsaPortable()
    ensures Normalize("SHA256withRSA") == "sha256withrsa"
  {
    StripAlnum("SHA256withRSA");
    LowerLiteral("SHA256withRSA");
  }

  lemma NormalizedPssJvm()
    ensures Normalize("rsa-sha256-pss") == "rsasha256pss"
  {
    StrippedPssJvm();
    assert "rsa" + ['-'] + ("sha256" + ['-'] + "pss") == "rsa-sha256-pss";
    LowerLiteral("rsasha256pss");
  }

  lemma NormalizedPssPortable()
    ensures Normalize("SHA256withRSA/PSS") == "sha256withrsapss"
  {
    StripWords("SHA256withRSA", '/', "PSS");
    assert "SHA256withRSA" + ['/'] + "PSS" == "SHA256withRSA/PSS";
    assert "SHA256withRSA" + "PSS" == "SHA256withRSAPSS";
    LowerLiteral("SHA256withRSAPSS");
  }

  lemma StrippedPssJvm()
    ensures Strip("rsa" + ['-'] + ("sha256" + ['-'] + "pss")) == "rsasha256pss"
  {
    StripThreeWords("rsa", '-', "sha256", "pss");
    assert "rsa" + ("sha256" + "pss") == "rsasha256pss";
  }

  /** The lower-cased form of each name, letter by letter. */
  lemma LowerLiteral(s: string)
    requires s in {"rsasha256", "SHA256withRSA", "rsasha256pss", "SHA256withRSAPSS"}
    ensures s == "rsasha256" ==> Lower(s) == "rsasha256"
    ensures s == "SHA256withRSA" ==> Lower(s) == "sha256withrsa"
    ensures s == "rsasha256pss" ==> Lower(s) == "rsasha256pss"
    ensures s == "SHA256withRSAPSS" ==> Lower(s) == "sha256withrsapss"
  {
  }

  /** Two words joined by one separator lose the separator. */
  lemma StripWords(a: string, c: char, b: string)
    requires forall i | 0 <= i < |a| :: IsAsciiAlnum(a[i])
    requires forall i | 0 <= i < |b| :: IsAsciiAlnum(b[i])
    requires !IsAsciiAlnum(c)
    ensures Strip(a + [c] + b) == a + b
  {
    StripCut(a, c, b);
    StripAlnum(b);
  }

  /** Three words joined by one separator lose both separators. */
  lemma StripThreeWords(a: string, c: char, b: string, d: string)
    requires forall i | 0 <= i < |a| :: IsAsciiAlnum(a[i])
    requires forall i | 0 <= i < |b| :: IsAsciiAlnum(b[i])
    requires forall i | 0 <= i < |d| :: IsAsciiAlnum(d[i])
    requires !IsAsciiAlnum(c)
    ensures Strip(a + [c] + (b + [c] + d)) == a + (b + d)
  {
    StripCut(a, c, b + [c] + d);
    StripWords(b, c, d);
  }

  /** Stripping stops at the first separator and carries on after it. */
  lemma StripCut(a: string, c: char, rest: string)
    requires forall i | 0 <= i < |a| :: IsAsciiAlnum(a[i])
    requires !IsAsciiAlnum(c)
    ensures Strip(a + [c] + rest) == a + Strip(rest)
  {
    var s := a + [c] + rest;
    assert s[|a|] == c;
    assert forall i | 0 <= i < |a| :: s[i] == a[i];
    NonAlnumIndexSpec(s, 0);
    assert NonAlnumIndex(s, 0) == |a|;
    assert s[..|a|] == a;
    assert s[|a| + 1..] == rest;
  }

  /** The alias table holds exactly the four alias keys, each mapped to its owner. */
  lemma AliasTableContents()
    ensures AliasTable == map[
      "rsasha256" := RSA_SHA256, "sha256withrsa" := RSA_SHA256,
      "rsasha256pss" := RSA_SHA256_PSS, "sha256withrsapss" := RSA_SHA256_PSS]
  {
    AliasKeysAreNormalizedNames(RSA_SHA256);
    AliasKeysAreNormalizedNames(RSA_SHA256_PSS);
    assert Values[..1] == [RSA_SHA256];
    assert [RSA_SHA256][..0] == [];
  }

  /** No key is shared, so every name resolves to at most one algorithm. */
  lemma AliasesUnambiguous(name: string)
    ensures !(Names(name, RSA_SHA256) && Names(name, RSA_SHA256_PSS))
  {
  }

  /** Both names of every algorithm resolve to that algorithm; `get(a.toString()) == a`. */
  lemma GetByName(a: Algorithm)
    ensures Get(a.ToString()) == Ok(a)
    ensures Get(a.JvmName()) == Ok(a)
    ensures Get(a.PortableName()) == Ok(a)
  {
    AliasKeysAreNormalizedNames(a);
    AliasesUnambiguous(a.JvmName());
    AliasesUnambiguous(a.PortableName());
  }

  /** A name resolves to `a` exactly when it normalizes to one of `a`'s two names. */
  lemma GetOnlyKnownNames(name: string, a: Algorithm)
    ensures Get(name) == Ok(a) <==> Normalize(name) in {Normalize(a.JvmName()), Normalize(a.PortableName())}
  {
    AliasKeysAreNormalizedNames(a);
    AliasesUnambiguous(name);
  }

  lemma {:induction false} NonAlnumIndexSpec(s: string, from: nat)
    requires from <= |s|
    ensures NonAlnumIndex(s, from) == -1 <==> forall i | from <= i < |s| :: IsAsciiAlnum(s[i])
    ensures NonAlnumIndex(s, from) != -1 ==> !IsAsciiAlnum(s[NonAlnumIndex(s, from)])
    ensures forall i | from <= i < NonAlnumIndex(s, from) :: IsAsciiAlnum(s[i])
    decreases |s| - from
  {
    if from < |s| && IsAsciiAlnum(s[from]) {
      NonAlnumIndexSpec(s, from + 1);
    }
  }

  /** A reference definition of stripping: one character at a time, keeping `[A-Za-z0-9]`. */
  function AlnumOnly(s: string): string
    decreases |s|
  {
    if |s| == 0 then []
    else if IsAsciiAlnum(s[0]) then [s[0]] + AlnumOnly(s[1..])
    else AlnumOnly(s[1..])
  }

  lemma {:induction false} AlnumOnlyAppend(a: string, b: string)
    ensures AlnumOnly(a + b) == AlnumOnly(a) + AlnumOnly(b)
    decreases |a|
  {
    if |a| > 0 {
      assert (a + b)[1..] == a[1..] + b;
      AlnumOnlyAppend(a[1..], b);
    } else {
      assert a + b == b;
    }
  }

  lemma {:induction false} AlnumOnlyKeeps(s: string)
    requires forall i | 0 <= i < |s| :: IsAsciiAlnum(s[i])
    ensures AlnumOnly(s) == s
    decreases |s|
  {
    if |s| > 0 {
      AlnumOnlyKeeps(s[1..]);
    }
  }

  lemma AlnumOnlySkip(pre: string, c: char, post: string)
    requires !IsAsciiAlnum(c)
    ensures AlnumOnly(pre + [c] + post) == AlnumOnly(pre) + AlnumOnly(post)
  {
    AlnumOnlyAppend(pre + [c], post);
    AlnumOnlyAppend(pre, [c]);
    assert [c][1..] == [];
  }

  /** Cutting at each first non-alphanumeric character removes exactly the characters the
      one-at-a-time filter removes. */
  lemma {:induction false} StripIsAlnumOnly(s: string)
    ensures Strip(s) == AlnumOnly(s)
    decreases |s|
  {
    NonAlnumIndexSpec(s, 0);
    var i := NonAlnumIndex(s, 0);
    if i == -1 {
      AlnumOnlyKeeps(s);
    } else {
      var pre, post := s[..i], s[i + 1..];
      StripIsAlnumOnly(post);
      AlnumOnlyKeeps(pre);
      AlnumOnlySkip(pre, s[i], post);
      assert s == pre + [s[i]] + post;
    }
  }

  lemma {:induction false} AlnumOnlyIsAlnum(s: string)
    ensures forall i | 0 <= i < |AlnumOnly(s)| :: IsAsciiAlnum(AlnumOnly(s)[i])
    decreases |s|
  {
    if |s| > 0 {
      AlnumOnlyIsAlnum(s[1..]);
    }
  }

  lemma {:induction false} AlnumOnlyLower(s: string)
    ensures AlnumOnly(Lower(s)) == Lower(AlnumOnly(s))
    decreases |s|
  {
    if |s| > 0 {
      assert Lower(s)[1..] == Lower(s[1..]);
      AlnumOnlyLower(s[1..]);
      LowerAppend([s[0]], AlnumOnly(s[1..]));
    }
  }

  lemma StripAlnum(s: string)
    requires forall i | 0 <= i < |s| :: IsAsciiAlnum(s[i])
    ensures Strip(s) == s
  {
    NonAlnumIndexSpec(s, 0);
  }

  /** What is left after normalizing is lower-case letters and digits only. */
  lemma NormalizeIsLowerAlnum(s: string)
    ensures forall i | 0 <= i < |Normalize(s)| :: IsAsciiAlnum(Normalize(s)[i]) && !('A' <= Normalize(s)[i] <= 'Z')
  {
    StripIsAlnumOnly(s);
    AlnumOnlyIsAlnum(s);
  }

  /** Normalization is idempotent. */
  lemma NormalizeIdempotent(s: string)
    ensures Normalize(Normalize(s)) == Normalize(s)
  {
    var n := Normalize(s);
    NormalizeIsLowerAlnum(s);
    StripAlnum(n);
    assert Lower(n) == n;
  }

  /** Normalization ignores letter case. */
  lemma NormalizeIgnoresCase(s: string, t: string)
    requires Lower(s) == Lower(t)
    ensures Normalize(s) == Normalize(t)
  {
    StripIsAlnumOnly(s);
    StripIsAlnumOnly(t);
    StripIsAlnumOnly(Lower(s));
    AlnumOnlyLower(s);
    AlnumOnlyLower(t);
    AlnumOnlyIsAlnum(s);
    AlnumOnlyIsAlnum(t);
    LowerTwice(AlnumOnly(s));
    LowerTwice(AlnumOnly(t));
  }

  lemma LowerTwice(s: string)
    ensures Lower(Lower(s)) == Lower(s)
  {
  }

  /** Normalization ignores every character outside `[A-Za-z0-9]`, wherever it stands. */
  lemma NormalizeIgnoresPunctuation(a: string, c: char, b: string)
    requires !IsAsciiAlnum(c)
    ensures Normalize(a + [c] + b) == Normalize(a + b)
  {
    StripIsAlnumOnly(a + [c] + b);
    StripIsAlnumOnly(a + b);
    AlnumOnlySkip(a, c, b);
    AlnumOnlyAppend(a, b);
  }

  /** Names with equal normalized forms resolve identically. */
  lemma GetUsesNormalizedName(s: string, t: string)
    requires Normalize(s) == Normalize(t)
    ensures Get(s).Ok? <==> Get(t).Ok?
    ensures Get(s).Ok? ==> Get(s) == Get(t)
  {
  }

  /** Two words joined by one separator normalize to the two words lower-cased. */
  lemma NormalizeWords(a: string, c: char, b: string)
    requires forall i | 0 <= i < |a| :: IsAsciiAlnum(a[i])
    requires forall i | 0 <= i < |b| :: IsAsciiAlnum(b[i])
    requires !IsAsciiAlnum(c)
    ensures Normalize(a + [c] + b) == Lower(a) + Lower(b)
  {
    StripWords(a, c, b);
    LowerAppend(a, b);
  }

  /** Upper-casing a name, or putting separators between its words, does not change what it
      resolves to. */
  lemma GetIgnoresCaseAndSeparators(s: string, t: string, c: char, b: string)
    requires Lower(s) == Lower(t)
    requires !IsAsciiAlnum(c)
    ensures Get(s).Ok? <==> Get(t).Ok?
    ensures Get(s).Ok? ==> Get(s) == Get(t)
    ensures Get(s + [c] + b).Ok? <==> Get(s + b).Ok?
    ensures Get(s + [c] + b).Ok? ==> Get(s + [c] + b) == Get(s + b)
  {
    NormalizeIgnoresCase(s, t);
    GetUsesNormalizedName(s, t);
    NormalizeIgnoresPunctuation(s, c, b);
    GetUsesNormalizedName(s + [c] + b, s + b);
  }
}

=== FILE: canonical.dfy ===
/**
 * The signing string (section 2.3 of draft-cavage-http-signatures-11) as `getSignedString`
 * builds it: one `name: value` line per signed header, joined with a line feed, with the
 * `(request-target)` and `digest` pseudo-headers computed and, when the caller supplies a map
 * for new headers, `date` and `host` synthesized. Also the two fixed-order canonical strings.
 */
module Canonical {
  import opened Wrappers
  import opened Strings
  import opened Errors
  import opened Hex
  import opened Oracles
  import opened Http
  import opened Policy
  import opened Codec

  /** `HEADER_SEPARATOR`. */
  const Separator: string := ": "

  /** A `Map<String, List<String>>` whose list elements may be `null` (`None`). */
  type HeaderMap = map<string, seq<Option<string>>>

  /** The headers a signer adds to the outgoing request: Java's `newHeaders`, `None` when it is
      `null` (the strict mode of an inbound check). */
  type NewHeaders = Option<HeaderMap>

  /** The message of the exception for a header the request does not carry. */
  function NotDefinedMessage(header: string): string {
    "Header " + header + " is required for signature, yet not defined in request"
  }

  /** A line for a header with its values, separated by single spaces. */
  function ValueLine(header: string, values: seq<string>): string {
    header + Separator + Join(" ", values)
  }

  /** The request body: the reader's lines joined with line feeds. */
  function Message(req: Request): string {
    Join("\n", req.bodyLines)
  }

  /** The `digest` line. A digest failure is caught inside the mapping lambda, which then yields
      `null`; joining prints it as `null`. */
  function DigestLine(o: Oracles, req: Request): (r: string)
    ensures Sha256Digest(o, Message(req)).Err? <==> r == "null"
  {
    match Sha256Digest(o, Message(req))
    case Ok(sum) => "digest" + Separator + "SHA-256=" + sum
    case Err(_) => "null"
  }

  /** A header name the request's header map holds, spelled exactly as the container reports it. */
  predicate Present(req: Request, header: string) {
    header in UtilHeaders(req)
  }

  /** The value synthesized for `date`: the request's date header, `null` when absent. The map
      entry holds it as it is; only the line prints it. */
  function DateHeaderValue(f: Flavor, req: Request): Option<string> {
    GetHeader(req.headers, f.DateHeader())
  }

  /** The synthesized date as its line prints it: `null` when absent. */
  function DateValue(f: Flavor, req: Request): string {
    JavaString(DateHeaderValue(f, req))
  }

  /** The value synthesized for `host`: the URI's host and port. */
  function HostValue(uri: Uri): string {
    JavaString(uri.host) + ":" + IntToString(uri.port)
  }

  /** The headers `getSignedString` cannot write a line for: an ordinary header the request does
      not carry, unless new headers are being collected and it is `date`, or `host` with a
      parsable URI, in any letter case. */
  predicate Undefined(o: Oracles, req: Request, header: string, injecting: bool) {
    header != RequestTarget && header != "digest" && !Present(req, header) &&
    (!injecting || (!EqualsIgnoreCase("date", header) &&
                    (!EqualsIgnoreCase("host", header) || o.parseUri(req.requestUri).None?)))
  }

  /** One step of the mapping lambda: the line for `header`, or the exception it raises.
      `injecting` says whether `newHeaders` is non-null. */
  function LineText(f: Flavor, o: Oracles, req: Request, header: string, injecting: bool): (r: Result<string, Error>)
    ensures r.Err? <==> Undefined(o, req, header, injecting)
    ensures r.Err? ==> r.error == IllegalArgument || r.error == SignatureFailure(NotDefinedMessage(header))
    ensures r.Err? && !(injecting && EqualsIgnoreCase("host", header)) ==> r.error == SignatureFailure(NotDefinedMessage(header))
    ensures r.Err? && injecting && EqualsIgnoreCase("host", header) ==> r.error == IllegalArgument
    ensures r.Ok? && header != "digest" ==> StartsWith(r.value, header + Separator)
    ensures header == RequestTarget ==> r == Ok(RequestTarget + Separator + Lower(req.httpMethod) + " " + req.requestUri)
    ensures header == "digest" ==> r == Ok(DigestLine(o, req))
    ensures header != RequestTarget && header != "digest" && Present(req, header) ==>
              r == Ok(ValueLine(header, ValuesNamed(req.headers, header)))
    ensures (header != RequestTarget && header != "digest" && !Present(req, header) && injecting &&
             EqualsIgnoreCase("date", header)) ==> r == Ok(ValueLine(header, [DateValue(f, req)]))
    ensures (header != RequestTarget && header != "digest" && !Present(req, header) && injecting &&
             !EqualsIgnoreCase("date", header) && EqualsIgnoreCase("host", header) && o.parseUri(req.requestUri).Some?)
            ==> r == Ok(ValueLine(header, [HostValue(o.parseUri(req.requestUri).value)]))
  {
    CollectValues(req.headers, header);
    if header == RequestTarget then
      Ok(header + Separator + Lower(req.httpMethod) + " " + req.requestUri)
    else if header == "digest" then
      Ok(DigestLine(o, req))
    else if Present(req, header) then
      Ok(ValueLine(header, UtilHeaders(req)[header]))
    else if !injecting then
      Err(SignatureFailure(NotDefinedMessage(header)))
    else if EqualsIgnoreCase("date", header) then
      Ok(ValueLine(header, [DateValue(f, req)]))
    else if EqualsIgnoreCase("host", header) then
      match o.parseUri(req.requestUri)
      case None => Err(IllegalArgument)
      case Some(uri) => Ok(ValueLine(header, [HostValue(uri)]))
    else
      Err(SignatureFailure(NotDefinedMessage(header)))
  }

  /** What the line for `header` puts into `newHeaders`: the lower-case key and its one value. */
  function Synthesized(f: Flavor, o: Oracles, req: Request, header: string): Option<(string, seq<Option<string>>)> {
    if header == RequestTarget || header == "digest" || Present(req, header) then None
    else if EqualsIgnoreCase("date", header) then Some(("date", [DateHeaderValue(f, req)]))
    else if EqualsIgnoreCase("host", header) then
      match o.parseUri(req.requestUri)
      case None => None
      case Some(uri) => Some(("host", [Some(HostValue(uri))]))
    else None
  }

  /** `newHeaders.put` for the line of `header`, when there is a map and something to put. */
  function Inject(f: Flavor, o: Oracles, req: Request, header: string, added: NewHeaders): (r: NewHeaders)
    ensures r.Some? <==> added.Some?
  {
    match added
    case None => None
    case Some(m) =>
      match Synthesized(f, o, req, header)
      case None => added
      case Some(entry) => Some(m[entry.0 := entry.1])
  }

  /** The lines of the signing string, in the order of `headers`, with `newHeaders` as it stands
      afterwards; the first header that has no line ends the stream with its exception. */
  function Lines(f: Flavor, o: Oracles, req: Request, headers: seq<string>, added: NewHeaders): (r: Result<(seq<string>, NewHeaders), Error>)
    ensures r.Ok? <==> forall k | 0 <= k < |headers| :: !Undefined(o, req, headers[k], added.Some?)
    ensures r.Ok? ==> |r.value.0| == |headers| && (r.value.1.Some? <==> added.Some?)
    ensures r.Ok? ==> forall k | 0 <= k < |headers| :: LineText(f, o, req, headers[k], added.Some?) == Ok(r.value.0[k])
    decreases |headers|
  {
    if |headers| == 0 then Ok(([], added))
    else
      var tail := headers[1..];
      assert forall k | 0 <= k < |tail| :: tail[k] == headers[k + 1];
      match LineText(f, o, req, headers[0], added.Some?)
      case Err(e) => Err(e)
      case Ok(line) =>
        match Lines(f, o, req, tail, Inject(f, o, req, headers[0], added))
        case Err(e) => Err(e)
        case Ok(rest) =>
          Ok(([line] + rest.0, rest.1))
  }

  /** `getSignedString`: the lines joined with line feeds, and `newHeaders` afterwards. */
  function SignedString(f: Flavor, o: Oracles, req: Request, headers: seq<string>, added: NewHeaders): Result<(string, NewHeaders), Error> {
    match Lines(f, o, req, headers, added)
    case Err(e) => Err(e)
    case Ok(p) => Ok((Join("\n", p.0), p.1))
  }

  /** `getHeaderBytesToSign`: the UTF-8 bytes of the signing string. The exceptions it turns into
      `null` cannot escape the mapping lambda, so that path is not reachable. */
  function HeaderBytesToSign(f: Flavor, o: Oracles, req: Request, headers: seq<string>, added: NewHeaders): Result<(seq<byte>, NewHeaders), Error> {
    match SignedString(f, o, req, headers, added)
    case Err(e) => Err(e)
    case Ok(p) => Ok((o.utf8(p.0), p.1))
  }

  // ---------------------------------------------------------------------------
  // The fixed-order canonical strings

  /** `createCannonicalRequestString`: five lines, the first with the URI's path only. Every
      argument may be `null` and prints as `null`. */
  function CanonicalRequestString(f: Flavor, uri: Uri, contentType: Option<string>, date: Option<string>, digest: Option<string>): string {
    Join("\n", CanonicalRequestLines(f, uri, contentType, date, digest))
  }

  function CanonicalRequestLines(f: Flavor, uri: Uri, contentType: Option<string>, date: Option<string>, digest: Option<string>): seq<string> {
    [RequestTarget + Separator + JavaString(uri.path),
     "host" + Separator + JavaString(uri.host)] +
    CanonicalResponseLines(f, contentType, date, digest)
  }

  /** `createCannonicalResponseString`: the last three lines of the request string. */
  function CanonicalResponseString(f: Flavor, contentType: Option<string>, date: Option<string>, digest: Option<string>): string {
    Join("\n", CanonicalResponseLines(f, contentType, date, digest))
  }

  function CanonicalResponseLines(f: Flavor, contentType: Option<string>, date: Option<string>, digest: Option<string>): seq<string> {
    [f.DateHeader() + Separator + JavaString(date),
     "digest" + Separator + JavaString(digest),
     "content-type" + Separator + JavaString(contentType)]
  }

  // ---------------------------------------------------------------------------
  // Properties

  /** A failing signing string fails with the exception of the first header that has no line;
      `k` is that header's position. */
  lemma {:induction false} LinesFirstError(f: Flavor, o: Oracles, req: Request, headers: seq<string>, added: NewHeaders)
    returns (k: nat)
    requires Lines(f, o, req, headers, added).Err?
    ensures k < |headers|
    ensures forall j | 0 <= j < k :: !Undefined(o, req, headers[j], added.Some?)
    ensures LineText(f, o, req, headers[k], added.Some?) == Err(Lines(f, o, req, headers, added).error)
    decreases |headers|
  {
    var injecting := added.Some?;
    LinesFailing(f, o, req, headers, added);
    if LineText(f, o, req, headers[0], injecting).Ok? {
      var tail := headers[1..];
      var next := Inject(f, o, req, headers[0], added);
      var k' := LinesFirstError(f, o, req, tail, next);
      k := k' + 1;
      DefinedBefore(o, req, headers, injecting, k');
    } else {
      k := 0;
    }
  }

  /** Headers with lines up to position `k` of the tail, and a line for the first header. */
  lemma DefinedBefore(o: Oracles, req: Request, headers: seq<string>, injecting: bool, k: nat)
    requires k + 1 < |headers| && !Undefined(o, req, headers[0], injecting)
    requires forall j | 0 <= j < k :: !Undefined(o, req, headers[1..][j], injecting)
    ensures forall j | 0 <= j < k + 1 :: !Undefined(o, req, headers[j], injecting)
    ensures headers[k + 1] == headers[1..][k]
  {
    forall j | 0 < j < k + 1 ensures !Undefined(o, req, headers[j], injecting) {
      assert headers[j] == headers[1..][j - 1];
    }
  }

  /** A failing stream fails on its first header or else with the error of the rest. */
  lemma LinesFailing(f: Flavor, o: Oracles, req: Request, headers: seq<string>, added: NewHeaders)
    requires Lines(f, o, req, headers, added).Err?
    ensures |headers| > 0
    ensures LineText(f, o, req, headers[0], added.Some?).Err? ==>
      LineText(f, o, req, headers[0], added.Some?).error == Lines(f, o, req, headers, added).error
    ensures LineText(f, o, req, headers[0], added.Some?).Ok? ==>
      Lines(f, o, req, headers[1..], Inject(f, o, req, headers[0], added)) == Lines(f, o, req, headers, added)
  {
  }

  /** When every signed header has a line without synthesis, a signer passing a map for new
      headers writes the same lines as a strict verifier and adds nothing to the map. */
  lemma {:induction false} StrictAgreesWithInjecting(f: Flavor, o: Oracles, req: Request, headers: seq<string>, m: HeaderMap)
    requires Lines(f, o, req, headers, None).Ok?
    ensures Lines(f, o, req, headers, Some(m)) == Ok((Lines(f, o, req, headers, None).value.0, Some(m)))
    decreases |headers|
  {
    if |headers| > 0 {
      assert !Undefined(o, req, headers[0], false);
      assert Inject(f, o, req, headers[0], Some(m)) == Some(m);
      StrictAgreesWithInjecting(f, o, req, headers[1..], m);
    }
  }

  /** A header that must be synthesized as `date`: absent from the request and `date` in some
      letter case. */
  predicate InjectsDate(req: Request, header: string) {
    !Present(req, header) && EqualsIgnoreCase("date", header)
  }

  /** A header that must be synthesized as `host`. */
  predicate InjectsHost(req: Request, header: string) {
    !Present(req, header) && EqualsIgnoreCase("host", header)
  }

  predicate AnyDate(req: Request, headers: seq<string>) {
    exists k | 0 <= k < |headers| :: InjectsDate(req, headers[k])
  }

  predicate AnyHost(req: Request, headers: seq<string>) {
    exists k | 0 <= k < |headers| :: InjectsHost(req, headers[k])
  }

  /** `newHeaders` as a signer leaves it, described without the fold: what it held before, with
      `date` set to the request's date header when some signed header had to be synthesized as
      the date, and `host` set to the URI's host and port likewise. */
  function Injected(f: Flavor, o: Oracles, req: Request, headers: seq<string>, m: HeaderMap): HeaderMap {
    PutBoth(m, DateEntry(f, req, headers), HostEntry(o, req, headers))
  }

  function DateEntry(f: Flavor, req: Request, headers: seq<string>): Option<seq<Option<string>>> {
    if AnyDate(req, headers) then Some([DateHeaderValue(f, req)]) else None
  }

  function HostEntry(o: Oracles, req: Request, headers: seq<string>): Option<seq<Option<string>>> {
    match o.parseUri(req.requestUri)
    case Some(uri) => if AnyHost(req, headers) then Some([Some(HostValue(uri))]) else None
    case None => None
  }

  /** `m` with `date` and then `host` put, each when given. */
  function PutBoth(m: HeaderMap, date: Option<seq<Option<string>>>, host: Option<seq<Option<string>>>): HeaderMap {
    var withDate := if date.Some? then m["date" := date.value] else m;
    if host.Some? then withDate["host" := host.value] else withDate
  }

  function Either<T>(a: Option<T>, b: Option<T>): Option<T> {
    if b.Some? then b else a
  }

  /** Putting the same values twice is putting them once. */
  lemma PutBothTwice(m: HeaderMap, d1: Option<seq<Option<string>>>, h1: Option<seq<Option<string>>>, d2: Option<seq<Option<string>>>, h2: Option<seq<Option<string>>>)
    requires d1.Some? && d2.Some? ==> d1 == d2
    requires h1.Some? && h2.Some? ==> h1 == h2
    ensures PutBoth(PutBoth(m, d1, h1), d2, h2) == PutBoth(m, Either(d1, d2), Either(h1, h2))
  {
  }

  lemma AnyStep(req: Request, headers: seq<string>)
    requires |headers| > 0
    ensures AnyDate(req, headers) <==> InjectsDate(req, headers[0]) || AnyDate(req, headers[1..])
    ensures AnyHost(req, headers) <==> InjectsHost(req, headers[0]) || AnyHost(req, headers[1..])
  {
    var tail := headers[1..];
    assert forall k | 0 <= k < |tail| :: tail[k] == headers[k + 1];
    forall k | 0 <= k < |headers| ensures k == 0 || headers[k] == tail[k - 1] {
    }
  }

  /** The first step of the fold puts exactly what `Injected` accounts for at the first header. */
  lemma InjectStep(f: Flavor, o: Oracles, req: Request, h: string, m: HeaderMap)
    requires !Undefined(o, req, h, true)
    ensures Inject(f, o, req, h, Some(m)) == Some(Injected(f, o, req, [h], m))
  {
    LowerDistinct(h);
    assert AnyDate(req, [h]) <==> InjectsDate(req, h) by {
      assert [h][0] == h;
    }
    assert AnyHost(req, [h]) <==> InjectsHost(req, h) by {
      assert [h][0] == h;
    }
  }

  /** A successful signing string leaves `newHeaders` as `Injected` describes. */
  lemma {:induction false} InjectedHeaders(f: Flavor, o: Oracles, req: Request, headers: seq<string>, m: HeaderMap)
    requires Lines(f, o, req, headers, Some(m)).Ok?
    ensures Lines(f, o, req, headers, Some(m)).value.1 == Some(Injected(f, o, req, headers, m))
    decreases |headers|
  {
    if |headers| == 0 {
      assert !AnyDate(req, headers) && !AnyHost(req, headers);
    } else {
      var h := headers[0];
      assert !Undefined(o, req, h, true);
      InjectStep(f, o, req, h, m);
      var m' := Injected(f, o, req, [h], m);
      InjectedHeaders(f, o, req, headers[1..], m');
      InjectedCompose(f, o, req, headers, m);
    }
  }

  /** Accounting for the first header and then for the rest accounts for them all. */
  lemma InjectedCompose(f: Flavor, o: Oracles, req: Request, headers: seq<string>, m: HeaderMap)
    requires |headers| > 0
    ensures Injected(f, o, req, headers[1..], Injected(f, o, req, [headers[0]], m)) == Injected(f, o, req, headers, m)
  {
    var h := headers[0];
    var tail := headers[1..];
    AnyStep(req, headers);
    assert [h][0] == h;
    assert AnyDate(req, [h]) <==> InjectsDate(req, h);
    assert AnyHost(req, [h]) <==> InjectsHost(req, h);
    assert DateEntry(f, req, headers) == Either(DateEntry(f, req, [h]), DateEntry(f, req, tail));
    assert HostEntry(o, req, headers) == Either(HostEntry(o, req, [h]), HostEntry(o, req, tail));
    PutBothTwice(m, DateEntry(f, req, [h]), HostEntry(o, req, [h]), DateEntry(f, req, tail), HostEntry(o, req, tail));
  }

  /** With the flavour's date header absent, a synthesized `date` is stored as a list holding one
      `null`, while its line prints `null`. */
  lemma AbsentDateStoredAsNull(f: Flavor, o: Oracles, req: Request, headers: seq<string>, m: HeaderMap, k: nat)
    requires GetHeader(req.headers, f.DateHeader()).None?
    requires k < |headers| && InjectsDate(req, headers[k])
    ensures Injected(f, o, req, headers, m)["date"] == [None]
    ensures LineText(f, o, req, headers[k], true) == Ok(ValueLine(headers[k], ["null"]))
  {
    LowerDistinct(headers[k]);
  }

  /** No header is `date` and `host` at once, and neither pseudo-header is either of them. */
  lemma LowerDistinct(h: string)
    ensures !(EqualsIgnoreCase("date", h) && EqualsIgnoreCase("host", h))
    ensures !EqualsIgnoreCase("date", RequestTarget) && !EqualsIgnoreCase("host", RequestTarget)
    ensures !EqualsIgnoreCase("date", "digest") && !EqualsIgnoreCase("host", "digest")
  {
    assert Lower("date")[0] == 'd' && Lower("host")[0] == 'h';
  }

  /** The signing string splits back into its lines, one per signed header, each opening with
      the header's name and the separator (the digest line reads `null` when the digest
      failed), provided no line holds a line feed. */
  lemma SignedStringLines(f: Flavor, o: Oracles, req: Request, headers: seq<string>, added: NewHeaders)
    requires |headers| > 0 && Lines(f, o, req, headers, added).Ok?
    requires forall k | 0 <= k < |headers| :: '\n' !in Lines(f, o, req, headers, added).value.0[k]
    ensures var lines := Split(SignedString(f, o, req, headers, added).value.0, '\n');
      |lines| == |headers| &&
      forall k | 0 <= k < |headers| ::
        lines[k] == LineText(f, o, req, headers[k], added.Some?).value &&
        (headers[k] != "digest" ==> StartsWith(lines[k], headers[k] + Separator))
  {
    SplitJoin(Lines(f, o, req, headers, added).value.0, '\n');
  }

  /** The digest line carries the body's digest in hex: reading the hex back gives the digest
      bytes. */
  lemma DigestLineCarriesDigest(o: Oracles, req: Request)
    requires Sha256Digest(o, Message(req)).Ok?
    ensures var prefix := "digest" + Separator + "SHA-256=";
      StartsWith(DigestLine(o, req), prefix) &&
      ParseHex(DigestLine(o, req)[|prefix|..]) == o.sha256(o.utf8(Message(req)))
  {
    var prefix := "digest" + Separator + "SHA-256=";
    var sum := Sha256Digest(o, Message(req)).value;
    assert DigestLine(o, req) == prefix + sum;
    assert DigestLine(o, req)[|prefix|..] == sum;
  }

  /** The `(request-target)` line does not depend on the letter case of the method. */
  lemma RequestTargetIgnoresMethodCase(f: Flavor, o: Oracles, req: Request, other: string, injecting: bool)
    requires EqualsIgnoreCase(req.httpMethod, other)
    ensures LineText(f, o, req, RequestTarget, injecting) == LineText(f, o, req.(httpMethod := other), RequestTarget, injecting)
    ensures LineText(f, o, req, RequestTarget, injecting).Ok?
  {
  }

  /** The canonical request string is the path and host lines followed by the canonical
      response string. */
  lemma CanonicalRequestExtendsResponse(f: Flavor, uri: Uri, contentType: Option<string>, date: Option<string>, digest: Option<string>)
    ensures CanonicalRequestString(f, uri, contentType, date, digest) ==
      RequestTarget + Separator + JavaString(uri.path) + "\n" + "host" + Separator + JavaString(uri.host) + "\n" +
      CanonicalResponseString(f, contentType, date, digest)
  {
    var tail := CanonicalResponseLines(f, contentType, date, digest);
    var lines := CanonicalRequestLines(f, uri, contentType, date, digest);
    assert lines[1..][1..] == tail;
    assert Join("\n", lines[1..]) == lines[1] + "\n" + Join("\n", tail);
    assert Join("\n", lines) == lines[0] + "\n" + Join("\n", lines[1..]);
  }

  /** Each canonical response string splits into its three fixed lines, provided no argument
      holds a line feed. */
  lemma CanonicalResponseSplits(f: Flavor, contentType: Option<string>, date: Option<string>, digest: Option<string>)
    requires '\n' !in JavaString(contentType) && '\n' !in JavaString(date) && '\n' !in JavaString(digest)
    ensures Split(CanonicalResponseString(f, contentType, date, digest), '\n') ==
      [f.DateHeader() + Separator + JavaString(date), "digest" + Separator + JavaString(digest),
       "content-type" + Separator + JavaString(contentType)]
  {
    var lines := CanonicalResponseLines(f, contentType, date, digest);
    NoLineFeed(f.DateHeader() + Separator, JavaString(date));
    NoLineFeed("digest" + Separator, JavaString(digest));
    NoLineFeed("content-type" + Separator, JavaString(contentType));
    SplitJoin(lines, '\n');
  }

  /** Each canonical request string splits into its five fixed lines, the first naming the path
      and no method, provided no argument holds a line feed. */
  lemma CanonicalRequestSplits(f: Flavor, uri: Uri, contentType: Option<string>, date: Option<string>, digest: Option<string>)
    requires '\n' !in JavaString(uri.path) && '\n' !in JavaString(uri.host)
    requires '\n' !in JavaString(contentType) && '\n' !in JavaString(date) && '\n' !in JavaString(digest)
    ensures Split(CanonicalRequestString(f, uri, contentType, date, digest), '\n') ==
      [RequestTarget + Separator + JavaString(uri.path), "host" + Separator + JavaString(uri.host)] +
      CanonicalResponseLines(f, contentType, date, digest)
  {
    var lines := CanonicalRequestLines(f, uri, contentType, date, digest);
    NoLineFeed(RequestTarget + Separator, JavaString(uri.path));
    NoLineFeed("host" + Separator, JavaString(uri.host));
    NoLineFeed(f.DateHeader() + Separator, JavaString(date));
    NoLineFeed("digest" + Separator, JavaString(digest));
    NoLineFeed("content-type" + Separator, JavaString(contentType));
    SplitJoin(lines, '\n');
  }

  lemma NoLineFeed(name: string, value: string)
    requires forall i | 0 <= i < |name| :: name[i] != '\n'
    requires '\n' !in value
    ensures '\n' !in name + value
  {
  }
}

=== FILE: codec.dfy ===
/**
 * The signature parameters (section 2.1 of draft-cavage-http-signatures-11): the
 * `HttpSignature` value, the `fromHeader` scanner, the `toSignatureHeader` serializer,
 * `validate`, and the required-header gate that opens `verify`.
 */
module Codec {
  import opened Wrappers
  import opened Strings
  import opened Errors
  import opened Hex
  import opened Algorithms
  import opened Policy
  import opened Oracles

  /** The two source trees differ in the header that carries the request date. */
  datatype Flavor = Co | Go {
    function DateHeader(): string {
      match this
      case Co => "date"
      case Go => "x-tesws-date"
    }
  }

  /** `DEFAULT_HEADERS`: the header list of every parsed signature. */
  function DefaultHeaders(f: Flavor): seq<string> {
    [RequestTarget, "host", f.DateHeader(), "digest", "content-type"]
  }

  /** An `HttpSignature`; a Java `null` field is `None`. */
  datatype HttpSignature = HttpSignature(
    keyId: Option<string>,
    algorithm: Option<Algorithm>,
    headers: seq<string>,
    base64Signature: Option<string>,
    signatureBytes: Option<seq<byte>>)

  // ---------------------------------------------------------------------------
  // fromHeader

  /** One pass of the scanning loop of `fromHeader` from index `b`: the pair it reads, with the
      name as it stands before `trim()`, and the index the next pass starts from; `None` when
      the loop returns instead, because no `=` remains or no opening or no closing quote
      follows the `=`. The name starts after the next comma when that comma lies before the
      `=`, and otherwise at `b`; with no comma left the next comma is -1 and the name starts
      at 0. */
  function Step(h: string, b: nat): (r: Option<((string, string), nat)>)
    requires b <= |h|
    ensures r.Some? ==> b < r.value.1 <= |h|
  {
    var c := IndexOf(h, ',', b);
    var eq := IndexOf(h, '=', b);
    if eq == -1 then None
    else
      var start := if eq > c then c + 1 else b;
      var qb := IndexOf(h, '"', eq);
      if qb == -1 then None
      else
        var qe := IndexOf(h, '"', qb + 1);
        if qe == -1 then None
        else Some(((h[start..eq], h[qb + 1..qe]), qe + 1))
  }

  /** The pairs the loop reads from index `b` on, in order. It ends, keeping what it has read,
      when a pass returns or when the closing quote is the last character. */
  function Scan(h: string, b: nat): (r: seq<(string, string)>)
    requires b <= |h|
    decreases |h| - b
  {
    match Step(h, b)
    case None => []
    case Some((field, next)) => if next >= |h| then [field] else [field] + Scan(h, next)
  }

  /** The names trimmed, as the loop does before its `switch`. */
  function TrimNames(fields: seq<(string, string)>): (r: seq<(string, string)>)
    ensures |r| == |fields|
    ensures forall k | 0 <= k < |r| :: r[k] == (Trim(fields[k].0), fields[k].1)
  {
    seq(|fields|, k requires 0 <= k < |fields| => (Trim(fields[k].0), fields[k].1))
  }

  /** The pairs the loop hands to its `switch`. */
  function Pairs(h: string): seq<(string, string)> {
    TrimNames(Scan(h, 0))
  }

  /** The three variables the loop assigns. */
  datatype Fields = Fields(keyId: Option<string>, algorithm: Option<string>, signature: Option<string>)

  /** One pass of the `switch`: a known name overwrites its variable, any other name is
      ignored. */
  function Assign(acc: Fields, field: (string, string)): Fields {
    match field.0
    case "keyId" => acc.(keyId := Some(field.1))
    case "algorithm" => acc.(algorithm := Some(field.1))
    case "signature" => acc.(signature := Some(field.1))
    case _ => acc
  }

  /** The variables after the loop has seen `fields`, starting from three `null`s. */
  function AssignAll(fields: seq<(string, string)>): Fields
    decreases |fields|
  {
    if |fields| == 0 then Fields(None, None, None)
    else Assign(AssignAll(fields[..|fields| - 1]), fields[|fields| - 1])
  }

  /** `value` is the last value given to `name` in `fields`, or `None` when `name` never occurs:
      the reference for "the latest one wins". */
  predicate IsLast(fields: seq<(string, string)>, name: string, value: Option<string>) {
    match value
    case None => forall k | 0 <= k < |fields| :: fields[k].0 != name
    case Some(v) => exists k | 0 <= k < |fields| ::
      (fields[k] == (name, v) && forall j | k < j < |fields| :: fields[j].0 != name)
  }

  /** `HttpSignature.fromHeader(header)`. Every exit builds the result with
      `Algorithm.get(algorithm)`, so a header without an algorithm field raises a
      `NullPointerException` and an unknown algorithm an `UnsupportedAlgorithmException`. */
  function FromHeader(f: Flavor, h: string): (r: Result<HttpSignature, Error>)
    ensures r.Ok? ==> r.value.headers == DefaultHeaders(f) && r.value.signatureBytes.None?
    ensures r.Ok? ==> r.value.algorithm.Some?
    ensures IsLast(Pairs(h), "algorithm", None) ==> r == Err(NullPointer)
    ensures r.Ok? ==> IsLast(Pairs(h), "keyId", r.value.keyId) && IsLast(Pairs(h), "signature", r.value.base64Signature)
    ensures r.Ok? ==> exists name :: IsLast(Pairs(h), "algorithm", Some(name)) && Get(name) == Ok(r.value.algorithm.value)
    ensures forall name :: IsLast(Pairs(h), "algorithm", Some(name)) ==>
              (r.Ok? <==> Get(name).Ok?) && (Get(name).Err? ==> r == Err(Get(name).error))
  {
    var fields := Pairs(h);
    var acc := AssignAll(fields);
    AssignAllLastWins(fields, "keyId");
    AssignAllLastWins(fields, "algorithm");
    AssignAllLastWins(fields, "signature");
    IsLastUnique(fields, "algorithm", acc.algorithm);
    match acc.algorithm
    case None => Err(NullPointer)
    case Some(name) =>
      match Get(name)
      case Err(e) => Err(e)
      case Ok(alg) => Ok(HttpSignature(acc.keyId, Some(alg), DefaultHeaders(f), acc.signature, None))
  }

  /** One assignment as `toSignatureHeader` writes it: `name="value"`. */
  function Wire(name: string, value: string): (r: string)
    ensures |r| == |name| + |value| + 3
  {
    name + ['=', '"'] + value + ['"']
  }

  /** Assignments written one after the other, separated by commas. */
  function Render(fields: seq<(string, string)>): string {
    Join([','], seq(|fields|, k requires 0 <= k < |fields| => Wire(fields[k].0, fields[k].1)))
  }

  /** `toSignatureHeader()`: the key id, the algorithm's wire name and the signature, in that
      order. A `null` field prints as `null`. */
  function ToSignatureHeader(sig: HttpSignature): string {
    var alg := if sig.algorithm.Some? then sig.algorithm.value.ToString() else "null";
    Wire("keyId", JavaString(sig.keyId)) + [','] +
    Wire("algorithm", alg) + [','] +
    Wire("signature", JavaString(sig.base64Signature))
  }

  // ---------------------------------------------------------------------------
  // validate and the required-header gate

  const ValidationPrefix: string := "HttpSignature is not valid. Problems: "

  /** The message of the `NullPointerException` raised by `base64Signature.getBytes()` on a
      `null` signature, on a JVM without helpful exception messages. */
  const NullPointerMessage: string := "null"

  /** What `validate` can complain about. */
  datatype Problem = MissingKeyId | MissingAlgorithm | MissingSignature | Undecodable(message: string) {
    function Text(): string {
      match this
      case MissingKeyId => "keyId is a mandatory signature header component"
      case MissingAlgorithm => "algorithm is a mandatory signature header component"
      case MissingSignature => "signature is a mandatory signature header component"
      case Undecodable(m) => "cannot get bytes from base64 encoded signature: " + m
    }
  }

  /** The decoder's verdict on the signature text: decoding `null` fails like any other
      exception, with the null-pointer message. */
  function Decode(o: Oracles, base64Signature: Option<string>): Result<seq<byte>, string> {
    match base64Signature
    case None => Err(NullPointerMessage)
    case Some(s) => o.base64Decode(s)
  }

  /** The problems `validate` collects, in the order it checks them. */
  function Problems(o: Oracles, sig: HttpSignature): (r: seq<Problem>)
    ensures MissingKeyId in r <==> sig.keyId.None?
    ensures MissingAlgorithm in r <==> sig.algorithm.None?
    ensures MissingSignature in r <==> sig.base64Signature.None?
    ensures (exists m :: Undecodable(m) in r) <==> Decode(o, sig.base64Signature).Err?
    ensures Decode(o, sig.base64Signature).Err? ==> r[|r| - 1] == Undecodable(Decode(o, sig.base64Signature).error)
    ensures |r| == 0 <==> (sig.keyId.Some? && sig.algorithm.Some? && sig.base64Signature.Some? && Decode(o, sig.base64Signature).Ok?)
  {
    var p1 := if sig.keyId.None? then [MissingKeyId] else [];
    var p2 := if sig.algorithm.None? then [MissingAlgorithm] else [];
    var p3 := if sig.base64Signature.None? then [MissingSignature] else [];
    var p4 := match Decode(o, sig.base64Signature)
      case Err(m) => [Undecodable(m)]
      case Ok(_) => [];
    var r := p1 + p2 + p3 + p4;
    assert forall x | x in r :: x in p1 || x in p2 || x in p3 || x in p4;
    r
  }

  function ProblemTexts(problems: seq<Problem>): (r: seq<string>)
    ensures |r| == |problems|
    ensures forall k | 0 <= k < |r| :: r[k] == problems[k].Text()
  {
    seq(|problems|, k requires 0 <= k < |problems| => problems[k].Text())
  }

  /** `validate()`: no message and the decoded bytes stored when there is no problem;
      otherwise every problem, joined with `", "`, after a fixed prefix. The bytes are stored
      whenever decoding succeeds, problems or not. */
  function Validate(o: Oracles, sig: HttpSignature): (r: (Option<string>, HttpSignature))
    ensures r.0.None? <==> (sig.keyId.Some? && sig.algorithm.Some? && sig.base64Signature.Some? &&
                            o.base64Decode(sig.base64Signature.value).Ok?)
    ensures r.0.None? ==> r.1.signatureBytes == Some(o.base64Decode(sig.base64Signature.value).value)
    ensures r.0.Some? ==> StartsWith(r.0.value, ValidationPrefix)
    ensures r.1 == sig.(signatureBytes := r.1.signatureBytes)
    ensures Decode(o, sig.base64Signature).Err? ==> r.1.signatureBytes == sig.signatureBytes
  {
    var problems := Problems(o, sig);
    var stored := match Decode(o, sig.base64Signature)
      case Ok(bytes) => sig.(signatureBytes := Some(bytes))
      case Err(_) => sig;
    if |problems| == 0 then (None, stored)
    else
      var message := ValidationPrefix + Join(", ", ProblemTexts(problems));
      assert message[..|ValidationPrefix|] == ValidationPrefix;
      (Some(message), stored)
  }

  /** The message for a required header the signature does not list. */
  function NotSignedMessage(header: string): string {
    "Header " + header + " is required, yet not signed"
  }

  /** The loop at the top of `verify`: the first required header missing from the signature's
      list, reported before any cryptographic work. */
  function RequiredHeaderGate(signed: seq<string>, required: seq<string>): (r: Option<string>)
    ensures r.None? <==> forall k | 0 <= k < |required| :: required[k] in signed
    ensures r.Some? ==> exists k | 0 <= k < |required| ::
      (required[k] !in signed && (forall j | 0 <= j < k :: required[j] in signed) && r.value == NotSignedMessage(required[k]))
    decreases |required|
  {
    if |required| == 0 then None
    else if required[0] !in signed then
      Some(NotSignedMessage(required[0]))
    else
      var r := RequiredHeaderGate(signed, required[1..]);
      assert forall k | 0 <= k < |required| - 1 :: required[1..][k] == required[k + 1];
      if r.Some? then
        var k :| 0 <= k < |required[1..]| && required[1..][k] !in signed &&
          (forall j | 0 <= j < k :: required[1..][j] in signed) && r.value == NotSignedMessage(required[1..][k]);
        assert forall j | 0 <= j < k + 1 :: required[j] in signed by {
          forall j | 0 <= j < k + 1 ensures required[j] in signed {
            if j > 0 {
              assert required[j] == required[1..][j - 1];
            }
          }
        }
        r
      else
        r
  }

  // ---------------------------------------------------------------------------
  // Properties

  /** The loop keeps, for each of the three names, the value of its last occurrence. */
  lemma {:induction false} AssignAllLastWins(fields: seq<(string, string)>, name: string)
    ensures name == "keyId" ==> IsLast(fields, name, AssignAll(fields).keyId)
    ensures name == "algorithm" ==> IsLast(fields, name, AssignAll(fields).algorithm)
    ensures name == "signature" ==> IsLast(fields, name, AssignAll(fields).signature)
    decreases |fields|
  {
    if |fields| > 0 {
      var init := fields[..|fields| - 1];
      var last := fields[|fields| - 1];
      AssignAllLastWins(init, name);
      assert fields == init + [last];
      var before, after := AssignAll(init), AssignAll(fields);
      if name == "keyId" {
        IsLastStep(init, last, name, before.keyId, after.keyId);
      } else if name == "algorithm" {
        IsLastStep(init, last, name, before.algorithm, after.algorithm);
      } else if name == "signature" {
        IsLastStep(init, last, name, before.signature, after.signature);
      }
    }
  }

  /** A name has at most one last value. */
  lemma IsLastUnique(fields: seq<(string, string)>, name: string, value: Option<string>)
    requires IsLast(fields, name, value)
    ensures forall other :: IsLast(fields, name, other) ==> other == value
  {
  }

  /** One more field: its value becomes the last one when it carries the name, and the last
      value so far stays otherwise. */
  lemma IsLastStep(init: seq<(string, string)>, last: (string, string), name: string, before: Option<string>, after: Option<string>)
    requires IsLast(init, name, before)
    requires after == if last.0 == name then Some(last.1) else before
    ensures IsLast(init + [last], name, after)
  {
    var fields := init + [last];
    if last.0 == name {
      assert fields[|init|] == (name, last.1);
    } else if before.Some? {
      var k :| 0 <= k < |init| && init[k] == (name, before.value) &&
        forall j | k < j < |init| :: init[j].0 != name;
      assert fields[k] == (name, before.value);
    }
  }

  /** Fields with names other than the three known ones change nothing, wherever they stand. */
  lemma {:induction false} UnknownFieldsIgnored(before: seq<(string, string)>, extra: (string, string), after: seq<(string, string)>)
    requires extra.0 != "keyId" && extra.0 != "algorithm" && extra.0 != "signature"
    ensures AssignAll(before + [extra] + after) == AssignAll(before + after)
    decreases |after|
  {
    if |after| == 0 {
      assert before + [extra] + after == before + [extra];
      assert (before + [extra])[..|before|] == before;
      assert before + after == before;
    } else {
      var init := after[..|after| - 1];
      var last := after[|after| - 1];
      UnknownFieldsIgnored(before, extra, init);
      assert (before + [extra] + after)[..|before + [extra] + after| - 1] == before + [extra] + init;
      assert (before + after)[..|before + after| - 1] == before + init;
    }
  }

  /** A well-formed name is read back as itself: no `=` or `,` inside, and nothing `trim`
      would remove at either end. */
  predicate PlainName(name: string) {
    |name| > 0 && UnbrokenName(name) && !IsTrimmable(name[0]) && !IsTrimmable(name[|name| - 1])
  }

  /** A name the scan does not cut short: no `=` or `,` inside. */
  predicate UnbrokenName(name: string) {
    '=' !in name && ',' !in name
  }

  /** The characters of `lead name="value" rest` laid out at `b`. */
  lemma FieldLayout(h: string, b: nat, lead: string, name: string, value: string, rest: string)
    requires b <= |h| && h[b..] == lead + name + ['=', '"'] + value + ['"'] + rest
    ensures b + |lead| + |name| + |value| + 3 + |rest| == |h|
    ensures forall i | 0 <= i < |lead| :: h[b + i] == lead[i]
    ensures h[b + |lead|..b + |lead| + |name|] == name
    ensures h[b + |lead| + |name|] == '=' && h[b + |lead| + |name| + 1] == '"'
    ensures h[b + |lead| + |name| + 2..b + |lead| + |name| + 2 + |value|] == value
    ensures h[b + |lead| + |name| + 2 + |value|] == '"'
    ensures h[b + |lead| + |name| + |value| + 3..] == rest
  {
    var t := h[b..];
    var n := |lead| + |name|;
    assert t[|lead|..n] == name;
    assert t[n] == '=' && t[n + 1] == '"';
    assert t[n + 2..n + 2 + |value|] == value;
    assert t[n + 2 + |value|] == '"';
    assert t[n + |value| + 3..] == rest;
    assert forall i | 0 <= i < |lead| :: t[i] == lead[i];
  }

  /** The scan's three searches from `b` when `=` sits at `e`, the opening quote right after it,
      and the closing quote at `qe`. */
  lemma SearchesLand(h: string, b: nat, e: nat, qe: nat)
    requires b <= e && e + 2 <= qe < |h|
    requires forall i | b <= i < e :: h[i] != '='
    requires h[e] == '=' && h[e + 1] == '"' && h[qe] == '"'
    requires forall i | e + 2 <= i < qe :: h[i] != '"'
    ensures IndexOf(h, '=', b) == e && IndexOf(h, '"', e) == e + 1 && IndexOf(h, '"', e + 2) == qe
  {
    IndexOfAt(h, '=', b, e);
    IndexOfAt(h, '"', e, e + 1);
    IndexOfAt(h, '"', e + 2, qe);
  }

  /** The pass from `b`, where a comma sits, when the `=` sits at `e`, the opening quote right
      after it and the closing quote at `qe`: the name starts after the comma, and the next
      pass starts just past the closing quote. */
  lemma StepAfterComma(h: string, b: nat, e: nat, qe: nat)
    requires b < e && e + 2 <= qe < |h|
    requires IndexOf(h, ',', b) == b
    requires IndexOf(h, '=', b) == e && IndexOf(h, '"', e) == e + 1 && IndexOf(h, '"', e + 2) == qe
    ensures Step(h, b) == Some(((h[b + 1..e], h[e + 2..qe]), qe + 1))
  {
    assert e + 1 + 1 == e + 2;
  }

  /** The same from the start of the header, with no comma before the `=`: the name starts at
      the very beginning. */
  lemma StepAtStart(h: string, e: nat, qe: nat)
    requires e + 2 <= qe < |h|
    requires IndexOf(h, ',', 0) == -1 || IndexOf(h, ',', 0) > e
    requires IndexOf(h, '=', 0) == e && IndexOf(h, '"', e) == e + 1 && IndexOf(h, '"', e + 2) == qe
    ensures Step(h, 0) == Some(((h[0..e], h[e + 2..qe]), qe + 1))
  {
    var c := IndexOf(h, ',', 0);
    var start := if e > c then c + 1 else 0;
    assert start == 0;
    assert e + 1 + 1 == e + 2;
    assert h[start..e] == h[0..e];
  }

  /** A pass that reads a pair and leaves `left` characters: the scan keeps the pair and goes
      on, unless the header ends there. */
  lemma ScanStep(h: string, b: nat, field: (string, string), left: nat)
    requires b <= |h| && left <= |h| && Step(h, b) == Some((field, |h| - left))
    ensures Scan(h, b) == [field] + (if left == 0 then [] else Scan(h, |h| - left))
  {
  }

  /** One step of the scan over `lead name="value" rest`, where the lead is the separating comma
      (or nothing, at the very start): the pair is read intact and the scan goes on just past
      the closing quote, unless that quote ends the header. */
  lemma ScanField(h: string, b: nat, lead: string, name: string, value: string, rest: string)
    requires b <= |h| && h[b..] == lead + name + ['=', '"'] + value + ['"'] + rest
    requires lead == [','] || (lead == [] && b == 0)
    requires UnbrokenName(name) && '"' !in value
    ensures b + |lead| + |name| + |value| + 3 == |h| - |rest|
    ensures Scan(h, b) == [(name, value)] + (if |rest| == 0 then [] else Scan(h, |h| - |rest|))
  {
    FieldLayout(h, b, lead, name, value, rest);
    if lead == [','] {
      assert h[b] == ',';
    }
    var p := b + |lead|;
    var e := p + |name|;
    var qe := e + 2 + |value|;
    FieldSearches(h, b, lead, name, value, p, e, qe);
    CommaSearch(h, b, lead, name, p, e);
    ScanFieldAt(h, b, lead == [','], e, qe, name, value, rest);
  }

  /** One step of the scan, given where its searches land. */
  lemma ScanFieldAt(h: string, b: nat, comma: bool, e: nat, qe: nat, name: string, value: string, rest: string)
    requires comma ==> b < e && IndexOf(h, ',', b) == b
    requires !comma ==> b == 0 && (IndexOf(h, ',', 0) == -1 || IndexOf(h, ',', 0) > e)
    requires e + 2 <= qe < |h| && qe + 1 + |rest| == |h|
    requires IndexOf(h, '=', b) == e && IndexOf(h, '"', e) == e + 1 && IndexOf(h, '"', e + 2) == qe
    requires h[(if comma then b + 1 else 0)..e] == name && h[e + 2..qe] == value
    ensures Scan(h, b) == [(name, value)] + (if |rest| == 0 then [] else Scan(h, |h| - |rest|))
  {
    if comma {
      StepAfterComma(h, b, e, qe);
    } else {
      StepAtStart(h, e, qe);
    }
    ScanStep(h, b, (name, value), |rest|);
  }

  /** A pass from `b` when no comma remains: the comma search gives -1, which lies before the
      `=`, so the name is taken from the very start of the header. */
  lemma StepWithoutComma(h: string, b: nat, e: nat, qe: nat, key: string, value: string, next: nat)
    requires b <= e && e + 2 <= qe < |h| && next == qe + 1
    requires IndexOf(h, ',', b) == -1
    requires IndexOf(h, '=', b) == e && IndexOf(h, '"', e) == e + 1 && IndexOf(h, '"', e + 2) == qe
    requires h[0..e] == key && h[e + 2..qe] == value
    ensures Step(h, b) == Some(((key, value), next))
  {
    var start := if e > -1 then -1 + 1 else b;
    assert start == 0;
    assert e + 1 + 1 == e + 2;
    assert h[start..e] == key;
  }

  /** A field laid out at `b` with no comma from `b` on is read under everything from the
      start of the header up to its `=`, whatever came before it. */
  lemma ScanWithoutComma(h: string, b: nat, lead: string, name: string, value: string, rest: string, key: string)
    requires b <= |h| && h[b..] == lead + name + ['=', '"'] + value + ['"'] + rest
    requires ',' !in h[b..] && '=' !in lead && '=' !in name && '"' !in value
    requires b + |lead| + |name| <= |h| && key == h[..b + |lead| + |name|]
    ensures b + |lead| + |name| + |value| + 3 == |h| - |rest|
    ensures Scan(h, b) == [(key, value)] + (if |rest| == 0 then [] else Scan(h, |h| - |rest|))
  {
    FieldLayout(h, b, lead, name, value, rest);
    var p := b + |lead|;
    var e := p + |name|;
    var qe := e + 2 + |value|;
    Avoids(h, b, lead, '=');
    Avoids(h, p, name, '=');
    Avoids(h, e + 2, value, '"');
    SearchesLand(h, b, e, qe);
    assert forall i | b <= i < |h| :: h[i] == h[b..][i - b];
    IndexOfNone(h, ',', b);
    assert h[0..e] == key;
    ScanWithoutCommaAt(h, b, e, qe, key, value, rest);
  }

  /** The last field of a header without commas, laid out in the suffix `tail`. */
  lemma ScanLastWithoutComma(h: string, tail: string, lead: string, name: string, value: string, key: string)
    requires |tail| <= |h| && h[|h| - |tail|..] == lead + name + ['=', '"'] + value + ['"'] + []
    requires ',' !in h[|h| - |tail|..] && '=' !in lead && '=' !in name && '"' !in value
    requires |h| - |tail| + |lead| + |name| <= |h| && key == h[..|h| - |tail| + |lead| + |name|]
    ensures Scan(h, |h| - |tail|) == [(key, value)]
  {
    ScanWithoutComma(h, |h| - |tail|, lead, name, value, [], key);
    assert [(key, value)] + [] == [(key, value)];
  }

  /** One step of the scan when no comma remains, given where its searches land. */
  lemma ScanWithoutCommaAt(h: string, b: nat, e: nat, qe: nat, key: string, value: string, rest: string)
    requires b <= e && e + 2 <= qe < |h| && qe + 1 + |rest| == |h|
    requires IndexOf(h, ',', b) == -1
    requires IndexOf(h, '=', b) == e && IndexOf(h, '"', e) == e + 1 && IndexOf(h, '"', e + 2) == qe
    requires h[0..e] == key && h[e + 2..qe] == value
    ensures Scan(h, b) == [(key, value)] + (if |rest| == 0 then [] else Scan(h, |h| - |rest|))
  {
    StepWithoutComma(h, b, e, qe, key, value, |h| - |rest|);
    ScanStep(h, b, (key, value), |rest|);
  }

  /** Two assignments separated by a space instead of a comma: the second is read under a name
      that runs from the start of the header, first assignment included. */
  lemma PairsWithoutComma(n1: string, v1: string, n2: string, v2: string)
    requires PlainName(n1) && PlainName(n2)
    requires '"' !in v1 && '"' !in v2 && ',' !in v1 && ',' !in v2
    ensures Pairs(Wire(n1, v1) + " " + Wire(n2, v2)) == [(n1, v1), (Wire(n1, v1) + " " + n2, v2)]
  {
    var misread := Wire(n1, v1) + " " + n2;
    ScanWithoutCommaTwice(n1, v1, n2, v2);
    MisreadUntrimmed(n1, v1, n2);
    TrimTwo((n1, v1), (misread, v2));
  }

  /** The misread name starts and ends as the two real names do, so `trim()` keeps it whole. */
  lemma MisreadUntrimmed(n1: string, v1: string, n2: string)
    requires PlainName(n1) && PlainName(n2)
    ensures Trim(n1) == n1 && Trim(Wire(n1, v1) + " " + n2) == Wire(n1, v1) + " " + n2
  {
    var misread := Wire(n1, v1) + " " + n2;
    assert misread[0] == n1[0] && misread[|misread| - 1] == n2[|n2| - 1];
  }

  lemma TrimTwo(a: (string, string), b: (string, string))
    requires Trim(a.0) == a.0 && Trim(b.0) == b.0
    ensures TrimNames([a, b]) == [a, b]
  {
    var r := TrimNames([a, b]);
    assert r[0] == a && r[1] == b;
  }

  /** The raw scan of two assignments separated by a space. */
  lemma ScanWithoutCommaTwice(n1: string, v1: string, n2: string, v2: string)
    requires UnbrokenName(n1) && UnbrokenName(n2)
    requires '"' !in v1 && '"' !in v2 && ',' !in v1 && ',' !in v2
    ensures Scan(Wire(n1, v1) + " " + Wire(n2, v2), 0) == [(n1, v1), (Wire(n1, v1) + " " + n2, v2)]
  {
    var h := Wire(n1, v1) + " " + Wire(n2, v2);
    Regroup(Wire(n1, v1), " ", Wire(n2, v2));
    NoCommaInWires(n1, v1, n2, v2);
    var rest := " " + Wire(n2, v2);
    FirstWithoutComma(h, n1, v1, rest);
    WireSecond(h, n1, v1, n2, v2, rest);
    var key := Wire(n1, v1) + " " + n2;
    ScanLastWithoutComma(h, rest, " ", n2, v2, key);
    LinkTwo(Scan(h, 0), Scan(h, |h| - |rest|), (n1, v1), (key, v2));
  }

  lemma LinkTwo<T>(s0: seq<T>, s1: seq<T>, x: T, y: T)
    requires s0 == [x] + s1
    requires s1 == [y]
    ensures s0 == [x, y]
  {
  }

  /** The first assignment is read intact, and the scan goes on just past its closing quote. */
  lemma FirstWithoutComma(h: string, n1: string, v1: string, rest: string)
    requires h == Wire(n1, v1) + rest && |rest| > 0
    requires UnbrokenName(n1) && '"' !in v1 && ',' !in h
    ensures |Wire(n1, v1)| == |h| - |rest|
    ensures Scan(h, 0) == [(n1, v1)] + Scan(h, |h| - |rest|)
  {
    WireFirst(n1, v1, rest);
    ScanWithoutComma(h, 0, [], n1, v1, rest, n1);
  }

  /** An assignment at the start of a header, whatever follows it. */
  lemma WireFirst(name: string, value: string, rest: string)
    ensures var h := Wire(name, value) + rest;
      h[0..] == [] + name + ['=', '"'] + value + ['"'] + rest && h[..|name|] == name
  {
  }

  /** An assignment after a first one and a space. */
  lemma WireSecond(h: string, n1: string, v1: string, n2: string, v2: string, rest: string)
    requires h == Wire(n1, v1) + " " + Wire(n2, v2) && rest == " " + Wire(n2, v2)
    ensures |rest| <= |h|
    ensures h[|h| - |rest|..] == " " + n2 + ['=', '"'] + v2 + ['"'] + []
    ensures |h| - |rest| + 1 + |n2| <= |h| && h[..|h| - |rest| + 1 + |n2|] == Wire(n1, v1) + " " + n2
  {
    var w := |Wire(n1, v1)|;
    assert w == |h| - |rest|;
    assert h[w..] == " " + Wire(n2, v2);
  }

  lemma Regroup<T>(a: seq<T>, b: seq<T>, c: seq<T>)
    ensures a + b + c == a + (b + c)
  {
  }

  lemma NoCommaInWires(n1: string, v1: string, n2: string, v2: string)
    requires UnbrokenName(n1) && UnbrokenName(n2) && ',' !in v1 && ',' !in v2
    ensures ',' !in Wire(n1, v1) + " " + Wire(n2, v2)
  {
  }

  /** The algorithm given after a space rather than a comma is lost, so parsing fails as for a
      header with no algorithm at all. */
  lemma AlgorithmWithoutCommaIgnored(f: Flavor, k: string, a: string)
    requires '"' !in k && '"' !in a && ',' !in k && ',' !in a
    ensures FromHeader(f, Wire("keyId", k) + " " + Wire("algorithm", a)) == Err(NullPointer)
  {
    var h := Wire("keyId", k) + " " + Wire("algorithm", a);
    NamesArePlain();
    PairsWithoutComma("keyId", k, "algorithm", a);
    var misread := Wire("keyId", k) + " " + "algorithm";
    assert |misread| > |"algorithm"|;
    NoAlgorithmInMisreadTwo(Pairs(h), k, misread, a);
  }

  lemma NoAlgorithmInMisreadTwo(p: seq<(string, string)>, k: string, misread: string, a: string)
    requires p == [("keyId", k), (misread, a)] && misread != "algorithm"
    ensures IsLast(p, "algorithm", None)
  {
  }

  /** The raw scan of two comma-separated assignments followed by a third set off only by a
      space: the first two are read intact, and the third under a name that runs from the start
      of the header, commas and earlier assignments included. */
  lemma ScanSpaceAfterComma(n1: string, v1: string, n2: string, v2: string, n3: string, v3: string)
    requires UnbrokenName(n1) && UnbrokenName(n2) && UnbrokenName(n3)
    requires '"' !in v1 && '"' !in v2 && '"' !in v3 && ',' !in v2 && ',' !in v3
    ensures Scan(Wire(n1, v1) + "," + Wire(n2, v2) + " " + Wire(n3, v3), 0)
         == [(n1, v1), (n2, v2), (Wire(n1, v1) + "," + Wire(n2, v2) + " " + n3, v3)]
  {
    var w1, w2, w3 := Wire(n1, v1), Wire(n2, v2), Wire(n3, v3);
    var h := w1 + "," + w2 + " " + w3;
    var rest2 := " " + w3;
    var rest1 := "," + w2 + rest2;
    var key := w1 + "," + w2 + " " + n3;
    SplitThree(w1, w2, w3);
    WireFirst(n1, v1, rest1);
    WireAfterComma(h, w1, n2, v2, rest1, rest2);
    WireAfterSpace(h, w1 + "," + w2, n3, v3, rest2);
    var b1: nat := |h| - |rest1|;
    ScanFirstField(h, b1, n1, v1, rest1);
    ScanLastTwoLaidOut(h, b1, n2, v2, n3, v3, rest2, key);
    LinkFront(Scan(h, 0), Scan(h, b1), (n1, v1), [(n2, v2), (key, v3)]);
  }

  /** The first field of a header, with more after it: the scan resumes at `b1`. */
  lemma ScanFirstField(h: string, b1: nat, n1: string, v1: string, rest1: string)
    requires UnbrokenName(n1) && '"' !in v1 && |rest1| > 0 && b1 == |h| - |rest1|
    requires h[0..] == [] + n1 + ['=', '"'] + v1 + ['"'] + rest1
    ensures Scan(h, 0) == [(n1, v1)] + Scan(h, b1)
  {
    ScanField(h, 0, [], n1, v1, rest1);
  }

  /** The last two of those fields, from the comma before the second. */
  lemma ScanLastTwoLaidOut(h: string, b1: nat, n2: string, v2: string, n3: string, v3: string, rest2: string, key: string)
    requires UnbrokenName(n2) && '=' !in n3 && '"' !in v2 && '"' !in v3
    requires b1 <= |h| && h[b1..] == [','] + n2 + ['=', '"'] + v2 + ['"'] + rest2
    requires |rest2| <= |h| && h[|h| - |rest2|..] == " " + n3 + ['=', '"'] + v3 + ['"'] + []
    requires ',' !in h[|h| - |rest2|..]
    requires |h| - |rest2| + 1 + |n3| <= |h| && key == h[..|h| - |rest2| + 1 + |n3|]
    ensures Scan(h, b1) == [(n2, v2), (key, v3)]
  {
    ScanField(h, b1, [','], n2, v2, rest2);
    ScanLastWithoutComma(h, rest2, " ", n3, v3, key);
    LinkTwo(Scan(h, b1), Scan(h, |h| - |rest2|), (n2, v2), (key, v3));
  }

  lemma SplitThree(w1: string, w2: string, w3: string)
    ensures w1 + "," + w2 + " " + w3 == w1 + ("," + w2 + (" " + w3))
    ensures w1 + "," + w2 + " " + w3 == (w1 + "," + w2) + (" " + w3)
  {
  }

  /** An assignment after a comma, at the end of `prefix`. */
  lemma WireAfterComma(h: string, prefix: string, n: string, v: string, rest1: string, rest2: string)
    requires rest1 == "," + Wire(n, v) + rest2 && h == prefix + rest1
    ensures |h| - |rest1| == |prefix|
    ensures h[|h| - |rest1|..] == [','] + n + ['=', '"'] + v + ['"'] + rest2
  {
    assert h[|prefix|..] == rest1;
  }

  /** An assignment after a space, closing the header: no comma follows the space, and the
      characters up to the `=` are `prefix`, the space and the name. */
  lemma WireAfterSpace(h: string, prefix: string, n: string, v: string, rest: string)
    requires rest == " " + Wire(n, v) && h == prefix + rest
    requires UnbrokenName(n) && ',' !in v
    ensures |rest| <= |h| && h[|h| - |rest|..] == " " + n + ['=', '"'] + v + ['"'] + []
    ensures ',' !in h[|h| - |rest|..]
    ensures |h| - |rest| + 1 + |n| <= |h| && h[..|h| - |rest| + 1 + |n|] == prefix + " " + n
  {
    assert h[|prefix|..] == rest;
    assert h[..|prefix| + 1 + |n|] == prefix + " " + n;
  }

  lemma LinkFront<T>(s0: seq<T>, s1: seq<T>, x: T, ys: seq<T>)
    requires s0 == [x] + s1 && s1 == ys
    ensures s0 == [x] + ys
  {
  }

  lemma LinkThree<T>(s0: seq<T>, s1: seq<T>, s2: seq<T>, x: T, y: T, z: T)
    requires s0 == [x] + s1 && s1 == [y] + s2 && s2 == [z]
    ensures s0 == [x, y, z]
  {
  }

  /** The same header as `FromHeader` sees it: the misread name keeps its ends, so `trim()`
      leaves it whole. */
  lemma PairsSpaceAfterComma(n1: string, v1: string, n2: string, v2: string, n3: string, v3: string)
    requires PlainName(n1) && PlainName(n2) && PlainName(n3)
    requires '"' !in v1 && '"' !in v2 && '"' !in v3 && ',' !in v2 && ',' !in v3
    ensures Pairs(Wire(n1, v1) + "," + Wire(n2, v2) + " " + Wire(n3, v3))
         == [(n1, v1), (n2, v2), (Wire(n1, v1) + "," + Wire(n2, v2) + " " + n3, v3)]
  {
    ScanSpaceAfterComma(n1, v1, n2, v2, n3, v3);
    ThreeNamesKept(n1, v1, n2, v2, n3, v3);
  }

  lemma ThreeNamesKept(n1: string, v1: string, n2: string, v2: string, n3: string, v3: string)
    requires PlainName(n1) && PlainName(n2) && PlainName(n3)
    ensures var misread := Wire(n1, v1) + "," + Wire(n2, v2) + " " + n3;
      TrimNames([(n1, v1), (n2, v2), (misread, v3)]) == [(n1, v1), (n2, v2), (misread, v3)]
  {
    var misread := Wire(n1, v1) + "," + Wire(n2, v2) + " " + n3;
    MisreadThreeUntrimmed(n1, v1, n2, v2, n3);
    TrimThree((n1, v1), (n2, v2), (misread, v3));
  }

  lemma MisreadThreeUntrimmed(n1: string, v1: string, n2: string, v2: string, n3: string)
    requires PlainName(n1) && PlainName(n2) && PlainName(n3)
    ensures Trim(n1) == n1 && Trim(n2) == n2
    ensures Trim(Wire(n1, v1) + "," + Wire(n2, v2) + " " + n3) == Wire(n1, v1) + "," + Wire(n2, v2) + " " + n3
  {
    var misread := Wire(n1, v1) + "," + Wire(n2, v2) + " " + n3;
    assert misread[0] == n1[0] && misread[|misread| - 1] == n3[|n3| - 1];
  }

  lemma TrimThree(a: (string, string), b: (string, string), c: (string, string))
    requires Trim(a.0) == a.0 && Trim(b.0) == b.0 && Trim(c.0) == c.0
    ensures TrimNames([a, b, c]) == [a, b, c]
  {
    var fields := [a, b, c];
    forall k | 0 <= k < |fields| ensures Trim(fields[k].0) == fields[k].0 {
      if k == 0 {
        assert fields[k] == a;
      } else if k == 1 {
        assert fields[k] == b;
      } else {
        assert fields[k] == c;
      }
    }
    TrimNamesKeeps(fields);
  }

  /** Names that `trim()` leaves alone come through `TrimNames` unchanged. */
  lemma TrimNamesKeeps(fields: seq<(string, string)>)
    requires forall k | 0 <= k < |fields| :: Trim(fields[k].0) == fields[k].0
    ensures TrimNames(fields) == fields
  {
    var r := TrimNames(fields);
    assert forall k | 0 <= k < |r| :: r[k] == fields[k];
  }

  /** The signature given after a space rather than a comma is lost: a header that otherwise
      parses comes back without a signature. */
  lemma SignatureAfterSpaceLost(f: Flavor, k: string, a: string, sig: string)
    requires '"' !in k && '"' !in a && '"' !in sig && ',' !in a && ',' !in sig
    ensures var r := FromHeader(f, Wire("keyId", k) + "," + Wire("algorithm", a) + " " + Wire("signature", sig));
      (r.Ok? <==> Get(a).Ok?) && (r.Ok? ==> r.value.keyId == Some(k) && r.value.base64Signature.None?)
  {
    var h := Wire("keyId", k) + "," + Wire("algorithm", a) + " " + Wire("signature", sig);
    var misread := Wire("keyId", k) + "," + Wire("algorithm", a) + " " + "signature";
    NamesArePlain();
    PairsSpaceAfterComma("keyId", k, "algorithm", a, "signature", sig);
    var p := Pairs(h);
    assert |misread| > |"signature"| == |"algorithm"| > |"keyId"|;
    LastOfMisreadThree(p, k, a, sig, misread);
    IsLastUnique(p, "signature", None);
    IsLastUnique(p, "keyId", Some(k));
  }

  /** Who wins in `keyId`, `algorithm` and a third field under an unknown name. */
  lemma LastOfMisreadThree(p: seq<(string, string)>, k: string, a: string, sig: string, misread: string)
    requires p == [("keyId", k), ("algorithm", a), (misread, sig)]
    requires misread != "keyId" && misread != "algorithm" && misread != "signature"
    ensures IsLast(p, "signature", None) && IsLast(p, "algorithm", Some(a)) && IsLast(p, "keyId", Some(k))
  {
    assert p[0] == ("keyId", k) && p[1] == ("algorithm", a);
  }

  /** Where the searches for `=` and the two quotes land in a laid-out field. */
  lemma FieldSearches(h: string, b: nat, lead: string, name: string, value: string, p: nat, e: nat, qe: nat)
    requires p == b + |lead| && e == p + |name| && qe == e + 2 + |value| && qe < |h|
    requires lead == [','] || (lead == [] && b == 0)
    requires lead == [','] ==> h[b] == ','
    requires UnbrokenName(name) && '"' !in value
    requires h[p..e] == name && h[e + 2..qe] == value
    requires h[e] == '=' && h[e + 1] == '"' && h[qe] == '"'
    ensures IndexOf(h, '=', b) == e && IndexOf(h, '"', e) == e + 1 && IndexOf(h, '"', e + 2) == qe
  {
    assert '=' !in name;
    Avoids(h, p, name, '=');
    Avoids(h, e + 2, value, '"');
    SearchesLand(h, b, e, qe);
  }

  /** Where the search for the comma lands in a laid-out field: on the lead comma, or, at the
      start of the header, nowhere before the `=`. */
  lemma CommaSearch(h: string, b: nat, lead: string, name: string, p: nat, e: nat)
    requires p == b + |lead| && e == p + |name| && e < |h|
    requires lead == [','] || (lead == [] && b == 0)
    requires lead == [','] ==> h[b] == ','
    requires UnbrokenName(name) && h[p..e] == name && h[e] == '='
    ensures lead == [','] ==> IndexOf(h, ',', b) == b
    ensures lead != [','] ==> IndexOf(h, ',', 0) == -1 || IndexOf(h, ',', 0) > e
  {
    if lead == [','] {
      IndexOfAt(h, ',', b, b);
    } else {
      assert ',' !in name;
      Avoids(h, p, name, ',');
      IndexOfFirst(h, ',', b);
    }
  }

  /** A stretch of `h` equal to a string without `ch` holds no `ch`. */
  lemma Avoids(h: string, p: nat, part: string, ch: char)
    requires p + |part| <= |h| && h[p..p + |part|] == part && ch !in part
    ensures forall i | p <= i < p + |part| :: h[i] != ch
  {
    forall i | p <= i < p + |part| ensures h[i] != ch {
      assert h[i] == part[i - p];
    }
  }

  /** A header whose last assignment lacks its closing quote ends the scan before that field. */
  lemma ScanUnclosed(h: string, b: nat, name: string, tail: string)
    requires b <= |h| && h[b..] == [','] + name + ['=', '"'] + tail
    requires PlainName(name) && '"' !in tail
    ensures Scan(h, b) == []
  {
    var t := h[b..];
    var e := b + 1 + |name|;
    assert forall i | 0 <= i < |t| :: h[b + i] == t[i];
    assert h[e] == '=' by { assert t[1 + |name|] == '='; }
    assert h[e + 1] == '"' by { assert t[2 + |name|] == '"'; }
    forall i | b <= i < e ensures h[i] != '=' {
      if i > b {
        assert h[i] == t[i - b] == name[i - b - 1];
      } else {
        assert h[i] == t[0] == ',';
      }
    }
    IndexOfAt(h, '=', b, e);
    IndexOfAt(h, '"', e, e + 1);
    forall i | e + 2 <= i < |h| ensures h[i] != '"' {
      assert h[i] == t[i - b] == tail[i - e - 2];
    }
    IndexOfNone(h, '"', e + 2);
  }

  /** The three fields in the order `toSignatureHeader` writes them. */
  lemma AssignThree(k: string, a: string, s: string)
    ensures AssignAll([("keyId", k), ("algorithm", a), ("signature", s)]) == Fields(Some(k), Some(a), Some(s))
  {
    var fs := [("keyId", k), ("algorithm", a), ("signature", s)];
    assert fs[..2] == [("keyId", k), ("algorithm", a)];
    assert fs[..2][..1] == [("keyId", k)];
    assert fs[..2][..1][..0] == [];
    assert AssignAll(fs[..2][..1]) == Fields(Some(k), None, None);
    assert AssignAll(fs[..2]) == Fields(Some(k), Some(a), None);
  }

  /** Two algorithm fields: the second one is kept. */
  lemma AssignRepeated(k: string, a1: string, a2: string, s: string)
    ensures AssignAll([("keyId", k), ("algorithm", a1), ("algorithm", a2), ("signature", s)]) ==
      Fields(Some(k), Some(a2), Some(s))
  {
    var fs := [("keyId", k), ("algorithm", a1), ("algorithm", a2), ("signature", s)];
    assert fs[..3] == [("keyId", k), ("algorithm", a1), ("algorithm", a2)];
    AssignThreePrefix(k, a1, a2);
  }

  lemma AssignThreePrefix(k: string, a1: string, a2: string)
    ensures AssignAll([("keyId", k), ("algorithm", a1), ("algorithm", a2)]) == Fields(Some(k), Some(a2), None)
  {
    var fs := [("keyId", k), ("algorithm", a1), ("algorithm", a2)];
    assert fs[..2] == [("keyId", k), ("algorithm", a1)];
    assert fs[..2][..1] == [("keyId", k)];
    assert fs[..2][..1][..0] == [];
    assert AssignAll(fs[..2][..1]) == Fields(Some(k), None, None);
  }

  /** Trimming leaves well-formed names alone. */
  lemma TrimPlain(fields: seq<(string, string)>)
    requires forall k | 0 <= k < |fields| :: PlainName(fields[k].0)
    ensures TrimNames(fields) == fields
  {
  }

  lemma NamesArePlain()
    ensures PlainName("keyId") && PlainName("algorithm") && PlainName("signature")
  {
  }

  lemma WireNamesUnquoted(a: Algorithm)
    ensures '"' !in a.ToString()
  {
  }

  /** Fields the scanner can read back: plain names and values without quotes. */
  predicate Readable(fields: seq<(string, string)>) {
    forall k | 0 <= k < |fields| :: PlainName(fields[k].0) && '"' !in fields[k].1
  }

  /** Fields the scan reads back intact, though `trim()` may still change their names. */
  predicate Scannable(fields: seq<(string, string)>) {
    forall k | 0 <= k < |fields| :: UnbrokenName(fields[k].0) && '"' !in fields[k].1
  }

  /** `Render` peels off its first assignment. */
  lemma RenderFirst(fields: seq<(string, string)>)
    requires |fields| > 0
    ensures |fields| == 1 ==> Render(fields) == Wire(fields[0].0, fields[0].1)
    ensures |fields| > 1 ==> Render(fields) == Wire(fields[0].0, fields[0].1) + [','] + Render(fields[1..])
  {
    var ws := seq(|fields|, k requires 0 <= k < |fields| => Wire(fields[k].0, fields[k].1));
    var rest := fields[1..];
    assert ws[1..] == seq(|rest|, k requires 0 <= k < |rest| => Wire(rest[k].0, rest[k].1));
  }

  /** Scanning rendered assignments, followed by nothing or by more text after a comma, reads
      every assignment back, in order; the scan then carries on over the rest. */
  lemma {:induction false} ScanRender(h: string, b: nat, lead: string, fields: seq<(string, string)>, tail: string)
    requires |fields| > 0 && Scannable(fields)
    requires lead == [','] || (lead == [] && b == 0)
    requires tail == [] || tail[0] == ','
    requires b <= |h| && h[b..] == lead + Render(fields) + tail
    ensures |tail| <= |h|
    ensures Scan(h, b) == fields + (if |tail| == 0 then [] else Scan(h, |h| - |tail|))
    decreases |fields|
  {
    if |fields| == 1 {
      RenderFirst(fields);
      ScanRenderSingle(h, b, lead, fields[0].0, fields[0].1, tail);
      assert fields == [(fields[0].0, fields[0].1)];
    } else {
      var b' := ScanRenderHead(h, b, lead, fields, tail);
      ScanRender(h, b', [','], fields[1..], tail);
      Link(Scan(h, b), Scan(h, b'), fields[0], fields[1..], fields,
           if |tail| == 0 then [] else Scan(h, |h| - |tail|));
    }
  }

  /** The first of several rendered assignments is read, and the scan goes on at the comma
      that follows it. */
  lemma ScanRenderHead(h: string, b: nat, lead: string, fields: seq<(string, string)>, tail: string) returns (b': nat)
    requires |fields| > 1 && Scannable(fields)
    requires lead == [','] || (lead == [] && b == 0)
    requires b <= |h| && h[b..] == lead + Render(fields) + tail
    ensures b' <= |h| && h[b'..] == [','] + Render(fields[1..]) + tail
    ensures Scan(h, b) == [fields[0]] + Scan(h, b')
    ensures fields == [fields[0]] + fields[1..]
  {
    var name, value := fields[0].0, fields[0].1;
    var rest := [','] + Render(fields[1..]) + tail;
    assert rest[0] == ',';
    assert (name, value) == fields[0];
    RenderAfterFirst(h, b, lead, fields, tail);
    ScanField(h, b, lead, name, value, rest);
    b' := |h| - |rest|;
    assert h[b'..] == rest;
  }

  /** `ScanRender` for a single assignment. */
  lemma ScanRenderSingle(h: string, b: nat, lead: string, name: string, value: string, tail: string)
    requires UnbrokenName(name) && '"' !in value
    requires lead == [','] || (lead == [] && b == 0)
    requires b <= |h| && h[b..] == lead + Wire(name, value) + tail
    ensures |tail| <= |h|
    ensures Scan(h, b) == [(name, value)] + (if |tail| == 0 then [] else Scan(h, |h| - |tail|))
  {
    assert lead + Wire(name, value) + tail == lead + name + ['=', '"'] + value + ['"'] + tail;
    ScanField(h, b, lead, name, value, tail);
  }

  /** What follows the first rendered assignment. */
  lemma RenderAfterFirst(h: string, b: nat, lead: string, fields: seq<(string, string)>, tail: string)
    requires |fields| > 1
    requires b <= |h| && h[b..] == lead + Render(fields) + tail
    ensures h[b..] == lead + fields[0].0 + ['=', '"'] + fields[0].1 + ['"'] + ([','] + Render(fields[1..]) + tail)
    ensures b + |lead| + |fields[0].0| + |fields[0].1| + 3 <= |h|
    ensures h[b + |lead| + |fields[0].0| + |fields[0].1| + 3..] == [','] + Render(fields[1..]) + tail
    ensures fields == [(fields[0].0, fields[0].1)] + fields[1..]
  {
    RenderFirst(fields);
  }

  /** The scan of the first field followed by the scan of the rest. */
  lemma Link<T>(s0: seq<T>, s1: seq<T>, x: T, rest: seq<T>, all: seq<T>, next: seq<T>)
    requires s0 == [x] + s1 && s1 == rest + next && all == [x] + rest
    ensures s0 == all + next
  {
  }

  /** A parsed header whose fields assign the key id, the algorithm's wire name and the
      signature text gives the signature made of those three. */
  lemma FromAssigned(f: Flavor, h: string, k: string, alg: Algorithm, s: Option<string>)
    requires AssignAll(Pairs(h)) == Fields(Some(k), Some(alg.ToString()), s)
    ensures FromHeader(f, h) == Ok(HttpSignature(Some(k), Some(alg), DefaultHeaders(f), s, None))
  {
    GetByName(alg);
  }

  /** Reading rendered assignments back gives exactly the assignments, in order, when every
      name is plain and no value contains a quote. */
  lemma PairsOfRender(fields: seq<(string, string)>)
    requires |fields| > 0 && Readable(fields)
    ensures Pairs(Render(fields)) == fields
  {
    var h := Render(fields);
    assert h[0..] == [] + Render(fields) + [];
    ScanRender(h, 0, [], fields, []);
    assert fields + [] == fields;
    TrimPlain(fields);
  }

  /** `toSignatureHeader` renders its three assignments. */
  lemma SignatureHeaderRenders(sig: HttpSignature)
    requires sig.algorithm.Some?
    ensures ToSignatureHeader(sig) ==
      Render([("keyId", JavaString(sig.keyId)), ("algorithm", sig.algorithm.value.ToString()),
              ("signature", JavaString(sig.base64Signature))])
  {
    var fs := [("keyId", JavaString(sig.keyId)), ("algorithm", sig.algorithm.value.ToString()),
               ("signature", JavaString(sig.base64Signature))];
    RenderFirst(fs);
    RenderFirst(fs[1..]);
    RenderFirst(fs[1..][1..]);
  }

  /** Parsing what `toSignatureHeader` writes gives back the key id, the algorithm and the
      signature text, provided neither the key id nor the signature contains a quote. The
      header list is always the default one and the decoded bytes are not yet set. */
  lemma RoundTrip(f: Flavor, sig: HttpSignature)
    requires sig.keyId.Some? && sig.algorithm.Some? && sig.base64Signature.Some?
    requires '"' !in sig.keyId.value && '"' !in sig.base64Signature.value
    ensures FromHeader(f, ToSignatureHeader(sig)) ==
      Ok(HttpSignature(sig.keyId, sig.algorithm, DefaultHeaders(f), sig.base64Signature, None))
  {
    var k, a, s := sig.keyId.value, sig.algorithm.value.ToString(), sig.base64Signature.value;
    var fs := [("keyId", k), ("algorithm", a), ("signature", s)];
    NamesArePlain();
    WireNamesUnquoted(sig.algorithm.value);
    SignatureHeaderRenders(sig);
    PairsOfRender(fs);
    AssignThree(k, a, s);
    FromAssigned(f, ToSignatureHeader(sig), k, sig.algorithm.value, Some(s));
  }

  /** Rendered assignments followed by an assignment whose closing quote is missing read back
      as the complete assignments alone. */
  lemma PairsOfUnclosed(fields: seq<(string, string)>, name: string, value: string)
    requires |fields| > 0 && Readable(fields)
    requires PlainName(name) && '"' !in value
    ensures Pairs(Render(fields) + [','] + name + ['=', '"'] + value) == fields
  {
    var tail := [','] + name + ['=', '"'] + value;
    var h := Render(fields) + [','] + name + ['=', '"'] + value;
    TruncatedLayout(h, fields, tail);
    ScanRender(h, 0, [], fields, tail);
    ScanUnclosed(h, |h| - |tail|, name, value);
    assert fields + [] == fields;
    TrimPlain(fields);
  }

  lemma TruncatedLayout(h: string, fs: seq<(string, string)>, tail: string)
    requires h == Render(fs) + tail
    ensures h[0..] == [] + Render(fs) + tail && h[|h| - |tail|..] == tail
  {
  }

  /** A header cut short inside the signature value still yields the key id and the algorithm
      read so far, with no signature: the partial result is not an error. */
  lemma TruncatedSignature(f: Flavor, k: string, alg: Algorithm, s: string)
    requires '"' !in k && '"' !in s
    ensures FromHeader(f, Render([("keyId", k), ("algorithm", alg.ToString())]) + [','] + "signature" + ['=', '"'] + s) ==
      Ok(HttpSignature(Some(k), Some(alg), DefaultHeaders(f), None, None))
  {
    var fs := [("keyId", k), ("algorithm", alg.ToString())];
    NamesArePlain();
    WireNamesUnquoted(alg);
    PairsOfUnclosed(fs, "signature", s);
    assert fs[..1] == [("keyId", k)];
    assert fs[..1][..0] == [];
    assert AssignAll(fs[..1]) == Fields(Some(k), None, None);
    FromAssigned(f, Render(fs) + [','] + "signature" + ['=', '"'] + s, k, alg, None);
  }

  /** The last occurrence of a field wins: a repeated algorithm field overrides the first. */
  lemma LastAlgorithmWins(f: Flavor, k: string, first: Algorithm, second: Algorithm, s: string)
    requires '"' !in k && '"' !in s
    ensures FromHeader(f, Render([("keyId", k), ("algorithm", first.ToString()), ("algorithm", second.ToString()), ("signature", s)])) ==
      Ok(HttpSignature(Some(k), Some(second), DefaultHeaders(f), Some(s), None))
  {
    var a1, a2 := first.ToString(), second.ToString();
    var fs := [("keyId", k), ("algorithm", a1), ("algorithm", a2), ("signature", s)];
    NamesArePlain();
    WireNamesUnquoted(first);
    WireNamesUnquoted(second);
    PairsOfRender(fs);
    AssignRepeated(k, a1, a2, s);
    FromAssigned(f, Render(fs), k, second, Some(s));
  }
}

=== FILE: entry_point.dfy ===
/**
 * `HttpSignatureAuthenticationEntryPoint`: the 401 challenge sent when authentication fails,
 * with a `WWW-Authenticate` value in the style of section 3 of RFC 6750 under the `Signature`
 * scheme.
 */
module EntryPoint {
  import opened Wrappers
  import opened Strings
  import opened Codec

  /** `HttpStatus.UNAUTHORIZED`. */
  const Unauthorized: int := 401

  const Scheme: string := "Signature"

  /** The exception `commence` is given: only `HttpSignatureAuthenticationException` adds error
      details. A `null` message is `None`. */
  datatype AuthException =
    | SignatureAuthentication(message: Option<string>)
    | OtherAuthentication(message: Option<string>)

  /** The `LinkedHashMap` of parameters, in insertion order: the realm when one is set, then
      the error code, description and URI for a signature authentication failure. The keys
      are distinct, so no `put` replaces an earlier one. */
  function Parameters(realm: Option<string>, ex: AuthException, requestUri: string): (r: seq<(string, string)>)
    ensures |r| == (if realm.Some? then 1 else 0) + (if ex.SignatureAuthentication? then 3 else 0)
    ensures realm.Some? ==> r[0] == ("realm", realm.value)
    ensures ex.SignatureAuthentication? ==>
      r[|r| - 3..] == [("error", "401"), ("error_description", JavaString(ex.message)), ("error_uri", requestUri)]
    ensures Readable(r) <==> forall k | 0 <= k < |r| :: '"' !in r[k].1
  {
    var realmPart := if realm.Some? then [("realm", realm.value)] else [];
    var errorPart := if ex.SignatureAuthentication?
      then [("error", "401"), ("error_description", JavaString(ex.message)), ("error_uri", requestUri)]
      else [];
    var r := realmPart + errorPart;
    assert r[|r| - |errorPart|..] == errorPart;
    assert forall k | 0 <= k < |r| :: r[k].0 in {"realm", "error", "error_description", "error_uri"};
    assert PlainName("realm") && PlainName("error") && PlainName("error_description") && PlainName("error_uri");
    r
  }

  /** Each parameter as `key="value"`, the value inserted verbatim with no escaping. */
  function Quoted(params: seq<(string, string)>): (r: seq<string>)
    ensures |r| == |params|
  {
    seq(|params|, k requires 0 <= k < |params| => Wire(params[k].0, params[k].1))
  }

  /** `computeWWWAuthenticateHeaderValue`: the bare scheme, or the scheme, a space and the
      quoted parameters joined with `", "`. */
  function WwwAuthenticate(params: seq<(string, string)>): (r: string)
    ensures |params| == 0 <==> r == Scheme
    ensures |params| > 0 ==> StartsWith(r, Scheme + " ")
  {
    if |params| == 0 then Scheme
    else
      var r := Scheme + " " + Join(", ", Quoted(params));
      assert r[..|Scheme + " "|] == Scheme + " ";
      r
  }

  /** What `commence` sends: the status and the `WWW-Authenticate` value. */
  datatype Challenge = Challenge(status: int, wwwAuthenticate: string)

  /** `commence`. */
  function Commence(realm: Option<string>, ex: AuthException, requestUri: string): (r: Challenge)
    ensures r.status == Unauthorized
    ensures r.wwwAuthenticate == Scheme <==> realm.None? && ex.OtherAuthentication?
  {
    Challenge(Unauthorized, WwwAuthenticate(Parameters(realm, ex, requestUri)))
  }

  // ---------------------------------------------------------------------------
  // Properties

  /** Reading the parameters back: the signature header's own scanner, given what follows the
      scheme, recovers every parameter, in order, provided no value contains a quote. */
  lemma ChallengeReadsBack(params: seq<(string, string)>)
    requires |params| > 0 && Readable(params)
    ensures Pairs(WwwAuthenticate(params)[|Scheme| + 1..]) == params
  {
    var spaced := Spaced(params);
    var h := Join(", ", Quoted(params));
    assert WwwAuthenticate(params)[|Scheme| + 1..] == h;
    JoinIsRender(params);
    SpacedScannable(params);
    assert h[0..] == [] + Render(spaced) + [];
    ScanRender(h, 0, [], spaced, []);
    assert spaced + [] == spaced;
    TrimSpaced(params);
  }

  /** The parameters as the scanner sees them after each comma: every name but the first keeps
      the space that follows the comma. */
  function Spaced(params: seq<(string, string)>): (r: seq<(string, string)>)
    requires |params| > 0
    ensures |r| == |params| && r[0] == params[0]
    ensures forall k | 0 < k < |r| :: r[k] == (" " + params[k].0, params[k].1)
  {
    [params[0]] + seq(|params| - 1, k requires 0 <= k < |params| - 1 => (" " + params[k + 1].0, params[k + 1].1))
  }

  /** Joining with `", "` is rendering with `","` under spaced names. */
  lemma JoinIsRender(params: seq<(string, string)>)
    requires |params| > 0
    ensures Join(", ", Quoted(params)) == Render(Spaced(params))
  {
    var spaced := Spaced(params);
    var ws := Quoted(params);
    var rs := seq(|spaced|, k requires 0 <= k < |spaced| => Wire(spaced[k].0, spaced[k].1));
    if |params| > 1 {
      SpacedWires(params);
      JoinPrefixed(ws[1..]);
      var rest := Join(", ", ws[1..]);
      assert Join([','], rs) == ws[0] + [','] + (" " + rest);
      assert ws[0] + [','] + (" " + rest) == ws[0] + ", " + rest;
    }
  }

  /** The rendered spaced parameters: the first as quoted, every later one with a space before. */
  lemma SpacedWires(params: seq<(string, string)>)
    requires |params| > 1
    ensures var spaced := Spaced(params);
      var rs := seq(|spaced|, k requires 0 <= k < |spaced| => Wire(spaced[k].0, spaced[k].1));
      rs[0] == Quoted(params)[0] && rs[1..] == Prefixed(Quoted(params)[1..])
  {
    var spaced := Spaced(params);
    var ws := Quoted(params);
    var rs := seq(|spaced|, k requires 0 <= k < |spaced| => Wire(spaced[k].0, spaced[k].1));
    forall k | 0 < k < |rs| ensures rs[k] == " " + ws[k] {
      assert spaced[k] == (" " + params[k].0, params[k].1);
      WireSpaced(params[k].0, params[k].1);
    }
    assert rs[1..] == Prefixed(ws[1..]);
  }

  lemma WireSpaced(name: string, value: string)
    ensures Wire(" " + name, value) == " " + Wire(name, value)
  {
  }

  /** The spaced parameters are still read back intact. */
  lemma SpacedScannable(params: seq<(string, string)>)
    requires |params| > 0 && Readable(params)
    ensures Scannable(Spaced(params))
  {
    var spaced := Spaced(params);
    forall k | 0 <= k < |spaced| ensures UnbrokenName(spaced[k].0) && '"' !in spaced[k].1 {
      if k > 0 {
        assert spaced[k].0 == " " + params[k].0;
      }
    }
  }

  function Prefixed(ws: seq<string>): (r: seq<string>)
    ensures |r| == |ws| && forall k | 0 <= k < |ws| :: r[k] == " " + ws[k]
  {
    seq(|ws|, k requires 0 <= k < |ws| => " " + ws[k])
  }

  /** Joining the space-prefixed parts with `","` is a space and the parts joined with `", "`. */
  lemma {:induction false} JoinPrefixed(ws: seq<string>)
    requires |ws| > 0
    ensures Join([','], Prefixed(ws)) == " " + Join(", ", ws)
    decreases |ws|
  {
    if |ws| > 1 {
      JoinPrefixed(ws[1..]);
      assert Prefixed(ws)[1..] == Prefixed(ws[1..]);
    }
  }

  /** `trim()` removes exactly the added spaces. */
  lemma TrimSpaced(params: seq<(string, string)>)
    requires |params| > 0 && Readable(params)
    ensures TrimNames(Spaced(params)) == params
  {
    var spaced := Spaced(params);
    var trimmed := TrimNames(spaced);
    forall k | 0 <= k < |params| ensures trimmed[k] == params[k] {
      assert trimmed[k] == (Trim(spaced[k].0), spaced[k].1);
      if k > 0 {
        TrimSpace(params[k].0);
      }
    }
    assert |trimmed| == |params|;
  }

  lemma TrimSpace(name: string)
    requires PlainName(name)
    ensures Trim(" " + name) == name
  {
    assert (" " + name)[1..] == name;
  }

  /** The realm comes first, and error details appear exactly for a signature authentication
      failure, with its message verbatim. */
  lemma ChallengeNamesTheError(realm: Option<string>, message: string, requestUri: string)
    requires '"' !in message && '"' !in requestUri && (realm.Some? ==> '"' !in realm.value)
    ensures var params := Parameters(realm, SignatureAuthentication(Some(message)), requestUri);
      Pairs(Commence(realm, SignatureAuthentication(Some(message)), requestUri).wwwAuthenticate[|Scheme| + 1..]) == params &&
      params[|params| - 2] == ("error_description", message)
  {
    var params := Parameters(realm, SignatureAuthentication(Some(message)), requestUri);
    ChallengeReadsBack(params);
  }
}

=== FILE: errors.dfy ===
/**
 * The exceptions the signing core can raise, as values.
 */
module Errors {

  /** The checked exceptions the JCA signature engine can raise, each with its message. */
  datatype CryptoFailure =
    | NoSuchAlgorithm(message: string)
    | InvalidKey(message: string)
    | SignatureFault(message: string)
    | InvalidAlgorithmParameter(message: string)
    | NoSuchProvider(message: string)

  datatype Error =
      /** A `NullPointerException`, e.g. `Algorithm.get(null)`. */
    | NullPointer
      /** `UnsupportedAlgorithmException` with its message. */
    | UnsupportedAlgorithm(message: string)
      /** `HttpSignatureException` with its message. */
    | SignatureFailure(message: string)
      /** `HttpSignatureException` wrapping a signature-engine exception. */
    | WrappedCrypto(cause: CryptoFailure)
      /** `HttpSignatureAuthenticationException` with its message. */
    | AuthenticationFailure(message: string)
      /** `java.security.SignatureException` wrapping a digest failure. */
    | DigestFailure
      /** `IllegalArgumentException` from `URI.create` on an unparsable URI. */
    | IllegalArgument
}

=== FILE: hex.dfy ===
/**
 * Hexadecimal rendering of byte arrays as `Util.toHex` does it: the bytes are read as one
 * unsigned big-endian number (`new BigInteger(1, bytes)`) and printed with `%0<2n>X`.
 */
module Hex {
  import opened Wrappers
  import opened Strings

  type byte = b: int | 0 <= b < 256

  function HexDigit(d: nat): char
    requires d < 16
  {
    if d < 10 then ('0' as int + d) as char else ('A' as int + d - 10) as char
  }

  function Pow16(k: nat): (r: nat)
    ensures r > 0
  {
    if k == 0 then 1 else 16 * Pow16(k - 1)
  }

  /** `%X` of a non-negative number: the shortest upper-case digit string ("0" for zero). */
  function HexOf(v: nat): string
    decreases v
  {
    if v < 16 then [HexDigit(v)] else HexOf(v / 16) + [HexDigit(v % 16)]
  }

  function Zeros(n: nat): (r: string)
    ensures |r| == n && forall i | 0 <= i < n :: r[i] == '0'
  {
    seq(n, _ => '0')
  }

  /** The `0` flag with a width: left padding with zeros up to `width` characters. */
  function PadLeft(s: string, width: nat): string {
    if |s| >= width then s else Zeros(width - |s|) + s
  }

  /** `new BigInteger(1, bytes)`: the unsigned big-endian value of the bytes. */
  function BigEndian(bs: seq<byte>): nat
    decreases |bs|
  {
    if |bs| == 0 then 0 else BigEndian(bs[..|bs| - 1]) * 256 + bs[|bs| - 1]
  }

  /** Two upper-case digits per byte, high nibble first. */
  function ByteHex(b: byte): string {
    [HexDigit(b / 16), HexDigit(b % 16)]
  }

  /** The reference rendering: each byte as two digits, in array order. */
  function PerByteHex(bs: seq<byte>): string
    decreases |bs|
  {
    if |bs| == 0 then "" else PerByteHex(bs[..|bs| - 1]) + ByteHex(bs[|bs| - 1])
  }

  /** `Util.toHex`. An empty array yields the format `%00X`, which `java.util.Formatter`
      rejects (the `0` flag given twice); that failure is `None`. */
  function ToHex(bs: seq<byte>): (r: Option<string>)
    ensures r.None? <==> |bs| == 0
    ensures r.Some? ==> r.value == PerByteHex(bs) && |r.value| == 2 * |bs|
  {
    if |bs| == 0 then None
    else
      BigEndianBound(bs);
      PadHexIsFixed(BigEndian(bs), 2 * |bs|);
      FixedPerByte(bs);
      PerByteHexLength(bs);
      Some(PadLeft(HexOf(BigEndian(bs)), 2 * |bs|))
  }

  /** The value of a hexadecimal digit of either case, or `None`. */
  function DigitValue(c: char): Option<nat> {
    if '0' <= c <= '9' then Some(c as int - '0' as int)
    else if 'A' <= c <= 'F' then Some(c as int - 'A' as int + 10)
    else if 'a' <= c <= 'f' then Some(c as int - 'a' as int + 10)
    else None
  }

  /** Reading two digits per byte back; the inverse of `PerByteHex`. */
  function ParseHex(s: string): Option<seq<byte>>
    decreases |s|
  {
    if |s| == 0 then Some([])
    else if |s| == 1 then None
    else
      var hi := DigitValue(s[|s| - 2]);
      var lo := DigitValue(s[|s| - 1]);
      var rest := ParseHex(s[..|s| - 2]);
      if hi.None? || lo.None? || rest.None? || hi.value >= 16 || lo.value >= 16 then None
      else Some(rest.value + [hi.value * 16 + lo.value])
  }

  // ---------------------------------------------------------------------------
  // Proofs

  /** Exactly `k` digits of `v`, low digits last (the value is taken modulo 16^k). */
  function Fixed(v: nat, k: nat): string
    decreases k
  {
    if k == 0 then "" else Fixed(v / 16, k - 1) + [HexDigit(v % 16)]
  }

  lemma {:induction false} PerByteHexLength(bs: seq<byte>)
    ensures |PerByteHex(bs)| == 2 * |bs|
    decreases |bs|
  {
    if |bs| > 0 {
      PerByteHexLength(bs[..|bs| - 1]);
    }
  }

  lemma {:induction false} FixedZero(k: nat)
    ensures Fixed(0, k) == Zeros(k)
    decreases k
  {
    if k > 0 {
      FixedZero(k - 1);
      assert Zeros(k - 1) + [HexDigit(0)] == Zeros(k);
    }
  }

  lemma {:induction false} HexOfLength(v: nat)
    ensures 1 <= |HexOf(v)|
    ensures forall k: nat | v < Pow16(k) :: |HexOf(v)| <= k || (v == 0 && k == 0)
    decreases v
  {
    if v >= 16 {
      HexOfLength(v / 16);
      forall k: nat | v < Pow16(k)
        ensures |HexOf(v)| <= k
      {
        assert k > 0;
        assert v / 16 < Pow16(k - 1);
      }
    }
  }

  /** `%0<k>X` of a value below 16^k is exactly its `k`-digit form. */
  lemma {:induction false} PadHexIsFixed(v: nat, k: nat)
    requires 1 <= k && v < Pow16(k)
    ensures PadLeft(HexOf(v), k) == Fixed(v, k)
    decreases k
  {
    if v < 16 {
      FixedZero(k - 1);
      assert v / 16 == 0;
      assert PadLeft(HexOf(v), k) == Zeros(k - 1) + [HexDigit(v)];
    } else {
      assert Pow16(1) == 16;
      assert k >= 2;
      assert v / 16 < Pow16(k - 1);
      PadHexIsFixed(v / 16, k - 1);
      HexOfLength(v / 16);
      var x := HexOf(v / 16);
      assert HexOf(v) == x + [HexDigit(v % 16)];
      if |x| < k - 1 {
        assert PadLeft(x + [HexDigit(v % 16)], k) == Zeros(k - 1 - |x|) + x + [HexDigit(v % 16)];
      } else {
        assert PadLeft(x + [HexDigit(v % 16)], k) == x + [HexDigit(v % 16)];
      }
    }
  }

  lemma FixedTwoMore(v: nat, k: nat)
    ensures Fixed(v, k + 2) == Fixed(v / 256, k) + [HexDigit((v / 16) % 16), HexDigit(v % 16)]
  {
    assert (v / 16) / 16 == v / 256;
  }

  lemma {:induction false} BigEndianBound(bs: seq<byte>)
    ensures BigEndian(bs) < Pow16(2 * |bs|)
    decreases |bs|
  {
    if |bs| > 0 {
      var n := |bs|;
      BigEndianBound(bs[..n - 1]);
      assert Pow16(2 * n) == 256 * Pow16(2 * (n - 1));
      assert BigEndian(bs[..n - 1]) + 1 <= Pow16(2 * (n - 1));
      assert BigEndian(bs) < (BigEndian(bs[..n - 1]) + 1) * 256;
    }
  }

  lemma ByteNibbles(x: nat, b: byte)
    ensures (x * 256 + b) / 256 == x
    ensures ((x * 256 + b) / 16) % 16 == b / 16
    ensures (x * 256 + b) % 16 == b % 16
  {
    var v := x * 256 + b;
    assert v == (x * 16 + b / 16) * 16 + b % 16;
    assert v / 16 == x * 16 + b / 16;
  }

  /** The number-then-pad rendering agrees with the per-byte rendering. */
  lemma {:induction false} FixedPerByte(bs: seq<byte>)
    ensures Fixed(BigEndian(bs), 2 * |bs|) == PerByteHex(bs)
    decreases |bs|
  {
    if |bs| > 0 {
      var n := |bs|;
      var x := BigEndian(bs[..n - 1]);
      var b := bs[n - 1];
      FixedPerByte(bs[..n - 1]);
      FixedTwoMore(x * 256 + b, 2 * (n - 1));
      ByteNibbles(x, b);
      assert 2 * n == 2 * (n - 1) + 2;
    }
  }

  /** `toHex` renders an n-byte array (n > 0) as exactly 2n digits, two per byte in order. */
  lemma ToHexPerByte(bs: seq<byte>)
    requires |bs| > 0
    ensures ToHex(bs) == Some(PerByteHex(bs))
    ensures forall i | 0 <= i < |bs| ::
      ToHex(bs).value[2 * i..2 * i + 2] == ByteHex(bs[i])
  {
    PerByteHexIndex(bs);
  }

  lemma {:induction false} PerByteHexIndex(bs: seq<byte>)
    ensures |PerByteHex(bs)| == 2 * |bs|
    ensures forall i | 0 <= i < |bs| :: PerByteHex(bs)[2 * i..2 * i + 2] == ByteHex(bs[i])
    decreases |bs|
  {
    PerByteHexLength(bs);
    if |bs| > 0 {
      var n := |bs|;
      PerByteHexIndex(bs[..n - 1]);
      PerByteHexLength(bs[..n - 1]);
      var p := PerByteHex(bs[..n - 1]);
      assert PerByteHex(bs) == p + ByteHex(bs[n - 1]);
      forall i | 0 <= i < n
        ensures PerByteHex(bs)[2 * i..2 * i + 2] == ByteHex(bs[i])
      {
        if i < n - 1 {
          assert PerByteHex(bs)[2 * i..2 * i + 2] == p[2 * i..2 * i + 2];
          assert bs[..n - 1][i] == bs[i];
        }
      }
    }
  }

  /** Reading the rendering back gives the bytes: the rendering loses nothing. */
  lemma {:induction false} ParsePerByteHex(bs: seq<byte>)
    ensures ParseHex(PerByteHex(bs)) == Some(bs)
    decreases |bs|
  {
    if |bs| > 0 {
      var n := |bs|;
      ParsePerByteHex(bs[..n - 1]);
      ParseByteHex(PerByteHex(bs[..n - 1]), bs[n - 1]);
      assert bs[..n - 1] + [bs[n - 1]] == bs;
    }
  }

  /** Two more digits read back as one more byte. */
  lemma ParseByteHex(p: string, b: byte)
    requires ParseHex(p).Some?
    ensures ParseHex(p + ByteHex(b)) == Some(ParseHex(p).value + [b])
  {
    HexDigitValue(b / 16);
    HexDigitValue(b % 16);
    ParseTwoMore(p, HexDigit(b / 16), HexDigit(b % 16), b / 16, b % 16);
    assert (b / 16) * 16 + b % 16 == b;
  }

  lemma ParseTwoMore(p: string, c1: char, c2: char, x: nat, y: nat)
    requires DigitValue(c1) == Some(x) && DigitValue(c2) == Some(y) && x < 16 && y < 16
    requires ParseHex(p).Some?
    ensures ParseHex(p + [c1, c2]) == Some(ParseHex(p).value + [x * 16 + y])
  {
    var s := p + [c1, c2];
    assert s[..|s| - 2] == p;
  }

  lemma HexDigitValue(d: nat)
    requires d < 16
    ensures DigitValue(HexDigit(d)) == Some(d)
  {
  }
}

=== FILE: http.dfy ===
/**
 * The servlet request as the signing core reads it, and the `Util` helpers over it: the header
 * multimap, the lower-case key lookup and the SHA-256 hex digest.
 */
module Http {
  import opened Wrappers
  import opened Strings
  import opened Errors
  import opened Hex
  import opened Oracles

  /** A request: method, request URI, the headers the container enumerates, and the body
      already split into lines (the servlet reader's `lines()`). Each entry of `headers` is one
      name from `getHeaderNames()`, spelled as the container reports it, paired with the value
      `getHeader` returns for it. */
  datatype Request = Request(httpMethod: string, requestUri: string, headers: seq<(string, string)>, bodyLines: seq<string>)

  /** The names `getHeaderNames()` enumerates. */
  function HeaderNames(req: Request): (r: seq<string>)
    ensures |r| == |req.headers|
    ensures forall k | 0 <= k < |r| :: r[k] == req.headers[k].0
  {
    seq(|req.headers|, k requires 0 <= k < |req.headers| => req.headers[k].0)
  }

  /** `getHeader(name)`: the value of the first enumerated header whose name equals `name` up to
      letter case, or `None` (Java `null`). */
  function GetHeader(headers: seq<(string, string)>, name: string): (r: Option<string>)
    ensures r.None? <==> forall k | 0 <= k < |headers| :: !EqualsIgnoreCase(headers[k].0, name)
    ensures r.Some? ==> exists k | 0 <= k < |headers| :: EqualsIgnoreCase(headers[k].0, name) && headers[k].1 == r.value
                          && forall j | 0 <= j < k :: !EqualsIgnoreCase(headers[j].0, name)
    decreases |headers|
  {
    if |headers| == 0 then None
    else if EqualsIgnoreCase(headers[0].0, name) then Some(headers[0].1)
    else
      var rest := headers[1..];
      assert forall k | 0 <= k < |rest| :: rest[k] == headers[k + 1];
      var r := GetHeader(rest, name);
      assert r.Some? ==> exists k | 1 <= k < |headers| :: EqualsIgnoreCase(headers[k].0, name) && headers[k].1 == r.value
                          && forall j | 0 <= j < k :: !EqualsIgnoreCase(headers[j].0, name) by {
        if r.Some? {
          var k :| 0 <= k < |rest| && EqualsIgnoreCase(rest[k].0, name) && rest[k].1 == r.value
                   && forall j | 0 <= j < k :: !EqualsIgnoreCase(rest[j].0, name);
          assert forall j | 1 <= j < k + 1 :: headers[j] == rest[j - 1];
        }
      }
      r
  }

  /** Adding `value` under `name` to a Guava `ArrayListMultimap` viewed through `asMap()`. */
  function Put(m: map<string, seq<string>>, name: string, value: string): map<string, seq<string>> {
    m[name := (if name in m then m[name] else []) + [value]]
  }

  /** The values of every enumerated header whose name is exactly `name`, in enumeration order. */
  function ValuesNamed(headers: seq<(string, string)>, name: string): seq<string>
    decreases |headers|
  {
    if |headers| == 0 then []
    else (if headers[0].0 == name then [headers[0].1] else []) + ValuesNamed(headers[1..], name)
  }

  /** The loop of `Util.headers`: every enumerated name, in order, with its value. */
  function Collect(headers: seq<(string, string)>): (r: map<string, seq<string>>)
    ensures forall name :: name in r <==> exists k | 0 <= k < |headers| :: headers[k].0 == name
    decreases |headers|
  {
    if |headers| == 0 then map[]
    else
      var init := headers[..|headers| - 1];
      var last := headers[|headers| - 1];
      assert forall k | 0 <= k < |init| :: init[k] == headers[k];
      Put(Collect(init), last.0, last.1)
  }

  /** `Util.headers(request)`. */
  function UtilHeaders(req: Request): map<string, seq<string>> {
    Collect(req.headers)
  }

  /** `Util.values(request, key)`: the multimap entry under the lower-cased key, found by exact
      comparison. */
  function Values(req: Request, key: string): (r: Option<seq<string>>)
    ensures r.Some? <==> exists k | 0 <= k < |req.headers| :: req.headers[k].0 == Lower(key)
    ensures r.Some? ==> r.value == ValuesNamed(req.headers, Lower(key)) && |r.value| > 0
  {
    var m := UtilHeaders(req);
    CollectValues(req.headers, Lower(key));
    if Lower(key) in m then Some(m[Lower(key)]) else None
  }

  /** `Util.sha256Digest(data)`: the lower-case hex of the SHA-256 digest of the UTF-8 bytes.
      Any failure, including an empty digest that `toHex` cannot format, is a
      `SignatureException`. */
  function Sha256Digest(o: Oracles, data: string): (r: Result<string, Error>)
    ensures r.Err? ==> r.error == DigestFailure
    ensures r.Ok? <==> o.sha256(o.utf8(data)).Some? && |o.sha256(o.utf8(data)).value| > 0
    ensures r.Ok? ==> |r.value| == 2 * |o.sha256(o.utf8(data)).value|
    ensures r.Ok? ==> forall i | 0 <= i < |r.value| :: IsLowerHexDigit(r.value[i])
    ensures r.Ok? ==> ParseHex(r.value) == Some(o.sha256(o.utf8(data)).value)
  {
    match o.sha256(o.utf8(data))
    case None => Err(DigestFailure)
    case Some(d) =>
      match ToHex(d)
      case None => Err(DigestFailure)
      case Some(h) =>
        PerByteHexDigits(d);
        ParseHexLower(h);
        ParsePerByteHex(d);
        Ok(Lower(h))
  }

  predicate IsLowerHexDigit(c: char) {
    ('0' <= c <= '9') || ('a' <= c <= 'f')
  }

  // ---------------------------------------------------------------------------
  // Properties

  /** A request whose enumerated names are pairwise distinct gives every name exactly one
      value: the one `getHeader` returned for it. */
  lemma {:induction false} CollectDistinct(headers: seq<(string, string)>)
    requires forall i, j | 0 <= i < j < |headers| :: headers[i].0 != headers[j].0
    ensures forall k | 0 <= k < |headers| :: Collect(headers)[headers[k].0] == [headers[k].1]
    decreases |headers|
  {
    if |headers| > 0 {
      var init := headers[..|headers| - 1];
      var last := headers[|headers| - 1];
      assert forall k | 0 <= k < |init| :: init[k] == headers[k];
      CollectDistinct(init);
      forall k | 0 <= k < |headers| ensures Collect(headers)[headers[k].0] == [headers[k].1] {
        assert Collect(headers) == Put(Collect(init), last.0, last.1);
        if k < |init| {
          assert headers[k].0 != last.0;
        } else {
          assert last.0 !in Collect(init);
        }
      }
    }
  }

  /** Filtering one more entry appends its value when its name matches. */
  lemma {:induction false} ValuesNamedSnoc(init: seq<(string, string)>, last: (string, string), name: string)
    ensures ValuesNamed(init + [last], name) == ValuesNamed(init, name) + (if last.0 == name then [last.1] else [])
    decreases |init|
  {
    if |init| > 0 {
      assert (init + [last])[1..] == init[1..] + [last];
      ValuesNamedSnoc(init[1..], last, name);
    }
  }

  /** The multimap keeps, under each name, every value enumerated under exactly that name, in
      order; a name it holds never has an empty collection. */
  lemma {:induction false} CollectValues(headers: seq<(string, string)>, name: string)
    ensures ValuesNamed(headers, name) == (if name in Collect(headers) then Collect(headers)[name] else [])
    ensures name in Collect(headers) ==> |Collect(headers)[name]| > 0
    decreases |headers|
  {
    if |headers| > 0 {
      var init := headers[..|headers| - 1];
      var last := headers[|headers| - 1];
      assert headers == init + [last];
      CollectValues(init, name);
      ValuesNamedSnoc(init, last, name);
    }
  }

  /** `values` finds a header only under its lower-case spelling: a name the container reports
      as `Authorization` is never matched, whatever key is asked for. */
  lemma ValuesNeedLowerCaseNames(req: Request, key: string)
    requires forall k | 0 <= k < |req.headers| :: req.headers[k].0 != Lower(req.headers[k].0)
    ensures Values(req, key).None?
  {
    if Values(req, key).Some? {
      var k :| 0 <= k < |req.headers| && req.headers[k].0 == Lower(key);
      LowerIdempotent(key);
    }
  }

  lemma LowerIdempotent(s: string)
    ensures Lower(Lower(s)) == Lower(s)
  {
  }

  /** Each character of the upper-case rendering is a digit or `A`-`F`. */
  lemma PerByteHexDigits(bs: seq<byte>)
    ensures forall i | 0 <= i < |PerByteHex(bs)| :: IsLowerHexDigit(LowerChar(PerByteHex(bs)[i]))
  {
    PerByteHexIndex(bs);
    var h := PerByteHex(bs);
    forall i | 0 <= i < |h| ensures IsLowerHexDigit(LowerChar(h[i])) {
      var j := i / 2;
      assert h[2 * j..2 * j + 2] == ByteHex(bs[j]);
      assert h[i] == ByteHex(bs[j])[i - 2 * j];
    }
  }

  /** Reading hex digits does not depend on their case. */
  lemma {:induction false} ParseHexLower(s: string)
    ensures ParseHex(Lower(s)) == ParseHex(s)
    decreases |s|
  {
    if |s| >= 2 {
      var t := s[..|s| - 2];
      assert Lower(s)[..|s| - 2] == Lower(t);
      ParseHexLower(t);
      assert DigitValue(LowerChar(s[|s| - 2])) == DigitValue(s[|s| - 2]);
      assert DigitValue(LowerChar(s[|s| - 1])) == DigitValue(s[|s| - 1]);
    }
  }

  /** A SHA-256 digest is 32 bytes, so its rendering is 64 characters. */
  lemma Sha256DigestLength(o: Oracles, data: string)
    requires o.sha256(o.utf8(data)).Some? && |o.sha256(o.utf8(data)).value| == 32
    ensures Sha256Digest(o, data).Ok? && |Sha256Digest(o, data).value| == 64
  {
  }
}

=== FILE: keys.dfy ===
/**
 * Key material as the signing core sees it: opaque keys and certificates, and the
 * `KeyConfig` record that says which of them are configured.
 */
module Keys {
  import opened Wrappers

  /** Keys and certificates are opaque handles; nothing in the core looks inside them. */
  datatype PrivateKey = PrivateKey(handle: nat)
  datatype PublicKey = PublicKey(handle: nat)
  datatype Certificate = Certificate(handle: nat)

  /** A `KeyConfig`. A Java `null` key or certificate is `None`; the two collections are copied
      into fresh lists by the constructor, which a value type gives for free. */
  datatype KeyConfig = KeyConfig(
    privateKey: Option<PrivateKey>,
    publicKey: Option<PublicKey>,
    publicCert: Option<Certificate>,
    certChain: seq<Certificate>,
    certs: seq<Certificate>)

  /** The full constructor: each accessor returns what was supplied, an `Optional` accessor
      being empty exactly when its argument was `null`, and the lists keep the supplied
      elements in order. */
  function NewKeyConfig(privateKey: Option<PrivateKey>, publicKey: Option<PublicKey>,
                        publicCert: Option<Certificate>, certChain: seq<Certificate>,
                        certificates: seq<Certificate>): (r: KeyConfig)
    ensures r.privateKey == privateKey && r.publicKey == publicKey && r.publicCert == publicCert
    ensures r.certChain == certChain && r.certs == certificates
  {
    KeyConfig(privateKey, publicKey, publicCert, certChain, certificates)
  }

  /** The public-key-only constructor. */
  function PublicOnly(publicKey: PublicKey): (r: KeyConfig)
    ensures r.publicKey == Some(publicKey)
    ensures r.privateKey.None? && r.publicCert.None?
    ensures r.certChain == [] && r.certs == []
  {
    NewKeyConfig(None, Some(publicKey), None, [], [])
  }
}

=== FILE: oracles.dfy ===
/**
 * Everything the signing core calls but does not implement: character encoding, the SHA-256
 * digest, Base64, URI parsing and the RSA signature engine. Each is a function-valued field,
 * so every operation that needs one takes the record as a parameter and nothing is assumed
 * about what the functions compute.
 */
module Oracles {
  import opened Wrappers
  import opened Hex
  import opened Algorithms
  import opened Keys
  import opened Errors

  /** The parts of a parsed `java.net.URI` the core reads. `port` is -1 when none is given. */
  datatype Uri = Uri(host: Option<string>, port: int, path: Option<string>)

  datatype Oracles = Oracles(
    /** `String.getBytes(UTF_8)`. */
    utf8: string -> seq<byte>,
    /** `MessageDigest.getInstance("SHA-256")` followed by `digest`; `None` when the
        digest cannot be computed. */
    sha256: seq<byte> -> Option<seq<byte>>,
    /** `Base64.getDecoder().decode`: the bytes, or the exception message. */
    base64Decode: string -> Result<seq<byte>, string>,
    /** `Base64.getEncoder().encodeToString`. */
    base64Encode: seq<byte> -> string,
    /** `URI.create`: `None` when the text is not a URI. */
    parseUri: string -> Option<Uri>,
    /** `Signature.getInstance(portableName, "BC")` and `setParameter` with the PSS
        parameters: `None`, or the exception either raises. */
    engine: Algorithm -> Option<CryptoFailure>,
    /** On an engine obtained for the algorithm: `initSign`, `update` and `sign`. */
    sign: (Algorithm, PrivateKey, seq<byte>) -> Result<seq<byte>, CryptoFailure>,
    /** On an engine obtained for the algorithm: `initVerify`, `update` and
        `verify(signature)`, given the signed bytes and then the signature. */
    verify: (Algorithm, PublicKey, seq<byte>, seq<byte>) -> Result<bool, CryptoFailure>)
}

=== FILE: policy.dfy ===
/**
 * The signed-header policy: for each HTTP method, the headers that must always be signed and
 * the headers that are signed when the request carries them, with a default for every method
 * that has no configuration of its own.
 */
module Policy {
  import opened Strings

  /** The pseudo-header naming the method and path of a request. */
  const RequestTarget: string := "(request-target)"

  /** One method's configuration. Lists are values here, so the defensive copies the
      constructor makes are implicit: nothing the caller does later can reach them. */
  datatype HeadersConfig = HeadersConfig(always: seq<string>, ifPresent: seq<string>)

  /** `HeadersConfig.create()`: nothing is signed. */
  function CreateEmpty(): HeadersConfig {
    HeadersConfig([], [])
  }

  /** `HeadersConfig.create(required)`. */
  function CreateRequired(required: seq<string>): HeadersConfig {
    HeadersConfig(required, [])
  }

  /** `HeadersConfig.create(required, ifPresent)`. */
  function Create(required: seq<string>, ifPresent: seq<string>): HeadersConfig {
    HeadersConfig(required, ifPresent)
  }

  /** The entries of `names` that are keys of the request's header map, in order and with
      repetitions kept. */
  function FilterPresent(names: seq<string>, present: set<string>): (r: seq<string>)
    ensures |r| <= |names|
    ensures forall k | 0 <= k < |r| :: r[k] in present
    decreases |names|
  {
    if |names| == 0 then []
    else
      var last := names[|names| - 1];
      FilterPresent(names[..|names| - 1], present) + (if last in present then [last] else [])
  }

  /** `HeadersConfig.getHeaders(map)`: the `always` list followed by the present `ifPresent`
      entries. */
  function GetHeaders(config: HeadersConfig, present: set<string>): (r: seq<string>)
    ensures |config.always| <= |r| && r[..|config.always|] == config.always
    ensures forall k | |config.always| <= k < |r| :: r[k] in present && r[k] in config.ifPresent
    ensures forall h | h in config.ifPresent && h in present :: h in r
    ensures multiset(r) == multiset(config.always) + multiset(FilterPresent(config.ifPresent, present))
  {
    FilterPresentCount(config.ifPresent, present);
    var f := FilterPresent(config.ifPresent, present);
    forall h | h in config.ifPresent && h in present ensures h in config.always + f {
      assert multiset(f)[h] > 0;
    }
    forall k | 0 <= k < |f| ensures f[k] in config.ifPresent {
      assert multiset(f)[f[k]] > 0;
    }
    assert (config.always + f)[..|config.always|] == config.always;
    config.always + f
  }

  /** The policy as built: a default and per-method configurations. Methods are looked up
      without regard to case, so the map is keyed by the lower-cased method name. */
  datatype SignedHeadersConfig = SignedHeadersConfig(defaultConfig: HeadersConfig, methodConfigs: map<string, HeadersConfig>)

  /** The fluent builder. */
  datatype Builder = Builder(defaultConfig: HeadersConfig, methodConfigs: map<string, HeadersConfig>) {

    /** `defaultConfig(config)`. */
    function DefaultConfig(config: HeadersConfig): Builder {
      this.(defaultConfig := config)
    }

    /** `config(method, config)`: an earlier entry whose name differs only in case is replaced. */
    function Config(httpMethod: string, config: HeadersConfig): Builder {
      this.(methodConfigs := methodConfigs[Lower(httpMethod) := config])
    }

    /** `build()`. */
    function Build(): SignedHeadersConfig {
      SignedHeadersConfig(defaultConfig, methodConfigs)
    }
  }

  /** The builder field's initial default, `["date"]`. */
  const BuilderDefaultHeaders: HeadersConfig := CreateRequired(["date"])

  /** `SignedHeadersConfig.builder()`: a fresh builder whose default is immediately replaced by
      the empty configuration. */
  function NewBuilder(): Builder {
    Builder(BuilderDefaultHeaders, map[]).DefaultConfig(CreateEmpty())
  }

  /** `methodConfigs.getOrDefault(method, defaultConfig)` over the case-insensitive map. */
  function Select(policy: SignedHeadersConfig, httpMethod: string): HeadersConfig {
    var key := Lower(httpMethod);
    if key in policy.methodConfigs then policy.methodConfigs[key] else policy.defaultConfig
  }

  /** `headers(method, map)`: the headers to sign for a request whose header map has the keys
      `present`. */
  function Headers(policy: SignedHeadersConfig, httpMethod: string, present: set<string>): seq<string> {
    GetHeaders(Select(policy, httpMethod), present)
  }

  /** `headers(method)`: only the `always` list of the selected configuration. */
  function RequiredHeaders(policy: SignedHeadersConfig, httpMethod: string): (r: seq<string>)
    ensures forall present: set<string> ::
      |r| <= |Headers(policy, httpMethod, present)| && r == Headers(policy, httpMethod, present)[..|r|]
  {
    Select(policy, httpMethod).always
  }

  // ---------------------------------------------------------------------------
  // Properties

  /** Filtering keeps each name as often as it occurs when it is present, and drops it
      otherwise: no name is invented and none is de-duplicated. */
  lemma {:induction false} FilterPresentCount(names: seq<string>, present: set<string>)
    ensures forall h :: multiset(FilterPresent(names, present))[h] == (if h in present then multiset(names)[h] else 0)
    decreases |names|
  {
    if |names| > 0 {
      var init := names[..|names| - 1];
      var last := names[|names| - 1];
      FilterPresentCount(init, present);
      assert names == init + [last];
    }
  }

  /** Filtering a concatenation filters each part: relative order is kept. */
  lemma {:induction false} FilterPresentAppend(a: seq<string>, b: seq<string>, present: set<string>)
    ensures FilterPresent(a + b, present) == FilterPresent(a, present) + FilterPresent(b, present)
    decreases |b|
  {
    if |b| == 0 {
      assert a + b == a;
    } else {
      var init := b[..|b| - 1];
      assert (a + b)[..|a + b| - 1] == a + init;
      FilterPresentAppend(a, init, present);
    }
  }

  /** When every candidate is present, all of them are signed, in their configured order. */
  lemma {:induction false} FilterPresentAll(names: seq<string>, present: set<string>)
    requires forall k | 0 <= k < |names| :: names[k] in present
    ensures FilterPresent(names, present) == names
    decreases |names|
  {
    if |names| > 0 {
      FilterPresentAll(names[..|names| - 1], present);
      assert names[..|names| - 1] + [names[|names| - 1]] == names;
    }
  }

  /** A method registered under any letter case is selected under every letter case. */
  lemma SelectIgnoresCase(b: Builder, httpMethod: string, other: string, config: HeadersConfig)
    requires EqualsIgnoreCase(httpMethod, other)
    ensures Select(b.Config(httpMethod, config).Build(), other) == config
  {
  }

  /** Registering a method leaves every other method's selection as it was. */
  lemma ConfigKeepsOthers(b: Builder, httpMethod: string, other: string, config: HeadersConfig)
    requires !EqualsIgnoreCase(httpMethod, other)
    ensures Select(b.Config(httpMethod, config).Build(), other) == Select(b.Build(), other)
  {
  }

  /** Re-registering a method, in any letter case, replaces the earlier configuration. */
  lemma ReRegisterReplaces(b: Builder, m1: string, m2: string, c1: HeadersConfig, c2: HeadersConfig)
    requires EqualsIgnoreCase(m1, m2)
    ensures b.Config(m1, c1).Config(m2, c2).Build() == b.Config(m2, c2).Build()
    ensures Select(b.Config(m1, c1).Config(m2, c2).Build(), m1) == c2
  {
  }

  /** The policy is not cumulative: a method with its own configuration gets exactly that
      configuration's headers, whatever the default says. */
  lemma NonCumulative(b: Builder, httpMethod: string, config: HeadersConfig, d: HeadersConfig, present: set<string>)
    ensures Headers(b.DefaultConfig(d).Config(httpMethod, config).Build(), httpMethod, present) == GetHeaders(config, present)
    ensures RequiredHeaders(b.DefaultConfig(d).Config(httpMethod, config).Build(), httpMethod) == config.always
  {
  }

  /** A method without configuration uses the default. */
  lemma DefaultApplies(b: Builder, httpMethod: string, d: HeadersConfig)
    requires Lower(httpMethod) !in b.methodConfigs
    ensures Select(b.DefaultConfig(d).Build(), httpMethod) == d
  {
  }

  /** `builder().build()` signs nothing for any method: the `["date"]` field default never
      survives `builder()`. */
  lemma FreshBuilderIsEmpty(httpMethod: string, present: set<string>)
    ensures Headers(NewBuilder().Build(), httpMethod, present) == []
    ensures RequiredHeaders(NewBuilder().Build(), httpMethod) == []
    ensures NewBuilder().defaultConfig != BuilderDefaultHeaders
  {
  }

  /** `headers(m, map)` is `headers(m)` followed by the present `ifPresent` entries. */
  lemma HeadersExtendRequired(policy: SignedHeadersConfig, httpMethod: string, present: set<string>)
    ensures Headers(policy, httpMethod, present) ==
      RequiredHeaders(policy, httpMethod) + FilterPresent(Select(policy, httpMethod).ifPresent, present)
  {
  }
}

=== FILE: provider.dfy ===
/**
 * `HttpSignatureAuthenticationProvider`: the default required-header policy and the decision
 * sequence of `authenticate` for a resolved signature.
 */
module Provider {
  import opened Wrappers
  import opened Strings
  import opened Errors
  import opened Hex
  import opened Policy
  import opened Codec
  import opened Signing

  /** `DEFAULT_REQUIRED_HEADERS`. */
  function DefaultRequiredHeaders(): SignedHeadersConfig {
    var reading := Create([RequestTarget, "host", "date"], ["authorization"]);
    var writing := Create([RequestTarget, "host", "date", "digest", "content-type"], ["authorization"]);
    NewBuilder()
      .DefaultConfig(CreateRequired(["date", RequestTarget]))
      .Config("GET", reading)
      .Config("HEAD", reading)
      .Config("DELETE", writing)
      .Config("PUT", writing)
      .Config("POST", writing)
      .Build()
  }

  /** `HttpSignatureAuthenticationToken` as `authenticate` reads it: the resolved signature and
      the bytes of the request's signing string. */
  datatype Token = Token(signature: HttpSignature, signedBytes: seq<byte>)

  const NotEnabledMessage: string := "Key configuration is not enabled"

  /** The method whose required headers are checked, whatever the request's method. */
  const CheckedMethod: string := "POST"

  /** `authenticate`: the client configuration loaded for the signature's key id must be
      enabled; then `verify` runs with the `always` list configured for POST, and any message
      it returns becomes the authentication failure. On success the same token comes back.
      `loadByKeyId` and the signature's `verifier` are parameters. */
  function Authenticate(token: Token, loadByKeyId: Option<string> -> InboundClient,
                        verifier: seq<byte> -> Option<string>): (r: Result<Token, Error>)
    ensures !loadByKeyId(token.signature.keyId).enabled ==> r == Err(AuthenticationFailure(NotEnabledMessage))
    ensures r.Ok? <==> (loadByKeyId(token.signature.keyId).enabled &&
                        (forall k | 0 <= k < |RequiredHeaders(DefaultRequiredHeaders(), CheckedMethod)| ::
                          RequiredHeaders(DefaultRequiredHeaders(), CheckedMethod)[k] in token.signature.headers) &&
                        verifier(token.signedBytes).None?)
    ensures r.Ok? ==> r.value == token
    ensures r.Err? ==> r.error.AuthenticationFailure?
    ensures var gate := RequiredHeaderGate(token.signature.headers, RequiredHeaders(DefaultRequiredHeaders(), CheckedMethod));
      loadByKeyId(token.signature.keyId).enabled && gate.Some? ==> r == Err(AuthenticationFailure(gate.value))
    ensures var gate := RequiredHeaderGate(token.signature.headers, RequiredHeaders(DefaultRequiredHeaders(), CheckedMethod));
      loadByKeyId(token.signature.keyId).enabled && gate.None? && verifier(token.signedBytes).Some? ==>
        r == Err(AuthenticationFailure(verifier(token.signedBytes).value))
  {
    var client := loadByKeyId(token.signature.keyId);
    if !client.enabled then Err(AuthenticationFailure(NotEnabledMessage))
    else
      match VerifyCo(token.signature, token.signedBytes, RequiredHeaders(DefaultRequiredHeaders(), CheckedMethod), verifier)
      case Some(message) => Err(AuthenticationFailure(message))
      case None => Ok(token)
  }

  // ---------------------------------------------------------------------------
  // Properties

  /** The configured lists: GET and HEAD sign the request target, host and date, and
      authorization when present; DELETE, PUT and POST add digest and content type; every other
      method falls back to date and the request target. Method names match in any case. */
  lemma DefaultRequiredHeadersContents(httpMethod: string)
    ensures EqualsIgnoreCase(httpMethod, "GET") || EqualsIgnoreCase(httpMethod, "HEAD") ==>
      Select(DefaultRequiredHeaders(), httpMethod) == HeadersConfig([RequestTarget, "host", "date"], ["authorization"])
    ensures EqualsIgnoreCase(httpMethod, "DELETE") || EqualsIgnoreCase(httpMethod, "PUT") || EqualsIgnoreCase(httpMethod, "POST") ==>
      Select(DefaultRequiredHeaders(), httpMethod) == HeadersConfig(DefaultHeaders(Co), ["authorization"])
    ensures Lower(httpMethod) !in {"get", "head", "delete", "put", "post"} ==>
      Select(DefaultRequiredHeaders(), httpMethod) == HeadersConfig(["date", RequestTarget], [])
  {
    ConfiguredMethods();
    assert Lower("GET") == "get" && Lower("HEAD") == "head" && Lower("DELETE") == "delete";
    assert Lower("PUT") == "put" && Lower("POST") == "post";
  }

  /** The policy as built, keyed by lower-cased method. */
  lemma ConfiguredMethods()
    ensures var reading := HeadersConfig([RequestTarget, "host", "date"], ["authorization"]);
      var writing := HeadersConfig(DefaultHeaders(Co), ["authorization"]);
      DefaultRequiredHeaders() == SignedHeadersConfig(HeadersConfig(["date", RequestTarget], []),
        map["get" := reading, "head" := reading, "delete" := writing, "put" := writing, "post" := writing])
  {
    assert Lower("GET") == "get" && Lower("HEAD") == "head" && Lower("DELETE") == "delete";
    assert Lower("PUT") == "put" && Lower("POST") == "post";
  }

  /** The required list `authenticate` checks is the header list of every parsed signature, so
      a signature that came out of `fromHeader` always passes the gate. */
  lemma ParsedSignaturesPassGate(h: string)
    requires FromHeader(Co, h).Ok?
    ensures RequiredHeaderGate(FromHeader(Co, h).value.headers, RequiredHeaders(DefaultRequiredHeaders(), CheckedMethod)).None?
  {
    DefaultRequiredHeadersContents(CheckedMethod);
  }

  /** For a parsed signature, `authenticate` comes down to the enabled flag and the verifier. */
  lemma AuthenticateParsed(h: string, signedBytes: seq<byte>, loadByKeyId: Option<string> -> InboundClient,
                           verifier: seq<byte> -> Option<string>)
    requires FromHeader(Co, h).Ok?
    ensures var token := Token(FromHeader(Co, h).value, signedBytes);
      Authenticate(token, loadByKeyId, verifier) ==
        if !loadByKeyId(token.signature.keyId).enabled then Err(AuthenticationFailure(NotEnabledMessage))
        else if verifier(signedBytes).Some? then Err(AuthenticationFailure(verifier(signedBytes).value))
        else Ok(token)
  {
    ParsedSignaturesPassGate(h);
  }

  /** The method of the request plays no part: a signature listing only what GET requires is
      still refused for lacking the digest, the first POST header it does not list. */
  lemma GetSignatureMeetsPostList(sig: HttpSignature, signedBytes: seq<byte>, loadByKeyId: Option<string> -> InboundClient,
                                  verifier: seq<byte> -> Option<string>)
    requires sig.headers == RequiredHeaders(DefaultRequiredHeaders(), "GET")
    requires loadByKeyId(sig.keyId).enabled
    ensures Authenticate(Token(sig, signedBytes), loadByKeyId, verifier) ==
      Err(AuthenticationFailure(NotSignedMessage("digest")))
  {
    DefaultRequiredHeadersContents("GET");
    DefaultRequiredHeadersContents(CheckedMethod);
    var required := RequiredHeaders(DefaultRequiredHeaders(), CheckedMethod);
    assert required[0] in sig.headers && required[1] in sig.headers && required[2] in sig.headers;
    assert "digest" !in sig.headers;
    assert RequiredHeaderGate(sig.headers, required[3..]) == Some(NotSignedMessage("digest"));
  }
}

=== FILE: resolver.dfy ===
/**
 * `DefaultHttpSignatureResolver`: finding the signature of an inbound request in its
 * `Authorization` header under the `Signature` scheme (section 3 of
 * draft-cavage-http-signatures-11), then parsing and validating it.
 */
module Resolver {
  import opened Wrappers
  import opened Strings
  import opened Errors
  import opened Oracles
  import opened Http
  import opened Codec

  /** `SIGNATURE_PREFIX`, compared against the lower-cased header value. */
  const SignaturePrefix: string := "signature "

  /** `HttpHeaders.AUTHORIZATION`. */
  const AuthorizationHeader: string := "Authorization"

  /** An `Authorization` value under the `Signature` scheme, in any letter case. */
  predicate Qualifies(value: string) {
    StartsWith(Lower(value), SignaturePrefix)
  }

  /** The loop of `resolveFromAuthorizationHeader`: what follows the prefix in the first
      qualifying value. */
  function FirstSignature(values: seq<string>): (r: Option<string>)
    ensures r.None? <==> forall k | 0 <= k < |values| :: !Qualifies(values[k])
    ensures r.Some? ==> exists k | 0 <= k < |values| ::
      Qualifies(values[k]) && (forall j | 0 <= j < k :: !Qualifies(values[j])) &&
      r.value == values[k][|SignaturePrefix|..]
    decreases |values|
  {
    if |values| == 0 then None
    else if Qualifies(values[0]) then Some(values[0][|SignaturePrefix|..])
    else
      var tail := values[1..];
      assert forall k | 0 <= k < |tail| :: tail[k] == values[k + 1];
      var r := FirstSignature(tail);
      if r.Some? then
        var k :| 0 <= k < |tail| && Qualifies(tail[k]) && (forall j | 0 <= j < k :: !Qualifies(tail[j])) &&
          r.value == tail[k][|SignaturePrefix|..];
        assert forall j | 0 <= j < k + 1 :: !Qualifies(values[j]) by {
          forall j | 0 <= j < k + 1 ensures !Qualifies(values[j]) {
            if j > 0 {
              assert values[j] == tail[j - 1];
            }
          }
        }
        r
      else
        r
  }

  /** `signatureHeader` on the one-element list: parse, then validate; a problem becomes an
      authentication failure carrying the validation message. */
  function SignatureHeader(o: Oracles, text: string): (r: Result<HttpSignature, Error>)
    ensures FromHeader(Co, text).Err? ==> r == Err(FromHeader(Co, text).error)
    ensures FromHeader(Co, text).Ok? && Validate(o, FromHeader(Co, text).value).0.Some? ==>
      r == Err(AuthenticationFailure(Validate(o, FromHeader(Co, text).value).0.value))
    ensures r.Ok? <==> FromHeader(Co, text).Ok? && Validate(o, FromHeader(Co, text).value).0.None?
    ensures r.Ok? ==> r.value == Validate(o, FromHeader(Co, text).value).1
  {
    match FromHeader(Co, text)
    case Err(e) => Err(e)
    case Ok(sig) =>
      var (problem, validated) := Validate(o, sig);
      match problem
      case Some(message) => Err(AuthenticationFailure(message))
      case None => Ok(validated)
  }

  /** `resolve`: the signature of the first qualifying `Authorization` value, or `None`
      (Java `null`) when no value qualifies, which is not an error. */
  function Resolve(o: Oracles, req: Request): (r: Result<Option<HttpSignature>, Error>)
    ensures FirstSignature(Values(req, AuthorizationHeader).GetOr([])).None? <==> r == Ok(None)
    ensures FirstSignature(Values(req, AuthorizationHeader).GetOr([])).Some? ==>
      var text := FirstSignature(Values(req, AuthorizationHeader).GetOr([])).value;
      (r.Ok? <==> SignatureHeader(o, text).Ok?) &&
      (r.Ok? ==> r.value == Some(SignatureHeader(o, text).value)) &&
      (r.Err? ==> r.error == SignatureHeader(o, text).error)
  {
    match FirstSignature(Values(req, AuthorizationHeader).GetOr([]))
    case None => Ok(None)
    case Some(text) =>
      match SignatureHeader(o, text)
      case Err(e) => Err(e)
      case Ok(sig) => Ok(Some(sig))
  }

  // ---------------------------------------------------------------------------
  // Properties

  /** Only the first qualifying value counts: whatever follows it is never looked at. */
  lemma {:induction false} FirstQualifyingWins(before: seq<string>, v: string, after: seq<string>)
    requires forall k | 0 <= k < |before| :: !Qualifies(before[k])
    requires Qualifies(v)
    ensures FirstSignature(before + [v] + after) == Some(v[|SignaturePrefix|..])
    decreases |before|
  {
    var values := before + [v] + after;
    if |before| == 0 {
      assert values[0] == v;
    } else {
      assert values[0] == before[0];
      assert values[1..] == before[1..] + [v] + after;
      FirstQualifyingWins(before[1..], v, after);
    }
  }

  /** Headers other than `authorization` are never consulted: a request that also carries a
      `Signature` header, or any other one, resolves as before. */
  lemma OnlyAuthorizationConsulted(o: Oracles, req: Request, name: string, value: string)
    requires name != Lower(AuthorizationHeader)
    ensures Resolve(o, req.(headers := req.headers + [(name, value)])) == Resolve(o, req)
  {
    var req' := req.(headers := req.headers + [(name, value)]);
    assert req'.headers[..|req'.headers| - 1] == req.headers;
    assert UtilHeaders(req') == Put(UtilHeaders(req), name, value);
    assert Values(req', AuthorizationHeader) == Values(req, AuthorizationHeader);
  }

  /** The scheme name is matched in any letter case, and what follows it is parsed as it stands. */
  lemma SchemeIgnoresCase(scheme: string, text: string)
    requires EqualsIgnoreCase(scheme, "Signature ")
    ensures FirstSignature([scheme + text]) == Some(text)
  {
    LowerAppend(scheme, text);
    assert Lower(scheme) == SignaturePrefix;
    assert (scheme + text)[|SignaturePrefix|..] == text;
    assert Qualifies(scheme + text) by {
      assert Lower(scheme + text)[..|SignaturePrefix|] == SignaturePrefix;
    }
  }

  /** A request whose one `authorization` value is `Signature ` and what `toSignatureHeader`
      wrote resolves to that signature: its key id, algorithm and signature text, the default
      header list, and the bytes the signature text decodes to. */
  lemma ResolvesWhatWasWritten(o: Oracles, req: Request, sig: HttpSignature)
    requires sig.keyId.Some? && sig.algorithm.Some? && sig.base64Signature.Some?
    requires '"' !in sig.keyId.value && '"' !in sig.base64Signature.value
    requires o.base64Decode(sig.base64Signature.value).Ok?
    requires req.headers == [(Lower(AuthorizationHeader), "Signature " + ToSignatureHeader(sig))]
    ensures Resolve(o, req) == Ok(Some(HttpSignature(sig.keyId, sig.algorithm, DefaultHeaders(Co), sig.base64Signature,
                                                     Some(o.base64Decode(sig.base64Signature.value).value))))
  {
    var h := ToSignatureHeader(sig);
    assert req.headers[..|req.headers| - 1] == [];
    assert UtilHeaders(req) == Put(map[], Lower(AuthorizationHeader), "Signature " + h);
    SchemeIgnoresCase("Signature ", h);
    RoundTrip(Co, sig);
  }
}

=== FILE: signing.dfy ===
/**
 * Producing and checking a signature: `sign`, `verify`, and the go tree's `signRsaSha256` and
 * `verifyRsaSha256` around the signature engine. The engine itself is an oracle; what is
 * modelled is the order of the checks, which key each side needs, and how each failure is
 * reported.
 */
module Signing {
  import opened Wrappers
  import opened Strings
  import opened Errors
  import opened Hex
  import opened Algorithms
  import opened Keys
  import opened Oracles
  import opened Http
  import opened Policy
  import opened Codec
  import opened Canonical

  /** An `OutboundTargetDefinition`: how this service signs requests to one target. */
  datatype OutboundTarget = OutboundTarget(
    keyId: Option<string>,
    algorithm: Option<Algorithm>,
    keyConfig: Option<KeyConfig>,
    policy: SignedHeadersConfig)

  /** An `InboundClientConfig`: how requests from one client are checked. */
  datatype InboundClient = InboundClient(
    keyId: Option<string>,
    algorithm: Option<Algorithm>,
    keyConfig: Option<KeyConfig>,
    enabled: bool)

  /** `defaultSigningAlgorithm`: what the go tree's `sign` always uses. */
  const DefaultSigningAlgorithm: Algorithm := RSA_SHA256_PSS

  const KeyConfigMissing: string := "Key config not found!"
  const PrivateKeyMissing: string := "Private key is required, yet not configured"
  const PublicKeyMissing: string := "Public key is required but not found!"
  const NotValidMessage: string := "Signature is not valid"

  /** `signRsaSha256`: an engine failure is wrapped; a missing key configuration or private key
      is reported by message, after the engine has been obtained. */
  function SignRsaSha256(o: Oracles, bytesToSign: seq<byte>, keyConfig: Option<KeyConfig>, alg: Algorithm): (r: Result<seq<byte>, Error>)
    ensures o.engine(alg).Some? ==> r == Err(WrappedCrypto(o.engine(alg).value))
    ensures o.engine(alg).None? && keyConfig.None? ==> r == Err(SignatureFailure(KeyConfigMissing))
    ensures o.engine(alg).None? && keyConfig.Some? && keyConfig.value.privateKey.None? ==>
      r == Err(SignatureFailure(PrivateKeyMissing))
    ensures r.Ok? <==> (o.engine(alg).None? && keyConfig.Some? && keyConfig.value.privateKey.Some? &&
                        o.sign(alg, keyConfig.value.privateKey.value, bytesToSign).Ok?)
    ensures r.Ok? ==> r.value == o.sign(alg, keyConfig.value.privateKey.value, bytesToSign).value
    ensures (o.engine(alg).None? && keyConfig.Some? && keyConfig.value.privateKey.Some? &&
             o.sign(alg, keyConfig.value.privateKey.value, bytesToSign).Err?) ==>
      r == Err(WrappedCrypto(o.sign(alg, keyConfig.value.privateKey.value, bytesToSign).error))
  {
    if o.engine(alg).Some? then Err(WrappedCrypto(o.engine(alg).value))
    else match keyConfig
      case None => Err(SignatureFailure(KeyConfigMissing))
      case Some(kc) =>
        match kc.privateKey
        case None => Err(SignatureFailure(PrivateKeyMissing))
        case Some(key) =>
          match o.sign(alg, key, bytesToSign)
          case Err(fault) => Err(WrappedCrypto(fault))
          case Ok(sig) => Ok(sig)
  }

  /** The message each engine exception is reported with by `verifyRsaSha256`. */
  function FailureMessage(fault: CryptoFailure): string {
    match fault
    case NoSuchAlgorithm(m) => "SHA256withRSA algorithm not found: " + m
    case InvalidKey(m) => "Invalid RSA key: " + m
    case SignatureFault(m) => "SignatureException: " + m
    case InvalidAlgorithmParameter(m) => "Invalid algoritm: " + m
    case NoSuchProvider(m) => "Provider not found:" + m
  }

  /** `verifyRsaSha256`: engine exceptions become messages, a rejected signature becomes
      `Signature is not valid`, and an accepted one no message. A missing key configuration or
      public key is not caught and escapes as an exception; so does a `null` algorithm or
      signature. */
  function VerifyRsaSha256(o: Oracles, signatureBytes: Option<seq<byte>>, signedBytes: seq<byte>,
                           keyConfig: Option<KeyConfig>, alg: Option<Algorithm>): (r: Result<Option<string>, Error>)
    ensures alg.None? ==> r == Err(NullPointer)
    ensures alg.Some? && o.engine(alg.value).Some? ==> r == Ok(Some(FailureMessage(o.engine(alg.value).value)))
    ensures r.Err? && alg.Some? ==> r.error in {SignatureFailure(KeyConfigMissing), SignatureFailure(PublicKeyMissing), NullPointer}
    ensures alg.Some? && o.engine(alg.value).None? && keyConfig.None? ==> r == Err(SignatureFailure(KeyConfigMissing))
    ensures (alg.Some? && o.engine(alg.value).None? && keyConfig.Some? && keyConfig.value.publicKey.None?) ==>
      r == Err(SignatureFailure(PublicKeyMissing))
    ensures (alg.Some? && o.engine(alg.value).None? && keyConfig.Some? && keyConfig.value.publicKey.Some? &&
             signatureBytes.None?) ==> r == Err(NullPointer)
    ensures (alg.Some? && o.engine(alg.value).None? && keyConfig.Some? && keyConfig.value.publicKey.Some? &&
             signatureBytes.Some? && o.verify(alg.value, keyConfig.value.publicKey.value, signedBytes, signatureBytes.value).Err?) ==>
      r == Ok(Some(FailureMessage(o.verify(alg.value, keyConfig.value.publicKey.value, signedBytes, signatureBytes.value).error)))
    ensures r == Ok(None) <==>
      alg.Some? && o.engine(alg.value).None? && keyConfig.Some? && keyConfig.value.publicKey.Some? &&
      signatureBytes.Some? && o.verify(alg.value, keyConfig.value.publicKey.value, signedBytes, signatureBytes.value) == Ok(true)
    ensures (alg.Some? && o.engine(alg.value).None? && keyConfig.Some? && keyConfig.value.publicKey.Some? &&
             signatureBytes.Some? && o.verify(alg.value, keyConfig.value.publicKey.value, signedBytes, signatureBytes.value) == Ok(false)) ==>
      r == Ok(Some(NotValidMessage))
  {
    match alg
    case None => Err(NullPointer)
    case Some(a) =>
      if o.engine(a).Some? then Ok(Some(FailureMessage(o.engine(a).value)))
      else match keyConfig
        case None => Err(SignatureFailure(KeyConfigMissing))
        case Some(kc) =>
          match kc.publicKey
          case None => Err(SignatureFailure(PublicKeyMissing))
          case Some(key) =>
            match signatureBytes
            case None => Err(NullPointer)
            case Some(sig) =>
              match o.verify(a, key, signedBytes, sig)
              case Err(fault) => Ok(Some(FailureMessage(fault)))
              case Ok(verified) => if verified then Ok(None) else Ok(Some(NotValidMessage))
  }

  /** The go tree's `verify`: the required-header gate, then `verifyRsaSha256` with the
      signature's own algorithm and the client's keys. */
  function VerifyGo(o: Oracles, sig: HttpSignature, signedBytes: seq<byte>, client: InboundClient, required: seq<string>): (r: Result<Option<string>, Error>)
    ensures RequiredHeaderGate(sig.headers, required).Some? ==> r == Ok(RequiredHeaderGate(sig.headers, required))
    ensures RequiredHeaderGate(sig.headers, required).None? ==>
      r == VerifyRsaSha256(o, sig.signatureBytes, signedBytes, client.keyConfig, sig.algorithm)
  {
    match RequiredHeaderGate(sig.headers, required)
    case Some(message) => Ok(Some(message))
    case None => VerifyRsaSha256(o, sig.signatureBytes, signedBytes, client.keyConfig, sig.algorithm)
  }

  /** The co tree's `verify`: the required-header gate, then the signature's `verifier`, a field
      the co tree never declares, taken here as a parameter. */
  function VerifyCo(sig: HttpSignature, signedBytes: seq<byte>, required: seq<string>, verifier: seq<byte> -> Option<string>): (r: Option<string>)
    ensures r.None? <==> (forall k | 0 <= k < |required| :: required[k] in sig.headers) && verifier(signedBytes).None?
    ensures RequiredHeaderGate(sig.headers, required).Some? ==> r == RequiredHeaderGate(sig.headers, required)
    ensures RequiredHeaderGate(sig.headers, required).None? ==> r == verifier(signedBytes)
  {
    match RequiredHeaderGate(sig.headers, required)
    case Some(message) => Some(message)
    case None => verifier(signedBytes)
  }

  /** `sign`, called on a receiving signature: the new signature takes the target's key id and
      algorithm and the headers the target's policy selects for the request, but the bytes that
      are signed are the signing string over the receiver's own header list. `signer` is the
      signing step: `signRsaSha256` with `RSA_SHA256_PSS` in the go tree, and the undeclared
      `signer` field in the co tree. */
  function Sign(f: Flavor, o: Oracles, receiver: HttpSignature, req: Request, target: OutboundTarget,
                added: NewHeaders, signer: seq<byte> -> Result<seq<byte>, Error>): (r: Result<(HttpSignature, NewHeaders), Error>)
    ensures HeaderBytesToSign(f, o, req, receiver.headers, added).Err? ==>
      r == Err(HeaderBytesToSign(f, o, req, receiver.headers, added).error)
    ensures HeaderBytesToSign(f, o, req, receiver.headers, added).Ok? &&
            signer(HeaderBytesToSign(f, o, req, receiver.headers, added).value.0).Err? ==>
      r == Err(signer(HeaderBytesToSign(f, o, req, receiver.headers, added).value.0).error)
    ensures r.Ok? <==> (HeaderBytesToSign(f, o, req, receiver.headers, added).Ok? &&
                        signer(HeaderBytesToSign(f, o, req, receiver.headers, added).value.0).Ok?)
    ensures r.Ok? ==>
      var signed := signer(HeaderBytesToSign(f, o, req, receiver.headers, added).value.0).value;
      r.value.0 == HttpSignature(target.keyId, target.algorithm,
                                 Headers(target.policy, req.httpMethod, UtilHeaders(req).Keys),
                                 Some(o.base64Encode(signed)), Some(signed)) &&
      r.value.1 == HeaderBytesToSign(f, o, req, receiver.headers, added).value.1
  {
    var headers := Headers(target.policy, req.httpMethod, UtilHeaders(req).Keys);
    match HeaderBytesToSign(f, o, req, receiver.headers, added)
    case Err(e) => Err(e)
    case Ok(toBeSigned) =>
      match signer(toBeSigned.0)
      case Err(e) => Err(e)
      case Ok(signed) =>
        Ok((HttpSignature(target.keyId, target.algorithm, headers, Some(o.base64Encode(signed)), Some(signed)), toBeSigned.1))
  }

  /** The go tree's signing step. */
  function GoSigner(o: Oracles, target: OutboundTarget): seq<byte> -> Result<seq<byte>, Error> {
    bytes => SignRsaSha256(o, bytes, target.keyConfig, DefaultSigningAlgorithm)
  }

  // ---------------------------------------------------------------------------
  // Properties

  /** Whatever the signature the go tree's `sign` advertises, the bytes are signed with
      `RSA_SHA256_PSS`. */
  lemma GoSignsWithPss(o: Oracles, receiver: HttpSignature, req: Request, target: OutboundTarget, added: NewHeaders)
    requires Sign(Go, o, receiver, req, target, added, GoSigner(o, target)).Ok?
    ensures var bytes := HeaderBytesToSign(Go, o, req, receiver.headers, added).value.0;
      var key := target.keyConfig.value.privateKey.value;
      target.keyConfig.Some? && target.keyConfig.value.privateKey.Some? &&
      Sign(Go, o, receiver, req, target, added, GoSigner(o, target)).value.0.signatureBytes ==
        Some(o.sign(RSA_SHA256_PSS, key, bytes).value)
  {
  }

  /** The signed bytes depend on the receiver's header list and not on the target's policy:
      two targets with different policies sign the same bytes, though the signatures they
      return list different headers. */
  lemma SignIgnoresPolicyForBytes(f: Flavor, o: Oracles, receiver: HttpSignature, req: Request,
                                  t1: OutboundTarget, t2: OutboundTarget, added: NewHeaders,
                                  signer: seq<byte> -> Result<seq<byte>, Error>)
    requires t1.(policy := t2.policy) == t2
    ensures Sign(f, o, receiver, req, t1, added, signer).Ok? <==> Sign(f, o, receiver, req, t2, added, signer).Ok?
    ensures Sign(f, o, receiver, req, t1, added, signer).Ok? ==>
      Sign(f, o, receiver, req, t1, added, signer).value.0 ==
      Sign(f, o, receiver, req, t2, added, signer).value.0.(headers := Headers(t1.policy, req.httpMethod, UtilHeaders(req).Keys))
  {
  }

  /** The header list a signature advertises is the one its signing string was built from only
      when the receiver's list is the policy's: a receiver listing only `(request-target)`,
      signing for a target whose policy selects nothing, signs a non-empty string yet
      advertises no headers, whose signing string is empty. */
  lemma SignedListDiffersFromAdvertised(f: Flavor, o: Oracles, req: Request, target: OutboundTarget)
    requires target.policy == NewBuilder().Build()
    ensures var receiver := HttpSignature(None, None, [RequestTarget], None, None);
      Headers(target.policy, req.httpMethod, UtilHeaders(req).Keys) == [] &&
      SignedString(f, o, req, receiver.headers, None).Ok? &&
      SignedString(f, o, req, receiver.headers, None).value.0 != SignedString(f, o, req, [], None).value.0
  {
    FreshBuilderIsEmpty(req.httpMethod, UtilHeaders(req).Keys);
    var lines := Lines(f, o, req, [RequestTarget], None).value.0;
    assert |lines| == 1;
    assert StartsWith(lines[0], RequestTarget + Separator);
    assert |SignedString(f, o, req, [RequestTarget], None).value.0| > 0;
  }

  /** In the go tree a missing key configuration or private key stops signing with its message
      once the engine is available; nothing is signed. */
  lemma GoSignNeedsPrivateKey(o: Oracles, receiver: HttpSignature, req: Request, target: OutboundTarget, added: NewHeaders)
    requires HeaderBytesToSign(Go, o, req, receiver.headers, added).Ok?
    requires o.engine(RSA_SHA256_PSS).None?
    requires target.keyConfig.None? || target.keyConfig.value.privateKey.None?
    ensures Sign(Go, o, receiver, req, target, added, GoSigner(o, target)).Err?
    ensures Sign(Go, o, receiver, req, target, added, GoSigner(o, target)).error ==
      SignatureFailure(if target.keyConfig.None? then KeyConfigMissing else PrivateKeyMissing)
  {
  }

  /** A signature missing a required header is rejected by the gate's message whatever the
      keys, the engine and the signed bytes: the engine is never consulted. */
  lemma GateBeforeCrypto(o1: Oracles, o2: Oracles, sig: HttpSignature, b1: seq<byte>, b2: seq<byte>,
                         c1: InboundClient, c2: InboundClient, required: seq<string>)
    requires exists k | 0 <= k < |required| :: required[k] !in sig.headers
    ensures VerifyGo(o1, sig, b1, c1, required) == VerifyGo(o2, sig, b2, c2, required)
    ensures VerifyGo(o1, sig, b1, c1, required).Ok? && VerifyGo(o1, sig, b1, c1, required).value.Some?
  {
  }

  /** The go tree accepts exactly when every required header is signed, the engine is available,
      the client has a public key and the engine verifies the stored signature bytes. */
  lemma GoAcceptsExactly(o: Oracles, sig: HttpSignature, signedBytes: seq<byte>, client: InboundClient, required: seq<string>)
    ensures VerifyGo(o, sig, signedBytes, client, required) == Ok(None) <==>
      (forall k | 0 <= k < |required| :: required[k] in sig.headers) &&
      sig.algorithm.Some? && o.engine(sig.algorithm.value).None? &&
      client.keyConfig.Some? && client.keyConfig.value.publicKey.Some? && sig.signatureBytes.Some? &&
      o.verify(sig.algorithm.value, client.keyConfig.value.publicKey.value, signedBytes, sig.signatureBytes.value) == Ok(true)
  {
  }

  /** Signing and verifying meet when the receiver's list is the advertised one: if the engine
      accepts its own PSS signature over the strict signing string, a go-tree signature whose
      target advertises `RSA_SHA256_PSS` and whose receiver lists the policy's headers passes
      `verify` for every required list it covers, with the bytes a verifier recomputes. */
  lemma SignThenVerify(o: Oracles, receiver: HttpSignature, req: Request, target: OutboundTarget,
                       client: InboundClient, required: seq<string>)
    requires target.algorithm == Some(RSA_SHA256_PSS)
    requires receiver.headers == Headers(target.policy, req.httpMethod, UtilHeaders(req).Keys)
    requires forall k | 0 <= k < |required| :: required[k] in receiver.headers
    requires Sign(Go, o, receiver, req, target, None, GoSigner(o, target)).Ok?
    requires client.keyConfig.Some? && client.keyConfig.value.publicKey.Some?
    requires var bytes := HeaderBytesToSign(Go, o, req, receiver.headers, None).value.0;
      o.verify(RSA_SHA256_PSS, client.keyConfig.value.publicKey.value, bytes,
               o.sign(RSA_SHA256_PSS, target.keyConfig.value.privateKey.value, bytes).value) == Ok(true)
    ensures var sig := Sign(Go, o, receiver, req, target, None, GoSigner(o, target)).value.0;
      VerifyGo(o, sig, HeaderBytesToSign(Go, o, req, sig.headers, None).value.0, client, required) == Ok(None)
  {
    var sig := Sign(Go, o, receiver, req, target, None, GoSigner(o, target)).value.0;
    assert sig.headers == receiver.headers;
    assert RequiredHeaderGate(sig.headers, required).None?;
  }
}

=== FILE: strings.dfy ===
/**
 * The few `java.lang.String` operations the signing core relies on,
 * over `string` = `seq<char>` (one `char` per UTF-16 code unit).
 */
module Strings {
  import opened Wrappers

  /** `s.indexOf(ch, from)`: an index at or after `from` holding `ch`, or -1; `IndexOfFirst`
      shows it is the first. Every search here starts at a non-negative index. */
  function IndexOf(s: string, ch: char, from: nat): (r: int)
    ensures -1 <= r < |s|
    ensures r != -1 ==> from <= r && s[r] == ch
    decreases |s| - from
  {
    if from >= |s| then -1
    else if s[from] == ch then from
    else IndexOf(s, ch, from + 1)
  }

  /** -1 exactly when `ch` does not occur from `from` on; otherwise no earlier index holds it. */
  lemma {:induction false} IndexOfFirst(s: string, ch: char, from: nat)
    ensures IndexOf(s, ch, from) == -1 <==> forall i | from <= i < |s| :: s[i] != ch
    ensures IndexOf(s, ch, from) != -1 ==> forall i | from <= i < IndexOf(s, ch, from) :: s[i] != ch
    decreases |s| - from
  {
    if from < |s| && s[from] != ch {
      IndexOfFirst(s, ch, from + 1);
    }
  }

  /** `IndexOf` finds `x` when `x` holds `ch` and nothing between `from` and `x` does. */
  lemma IndexOfAt(s: string, ch: char, from: nat, x: nat)
    requires from <= x < |s| && s[x] == ch
    requires forall i | from <= i < x :: s[i] != ch
    ensures IndexOf(s, ch, from) == x
  {
    IndexOfFirst(s, ch, from);
  }

  /** `IndexOf` gives -1 when nothing from `from` on holds `ch`. */
  lemma IndexOfNone(s: string, ch: char, from: nat)
    requires forall i | from <= i < |s| :: s[i] != ch
    ensures IndexOf(s, ch, from) == -1
  {
    IndexOfFirst(s, ch, from);
  }

  /** `String.trim()` treats every character up to U+0020 as white space. */
  predicate IsTrimmable(c: char) {
    c <= ' '
  }

  function TrimStart(s: string): (r: string)
    ensures |r| <= |s| && r == s[|s| - |r|..]
    ensures forall i | 0 <= i < |s| - |r| :: IsTrimmable(s[i])
    ensures |r| == 0 || !IsTrimmable(r[0])
  {
    if |s| > 0 && IsTrimmable(s[0]) then TrimStart(s[1..]) else s
  }

  function TrimEnd(s: string): (r: string)
    ensures |r| <= |s| && r == s[..|r|]
    ensures forall i | |r| <= i < |s| :: IsTrimmable(s[i])
    ensures |r| == 0 || !IsTrimmable(r[|r| - 1])
  {
    if |s| > 0 && IsTrimmable(s[|s| - 1]) then TrimEnd(s[..|s| - 1]) else s
  }

  /** `String.trim()`. */
  function Trim(s: string): (r: string)
    ensures |r| == 0 || (!IsTrimmable(r[0]) && !IsTrimmable(r[|r| - 1]))
    ensures |s| > 0 && !IsTrimmable(s[0]) && !IsTrimmable(s[|s| - 1]) ==> r == s
  {
    TrimEnd(TrimStart(s))
  }

  /** ASCII lower-casing of one character. */
  function LowerChar(c: char): char {
    if 'A' <= c <= 'Z' then (c as int + 32) as char else c
  }

  /** `toLowerCase()`, restricted to the ASCII letters. */
  function Lower(s: string): string {
    seq(|s|, i requires 0 <= i < |s| => LowerChar(s[i]))
  }

  lemma LowerAppend(a: string, b: string)
    ensures Lower(a + b) == Lower(a) + Lower(b)
  {
  }

  /** `equalsIgnoreCase`, restricted to the ASCII letters. */
  predicate EqualsIgnoreCase(a: string, b: string) {
    Lower(a) == Lower(b)
  }

  predicate StartsWith(s: string, prefix: string) {
    |prefix| <= |s| && s[..|prefix|] == prefix
  }

  /** What Java's string concatenation prints for a possibly-null string. */
  function JavaString(s: Option<string>): string {
    s.GetOr("null")
  }

  /** `String.join(sep, parts)` (also `Collectors.joining(sep)`). */
  function Join(sep: string, parts: seq<string>): string
    decreases |parts|
  {
    if |parts| == 0 then ""
    else if |parts| == 1 then parts[0]
    else parts[0] + sep + Join(sep, parts[1..])
  }

  /** Splitting at every occurrence of `ch`; the partner of `Join` with a one-character separator. */
  function Split(s: string, ch: char): (r: seq<string>)
    ensures |r| > 0
    decreases |s|
  {
    var i := IndexOf(s, ch, 0);
    if i == -1 then [s] else [s[..i]] + Split(s[i + 1..], ch)
  }

  lemma {:induction false} JoinAppend(sep: string, parts: seq<string>, p: string)
    requires |parts| > 0
    ensures Join(sep, parts + [p]) == Join(sep, parts) + sep + p
    decreases |parts|
  {
    if |parts| == 1 {
      assert parts + [p] == [parts[0], p];
      assert Join(sep, [p]) == p;
    } else {
      assert (parts + [p])[1..] == parts[1..] + [p];
      JoinAppend(sep, parts[1..], p);
    }
  }

  /** Joining lines free of `ch` with `ch` and splitting the result at `ch` gives the lines back. */
  lemma {:induction false} SplitJoin(parts: seq<string>, ch: char)
    requires |parts| > 0
    requires forall k | 0 <= k < |parts| :: ch !in parts[k]
    ensures Split(Join([ch], parts), ch) == parts
    decreases |parts|
  {
    if |parts| == 1 {
      assert ch !in parts[0];
      IndexOfNone(parts[0], ch, 0);
    } else {
      var s := Join([ch], parts);
      var rest := Join([ch], parts[1..]);
      assert s == parts[0] + [ch] + rest;
      assert ch !in parts[0];
      assert s[|parts[0]|] == ch;
      IndexOfAt(s, ch, 0, |parts[0]|);
      assert s[..|parts[0]|] == parts[0];
      assert s[|parts[0]| + 1..] == rest;
      SplitJoin(parts[1..], ch);
    }
  }

  function DecimalDigit(d: nat): char
    requires d < 10
  {
    "0123456789"[d]
  }

  function NatToString(n: nat): string
    decreases n
  {
    if n < 10 then [DecimalDigit(n)] else NatToString(n / 10) + [DecimalDigit(n % 10)]
  }

  /** `String.valueOf(int)`. */
  function IntToString(i: int): string {
    if i < 0 then "-" + NatToString(-i) else NatToString(i)
  }
}

=== FILE: wrappers.dfy ===
/**
 * Optional values and fallible results.
 *
 * `Option` stands for a Java reference that may be null (or an `Optional`),
 * `Result` for a computation that either returns a value or throws.
 */
module Wrappers {

  datatype Option<+T> = None | Some(value: T) {
    function GetOr(default: T): T {
      match this
      case Some(v) => v
      case None => default
    }
  }

  datatype Result<+T, +E> = Ok(value: T) | Err(error: E)
}
